=== FILE: README.md ===
# Feature management provider chain, in Dafny

A model of the core of Microsoft.FeatureManagement.Plus, a layer over
Microsoft.FeatureManagement that serves feature definitions through a chain
of providers. The model covers both generations of the code:

- the current one, under `src/Microsoft.FeatureManagement.Plus*`;
- the legacy one, the root-level `FeatureManagement` namespace.

It covers these parts, module by module:

- `Text` and `Mapping`: the mapping of a persisted `Feature` entity to a
  `FeatureDefinition`. The filter list is split on `,`, empty pieces are
  dropped, then `Distinct`, then `Trim`.
- `MemoryCache`: the shared `IMemoryCache`. Every cache-capable object
  (a cache decorator, a filter) owns an epoch. An entry may carry the token
  of one epoch of one owner, and it is served only while that epoch is
  current. `InvalidateCache` (legacy: `ExpireAllCacheItems`) swaps the
  token source and cancels the old one. In the model that is one step that
  bumps the owner's epoch.
- `Chain`: a provider chain as an inductive datatype. The node kinds are
  sources, composites, cache decorators, logging decorators, delegating
  providers and null. `Chain` also holds the cache keys and the ids the
  invalidation walk visits.
- `Providers` and `LegacyProviders`: the composite provider, the cache
  decorator and the logging decorator of each generation. A read returns
  its answer (a definition, null, or an exception) together with the cache
  it leaves behind.
- `Cascade`: `RecursivelyClearCache` and `ResetCache` in both generations.
- `Results` and `LegacyResults`: the Result/Fault pattern. A fault or error
  carries an explicit reference identity, because success means "the fault
  IS the shared `None` instance".
- `DbFeatureService`: the SQL-backed source. It models the table-name
  guard, row decoding with NULL columns, the rewrapping of lookup failures,
  and the connection-pool policy. The database is reduced to what the
  driver hands back.
- `TenantFilter`: the legacy tenant filter, a cached membership check with
  its own epoch.
- `Generations`: lemmas that set the two generations side by side, where
  they agree and where they part.

Sources outside the model (databases, configuration) are values: an answer
per name and a completely consumed enumeration. Exceptions are data
(`Call`, `Answer.Failed`, `Stream.fault`). Logging, timing and async are
dropped. Log messages do not change an outcome; the one place a logger can,
a null logger rejected by the logging call, is modelled as a `hasLogger`
flag in `ExecuteWithLogger`.

## Behaviour worth knowing before reading the model

- The cache decorators read `_cacheResetTokenSource.Token` when the call
  starts, not when the entry is stored. The tenant filter does the same.
  So an answer that arrives after an invalidation is stored already
  expired (`Providers.ResetDuringMissIsNotLost`).
- Neither generation's composite catches a child's exception. A child's
  exception ends the lookup and reaches the caller
  (`Providers.FirstMatchStops`).
- Legacy `ICacheManager` declares `Expire()`, but its implementers define
  `ExpireAllCacheItems`. The model uses `ExpireAllCacheItems`.

## Model

| member | source | states |
|---|---|---|
| Text.SplitAll | src/Microsoft.FeatureManagement.Plus/Extensions/FeatureManagementExtensions.cs:131 | splitting on `,` gives at least one piece and no piece contains `,` |
| Text.JoinSplitAll | src/Microsoft.FeatureManagement.Plus/Extensions/FeatureManagementExtensions.cs:131 | joining the pieces with `,` gives back the original string |
| Text.SplitAllJoin | src/Microsoft.FeatureManagement.Plus/Extensions/FeatureManagementExtensions.cs:131 | splitting a join of comma-free pieces gives those pieces back |
| Text.NonEmpty | src/Microsoft.FeatureManagement.Plus/Extensions/FeatureManagementExtensions.cs:131 | `RemoveEmptyEntries` keeps exactly the non-empty pieces and never adds any |
| Text.NonEmptyAppend | src/Microsoft.FeatureManagement.Plus/Extensions/FeatureManagementExtensions.cs:131 | dropping empty pieces works piecewise over concatenation, so the kept pieces stay in source order with their multiplicity |
| Text.SplitAllAppend | src/Microsoft.FeatureManagement.Plus/Extensions/FeatureManagementExtensions.cs:131 | the raw pieces of `a + "," + b` are those of `a` followed by those of `b` |
| Text.Split | src/Microsoft.FeatureManagement.Plus/Extensions/FeatureManagementExtensions.cs:131 | every piece kept is non-empty and comma-free, and every non-empty piece of the raw split is kept |
| Text.SplitAppend | src/Microsoft.FeatureManagement.Plus/Extensions/FeatureManagementExtensions.cs:131 | the split keeps source order: the pieces of `a + "," + b` are the pieces of `a` followed by the pieces of `b` |
| Text.SplitPair | src/Microsoft.FeatureManagement.Plus/Extensions/FeatureManagementExtensions.cs:131 | two non-empty comma-free pieces joined by a comma split back into exactly those two |
| Text.SplitSkipsEmpty | src/Microsoft.FeatureManagement.Plus/Extensions/FeatureManagementExtensions.cs:131 | the empty piece between two adjacent commas is removed |
| Text.Distinct | src/Microsoft.FeatureManagement.Plus/Extensions/FeatureManagementExtensions.cs:131 | the result holds the same values as the input, each exactly once, and is no longer |
| Text.DistinctSnoc | src/Microsoft.FeatureManagement.Plus/Extensions/FeatureManagementExtensions.cs:131 | first-occurrence order: appending a value extends the distinct view exactly when the value is new |
| Text.Trim | src/Microsoft.FeatureManagement.Plus/Extensions/FeatureManagementExtensions.cs:135 | the result is a slice of the input with only white space removed around it, and it neither starts nor ends with white space |
| Text.TrimSolid | src/Microsoft.FeatureManagement.Plus/Extensions/FeatureManagementExtensions.cs:135 | a string that neither starts nor ends with white space is unchanged by trimming |
| Text.TrimKeepsCommaFree | src/Microsoft.FeatureManagement.Plus/Extensions/FeatureManagementExtensions.cs:131-135 | trimming a comma-free piece leaves it comma-free |
| Text.TrimIdempotent | src/Microsoft.FeatureManagement.Plus/Extensions/FeatureManagementExtensions.cs:135 | trimming twice equals trimming once |
| Text.TrimAllWhiteSpace | src/Microsoft.FeatureManagement.Plus/Extensions/FeatureManagementExtensions.cs:135 | a string of white space only trims to the empty string |
| Mapping.TrimAll | src/Microsoft.FeatureManagement.Plus/Extensions/FeatureManagementExtensions.cs:131-137 | each filter is trimmed in place, keeping order and count |
| Mapping.FilterNames | src/Microsoft.FeatureManagement.Plus/Extensions/FeatureManagementExtensions.cs:129-137 | null or empty `Filters` give no names; otherwise the i-th name is the trimmed i-th piece of the first-occurrence `Distinct` of the split, so the names are exactly the trimmed non-empty comma pieces in source order, one per distinct untrimmed piece |
| Mapping.EnabledFor | src/Microsoft.FeatureManagement.Plus/Extensions/FeatureManagementExtensions.cs:127-140 | `EnabledFor` has one filter configuration per filter name, in order, named after it |
| Mapping.FilterNamesAreTrimmed | src/Microsoft.FeatureManagement.Plus/Extensions/FeatureManagementExtensions.cs:135 | no mapped filter name starts or ends with white space or contains `,` |
| Mapping.DuplicateSurvivesTrim | src/Microsoft.FeatureManagement.Plus/Extensions/FeatureManagementExtensions.cs:131-135 | `"a, a"` maps to two filters both named `a`, because `Distinct` runs before `Trim` |
| Mapping.ExactDuplicatesCollapse | src/Microsoft.FeatureManagement.Plus/Extensions/FeatureManagementExtensions.cs:131 | `"a,,a"` maps to the single filter `a` |
| Mapping.WhiteSpacePieceGivesEmptyName | src/Microsoft.FeatureManagement.Plus/Extensions/FeatureManagementExtensions.cs:131-135 | a white-space piece becomes a filter with an empty name |
| Mapping.Definition | src/Microsoft.FeatureManagement.Plus/Extensions/FeatureManagementExtensions.cs:118-125 | name is the id; status is `Conditional` iff enabled; requirement type is `All` iff the code is 1; filters come from the filter list |
| Mapping.MapEntity | src/Microsoft.FeatureManagement.Plus/Extensions/FeatureManagementExtensions.cs:109-148 | a null entity raises the wrapping `InvalidOperationException` and nothing else fails; a non-null entity maps field by field, with `EnabledFor` built from its filter list |
| Mapping.MapEntityLegacy | FeatureManagementExtensions.cs:110-145 | the legacy mapping returns null exactly for a null entity and otherwise maps the same fields, `EnabledFor` included |
| Mapping.MappingGenerationsAgree | FeatureManagementExtensions.cs:110-145 | both generations map every entity alike and differ only on null, where one throws and the other returns null |
| MemoryCache.Commit | src/Microsoft.FeatureManagement.Plus/Extensions/FeatureManagementExtensions.cs:206-216 | storing an entry touches no epoch and no other key |
| MemoryCache.CommitThenLookup | src/Microsoft.FeatureManagement.Plus/Extensions/FeatureManagementExtensions.cs:209-214 | an entry just stored under the current token, or under none, is served |
| MemoryCache.ExecuteWithCache | src/Microsoft.FeatureManagement.Plus/Extensions/FeatureManagementExtensions.cs:203-228 | the factory runs iff the key misses; a hit returns the stored value and changes nothing; a value is stored with the given token; an exception is passed on and nothing is stored |
| MemoryCache.RepeatIsHit | src/Microsoft.FeatureManagement.Plus/Extensions/FeatureManagementExtensions.cs:203-228 | a second call with the same key and no invalidation in between is a hit that returns the first value and ignores the second factory |
| MemoryCache.Invalidate | src/Microsoft.FeatureManagement.Plus/Extensions/FeatureManagementExtensions.cs:272-275 | the swap advances the owner's epoch, leaves every other owner's epoch as it was, and touches no entry |
| MemoryCache.InvalidateCancelsOldToken | src/Microsoft.FeatureManagement.Plus/Extensions/FeatureManagementExtensions.cs:272-275 | after the swap the old token is cancelled and the token now in the field is not |
| MemoryCache.InvalidateExpires | src/Microsoft.FeatureManagement.Plus/Extensions/FeatureManagementExtensions.cs:255-257 | invalidation stops exactly the entries tied to the owner's current token; entries with no token or another owner's token stay served |
| MemoryCache.TriggerTokenCancellation | src/Microsoft.FeatureManagement.Plus/Extensions/FeatureManagementExtensions.cs:265-278 | a null instance raises `ArgumentNullException`; otherwise the old token is cancelled, the new one is not, and no entry changes |
| MemoryCache.InvalidateForcesMiss | src/Microsoft.FeatureManagement.Plus/Extensions/FeatureManagementExtensions.cs:255-275 | after the owner invalidates, a key it filled with its token misses and the factory runs again |
| Chain.FeatureKey | src/Microsoft.FeatureManagement.Plus/Patterns/FeatureDefinitionProviderCacheDecorator.cs:63-66 | the per-name key is `Features:` followed by the name, with no dependence on the decorator |
| Chain.FeatureKeyInjective | src/Microsoft.FeatureManagement.Plus/Patterns/FeatureDefinitionProviderCacheDecorator.cs:63-66 | two names share a key iff they are equal |
| Chain.AggregateKeyIsNoFeatureKey | src/Microsoft.FeatureManagement.Plus/Patterns/FeatureDefinitionProviderCacheDecorator.cs:44 | the current aggregate key equals no per-name key |
| Chain.LegacyAggregateKeyCollides | Providers/FeatureDefinitionProviderCacheDecorator.cs:37 | the legacy aggregate key is the per-name key of the feature `all`, and of no other |
| Chain.ChainIds | src/Microsoft.FeatureManagement.Plus/Extensions/FeatureManagementExtensions.cs:181-201 | a walk that invalidates nothing started at a node that is not cache-capable; what the walk reaches is stated by the cascade members |
| Chain.InvalidateAllEpochs | src/Microsoft.FeatureManagement.Plus/Extensions/FeatureManagementExtensions.cs:181-201 | invalidating a list of owners advances each owner once per occurrence, and no other owner |
| Providers.KeepChildren | src/Microsoft.FeatureManagement.Plus/FeatureDefinitionProviders/CompositeFeatureDefinitionProvider.cs:20-27 | the kept children are exactly the input's non-null entries other than the composite itself |
| Providers.KeepChildrenAppend | src/Microsoft.FeatureManagement.Plus/FeatureDefinitionProviders/CompositeFeatureDefinitionProvider.cs:20-27 | filtering distributes over concatenation, so the input's order is kept |
| Providers.NewComposite | src/Microsoft.FeatureManagement.Plus/FeatureDefinitionProviders/CompositeFeatureDefinitionProvider.cs:12-28 | a null collection raises `ArgumentNullException` for `providers`; otherwise the composite holds exactly the non-null entries other than itself, in their input order (so `KeepChildrenAppend` carries over) |
| Providers.NullAndSelfAreDropped | src/Microsoft.FeatureManagement.Plus/FeatureDefinitionProviders/CompositeFeatureDefinitionProvider.cs:19-27 | `[self, null, x]` builds the same composite as `[x]` |
| Providers.NewCacheDecorator | src/Microsoft.FeatureManagement.Plus/Patterns/FeatureDefinitionProviderCacheDecorator.cs:21-31 | the first null among target, cache, logger and options raises `ArgumentNullException` naming it; otherwise the decorator is cache-capable, wraps the target and attaches per the options |
| Providers.NewLoggerDecorator | src/Microsoft.FeatureManagement.Plus/Patterns/FeatureDefinitionProviderLoggerDecorator.cs:17-21 | a null target or logger raises `ArgumentNullException` naming it; otherwise the decorator exposes the target and is not cache-capable |
| Providers.TokenFor | src/Microsoft.FeatureManagement.Plus/Patterns/FeatureDefinitionProviderCacheDecorator.cs:39 | a read attaches a token iff tracking is on, and it is the token current when the call starts |
| Providers.CompleteGet | src/Microsoft.FeatureManagement.Plus/Patterns/FeatureDefinitionProviderCacheDecorator.cs:35-39 | a miss stores a value or null under its key with the start-of-call token; an exception leaves the cache unchanged; other keys are untouched |
| Providers.Get | src/Microsoft.FeatureManagement.Plus/FeatureDefinitionProviders/CompositeFeatureDefinitionProvider.cs:41-57 | a lookup changes no epoch, and a composite rejects an empty name with `ArgumentNullException` before consulting any child |
| Providers.CacheMiss | src/Microsoft.FeatureManagement.Plus/Patterns/FeatureDefinitionProviderCacheDecorator.cs:33-40 | a miss answers with exactly Target's answer and changes no epoch |
| Providers.FirstMatch | src/Microsoft.FeatureManagement.Plus/FeatureDefinitionProviders/CompositeFeatureDefinitionProvider.cs:48-56 | with no children the lookup is null and the cache is unchanged |
| Providers.FirstMatchStops | src/Microsoft.FeatureManagement.Plus/FeatureDefinitionProviders/CompositeFeatureDefinitionProvider.cs:48-55 | once a child answers with a definition or an exception, later children affect neither the answer nor the cache |
| Providers.FirstMatchContinues | src/Microsoft.FeatureManagement.Plus/FeatureDefinitionProviders/CompositeFeatureDefinitionProvider.cs:48-55 | while earlier children answer null, the lookup continues with the later ones from the cache they left |
| Providers.FirstNonNull | src/Microsoft.FeatureManagement.Plus/FeatureDefinitionProviders/CompositeFeatureDefinitionProvider.cs:48-56 | the result is null iff every answer is null, and otherwise is the first answer that is not null |
| Providers.FirstMatchOfSources | src/Microsoft.FeatureManagement.Plus/FeatureDefinitionProviders/CompositeFeatureDefinitionProvider.cs:48-56 | over sources, the composite's lookup is the first non-null child answer in order, and the cache is untouched |
| Providers.NonNull | src/Microsoft.FeatureManagement.Plus/Patterns/FeatureDefinitionProviderLoggerDecorator.cs:74-77 | the output holds exactly the non-null elements and is no longer than the input |
| Providers.NonNullAppend | src/Microsoft.FeatureManagement.Plus/Patterns/FeatureDefinitionProviderLoggerDecorator.cs:56-78 | dropping nulls distributes over concatenation, so order is kept |
| Providers.GetAll | src/Microsoft.FeatureManagement.Plus/FeatureDefinitionProviders/CompositeFeatureDefinitionProvider.cs:30-39 | enumeration changes no epoch |
| Providers.CacheMissAll | src/Microsoft.FeatureManagement.Plus/Patterns/FeatureDefinitionProviderCacheDecorator.cs:42-59 | an aggregate miss changes no epoch; if Target's listing faults, the fault comes back with no items and nothing is stored; otherwise Target's items come back and are stored as one list under the aggregate key with the token read at the start, which a lookup then serves; every other key reads as after Target's listing |
| Providers.ConcatAll | src/Microsoft.FeatureManagement.Plus/FeatureDefinitionProviders/CompositeFeatureDefinitionProvider.cs:32-38 | zero children yield an empty sequence and leave the cache unchanged |
| Providers.ConcatAllAppend | src/Microsoft.FeatureManagement.Plus/FeatureDefinitionProviders/CompositeFeatureDefinitionProvider.cs:32-38 | enumeration splits over the children: without an exception in the first part the elements are concatenated; after one, the second part is never started |
| Providers.ConcatAllOfSources | src/Microsoft.FeatureManagement.Plus/FeatureDefinitionProviders/CompositeFeatureDefinitionProvider.cs:32-38 | over sources that complete, the composite yields every element of every child in child order, then element order, with no deduplication |
| Providers.CacheRepeatIsHit | src/Microsoft.FeatureManagement.Plus/Patterns/FeatureDefinitionProviderCacheDecorator.cs:33-40 | a repeat lookup with no invalidation in between returns the first answer and leaves the cache as it was, whatever Target would answer now |
| Providers.CacheInvalidateForcesMiss | src/Microsoft.FeatureManagement.Plus/Patterns/FeatureDefinitionProviderCacheDecorator.cs:68-71 | after `InvalidateCache`, an entry created with the token attached is not served and Target is asked again |
| Providers.CacheUnattachedSurvivesInvalidate | src/Microsoft.FeatureManagement.Plus/Extensions/FeatureManagementExtensions.cs:209-212 | without the token attached, invalidation does not reach the entry, which is still served |
| Providers.CacheDoesNotStoreExceptions | src/Microsoft.FeatureManagement.Plus/Patterns/FeatureDefinitionProviderCacheDecorator.cs:35-39 | Target's exception is passed on and the cache is not filled |
| Providers.ResetDuringMissIsNotLost | src/Microsoft.FeatureManagement.Plus/Patterns/FeatureDefinitionProviderCacheDecorator.cs:39 | an answer stored after an invalidation that happened during the miss is not served; with a token read at store time it would be |
| Providers.LookupFactory | src/Microsoft.FeatureManagement.Plus/Patterns/FeatureDefinitionProviderCacheDecorator.cs:35-39 | the factory throws iff Target throws, and otherwise returns Target's definition or null |
| Providers.CacheGetIsExecuteWithCache | src/Microsoft.FeatureManagement.Plus/Patterns/FeatureDefinitionProviderCacheDecorator.cs:33-40 | the decorator's lookup is `ExecuteWithCache` under the per-name key with Target's answer as the factory |
| Providers.AggregateReplays | src/Microsoft.FeatureManagement.Plus/Patterns/FeatureDefinitionProviderCacheDecorator.cs:44-58 | the list materialised on a miss is replayed in order on the next enumeration, whatever Target would yield now |
| Providers.AggregateInvalidateForcesMiss | src/Microsoft.FeatureManagement.Plus/Patterns/FeatureDefinitionProviderCacheDecorator.cs:44-53 | after invalidation the aggregate is materialised again |
| Providers.AggregateFailureYieldsNothing | src/Microsoft.FeatureManagement.Plus/Patterns/FeatureDefinitionProviderCacheDecorator.cs:44-53 | an exception while materialising yields no element, is passed on, and nothing is stored |
| Providers.AggregateAndLookupsAreIndependent | src/Microsoft.FeatureManagement.Plus/Patterns/FeatureDefinitionProviderCacheDecorator.cs:44-66 | a lookup never changes the aggregate entry, and filling the aggregate never changes a per-name entry |
| Providers.SharedKeyHidesLaterChild | src/Microsoft.FeatureManagement.Plus/Patterns/FeatureDefinitionProviderCacheDecorator.cs:63-66 | behind two cached children, a feature only the second knows is hidden by the first's cached null, while the uncached composite finds it |
| Providers.LoggerGetPassesThrough | src/Microsoft.FeatureManagement.Plus/Patterns/FeatureDefinitionProviderLoggerDecorator.cs:23-37 | the logging decorator returns exactly Target's answer, null included, and rethrows Target's exception |
| Providers.LoggerGetAllDropsNulls | src/Microsoft.FeatureManagement.Plus/Patterns/FeatureDefinitionProviderLoggerDecorator.cs:53-78 | the logging decorator yields Target's non-null elements in Target's order and ends with Target's exception, if any |
| LegacyProviders.NewComposite | Providers/CompositeFeatureDefinitionProvider.cs:15-24 | a null collection raises `ArgumentNullException`; otherwise the children are the non-null entries other than itself, in their input order, as in the current composite |
| LegacyProviders.NewCacheDecorator | Providers/FeatureDefinitionProviderCacheDecorator.cs:19-24 | the legacy decorator accepts any target, null included, and is cache-capable |
| LegacyProviders.NewLoggerDecorator | Providers/FeatureDefinitionProviderLoggerDecorator.cs:17-21 | a null logger raises `ArgumentNullException`; a null target is accepted |
| LegacyProviders.Get | Providers/CompositeFeatureDefinitionProvider.cs:33-45 | a legacy lookup changes no epoch, and a logging decorator never raises |
| LegacyProviders.CacheMiss | Providers/FeatureDefinitionProviderCacheDecorator.cs:26-33 | a legacy miss answers with exactly Target's answer and changes no epoch |
| LegacyProviders.FirstMatch | Providers/CompositeFeatureDefinitionProvider.cs:35-44 | with no children the lookup is null and the cache is unchanged |
| LegacyProviders.FirstMatchOfSources | Providers/CompositeFeatureDefinitionProvider.cs:33-45 | over sources, the legacy lookup is the first non-null answer for every name, the empty name included |
| LegacyProviders.FirstMatchStops | Providers/CompositeFeatureDefinitionProvider.cs:35-42 | a child's definition or exception ends the legacy lookup; later children have no effect |
| LegacyProviders.LoggerGetSwallowsFailures | Providers/FeatureDefinitionProviderLoggerDecorator.cs:23-28 | the legacy logging decorator returns Target's value or null, and null when Target fails, a null Target included |
| LegacyProviders.Join | Providers/CompositeFeatureDefinitionProvider.cs:30 | `Concat` yields the first sequence and then the second, unless the first ends with an exception |
| LegacyProviders.GetAll | Providers/CompositeFeatureDefinitionProvider.cs:26-31 | legacy enumeration changes no epoch, and the decorators never throw at call time |
| LegacyProviders.CacheMissAll | Providers/FeatureDefinitionProviderCacheDecorator.cs:35-44 | an aggregate miss never throws at call time and changes no epoch; a throwing or faulting listing stores nothing and its error comes back as the fault; otherwise the items come back and are stored as one list under the aggregate key with the token current at the start; every other key reads as after Target's listing |
| LegacyProviders.StartAll | Providers/CompositeFeatureDefinitionProvider.cs:28-30 | starting the children's enumerations changes no epoch |
| LegacyProviders.StartAllOfSources | Providers/CompositeFeatureDefinitionProvider.cs:28-30 | over sources that complete, a non-empty legacy composite yields every child's elements in order |
| LegacyProviders.StartAllStartsEveryChild | Providers/CompositeFeatureDefinitionProvider.cs:28-30 | every child is started at call time, even after a child whose sequence ends in an exception |
| LegacyProviders.LoggerGetAll | Providers/FeatureDefinitionProviderLoggerDecorator.cs:31-36 | the legacy logging decorator yields Target's sequence unchanged, nulls included; a call-time exception or a null Target becomes a `NullReferenceException` when the sequence is read |
| LegacyProviders.CacheRepeatIsHit | Providers/FeatureDefinitionProviderCacheDecorator.cs:26-33 | a repeat legacy lookup with no expiry in between is a hit that returns the first answer |
| LegacyProviders.ExpireForcesMiss | Providers/FeatureDefinitionProviderCacheDecorator.cs:53-56 | after `ExpireAllCacheItems`, the legacy decorator asks Target again |
| LegacyProviders.AggregateThenLookupAllCollides | Providers/FeatureDefinitionProviderCacheDecorator.cs:37 | after an enumeration, looking up the feature `all` through the same cache fails with "Unable to cast object of type" the definition list "to type" `FeatureDefinition` |
| LegacyProviders.LookupAllThenAggregateCollides | Providers/FeatureDefinitionProviderCacheDecorator.cs:37-43 | after a lookup of `all`, enumeration yields nothing and fails: a cast error from `FeatureDefinition` to the definition list for a cached definition, a null-argument error for a cached null |
| Cascade.ClearCache | src/Microsoft.FeatureManagement.Plus/Extensions/FeatureManagementExtensions.cs:181-201 | the loop invalidates each cache-capable node on the `Target` chain, advancing each owner once per visit, and touches no entry |
| Cascade.ChainInvalidatedOnce | src/Microsoft.FeatureManagement.Plus/Extensions/FeatureManagementExtensions.cs:181-201 | on a chain without repeats, each cache-capable node on it is invalidated exactly once and no other owner is touched |
| Cascade.CascadeStopsAtNonDecorators | src/Microsoft.FeatureManagement.Plus/Extensions/FeatureManagementExtensions.cs:190-197 | the walk enters no composite or delegating provider, even one behind a cache decorator |
| Cascade.LegacyClearCache | FeatureManagementExtensions.cs:203-218 | the legacy recursion invalidates the same nodes as the walk and throws iff the chain ends in null |
| Cascade.CascadeGenerationsAgree | FeatureManagementExtensions.cs:203-218 | the loop and the recursion leave the same cache, and the recursion fails only on a chain ending in null |
| Cascade.FilterIds | src/Microsoft.FeatureManagement.Plus/Extensions/FeatureManagementExtensions.cs:172-178 | the ids selected are exactly those of the cache-capable filters |
| Cascade.ResetCache | src/Microsoft.FeatureManagement.Plus/Extensions/FeatureManagementExtensions.cs:152-179 | a null manager raises; a root that is not a composite invalidates nothing; otherwise every child's chain is invalidated in order, then every cache-capable filter, and no entry is touched |
| Cascade.ResetCacheEpochs | src/Microsoft.FeatureManagement.Plus/Extensions/FeatureManagementExtensions.cs:166-178 | each owner advances once per occurrence among the children's chains and the cache-capable filters |
| Cascade.LegacyClearChildren | FeatureManagementExtensions.cs:187-191 | the legacy cascade over the children succeeds iff no child's chain ends in null, and then clears every chain in order |
| Cascade.LegacyResetCache | FeatureManagementExtensions.cs:185-201 | the legacy reset succeeds iff the manager is non-null and no chain ends in null, and then invalidates the chains and the cache-capable filters |
| Cascade.ResetGenerationsAgree | FeatureManagementExtensions.cs:185-201 | on a composite root whose chains do not end in null, both resets leave the same cache |
| DbFeatureService.TableName | src/Microsoft.FeatureManagement.Plus.Db/DBFeatureService.cs:33-35 | a null or white-space table name becomes `Features`; any other is kept |
| DbFeatureService.TableNameIsNeverBlank | src/Microsoft.FeatureManagement.Plus.Db/DBFeatureService.cs:33-35 | the table name in use always holds a character that is not white space |
| DbFeatureService.AsciiUpper | src/Microsoft.FeatureManagement.Plus.Db/DBFeatureService.cs:38 | ASCII lower-case letters are upper-cased and every other character is unchanged |
| DbFeatureService.AcceptedIffMatchesPattern | src/Microsoft.FeatureManagement.Plus.Db/DBFeatureService.cs:38 | the guard accepts exactly the names matching `^[a-zA-Z0-9_]+$`, because every casing of `Features` already matches |
| DbFeatureService.AcceptedIffWordsWithFinalNewline | src/Microsoft.FeatureManagement.Plus.Db/DBFeatureService.cs:37-40 | the guard accepts a name iff it starts with a word character and every character is a word character, except that the last one may be a newline (where .NET's `$` also matches) |
| DbFeatureService.AcceptedNameIsQuotable | src/Microsoft.FeatureManagement.Plus.Db/DBFeatureService.cs:38-41 | an accepted name is non-empty, holds word characters and at most a final newline, and never a bracket, `;`, quote or space |
| DbFeatureService.TrailingNewlinePasses | src/Microsoft.FeatureManagement.Plus.Db/DBFeatureService.cs:38 | `"Flags\n"` is accepted; `"Flags\n\n"` and a bracket-closing injection are rejected |
| DbFeatureService.NewService | src/Microsoft.FeatureManagement.Plus.Db/DBFeatureService.cs:26-54 | null options or logger raise `ArgumentNullException` in that order; a bad table name raises `ArgumentException`; a null configuration gives an empty connection string; a missing one gives null |
| DbFeatureService.ConstructedTableIsQuotable | src/Microsoft.FeatureManagement.Plus.Db/DBFeatureService.cs:37-41 | no constructed service queries a table whose name holds `]` |
| DbFeatureService.RequirementCode | src/Microsoft.FeatureManagement.Plus.Db/DBFeatureService.cs:151-152 | `DBNull` reads as 0, an in-range value as itself, and every result fits in 32 bits |
| DbFeatureService.DecodeRow | src/Microsoft.FeatureManagement.Plus.Db/DBFeatureService.cs:144-164 | decoding fails iff a conversion fails; otherwise the name is the id, status is `Conditional` iff `Enabled` is true, `All` iff the code is 1, and the filters come from the filter column |
| DbFeatureService.NullRowDecodesToDisabled | src/Microsoft.FeatureManagement.Plus.Db/DBFeatureService.cs:146-160 | an all-NULL row decodes to a disabled feature with an empty name, `Any` and no filters |
| DbFeatureService.Get | src/Microsoft.FeatureManagement.Plus.Db/DBFeatureService.cs:56-96 | an empty name raises `ArgumentNullException` with no connection taken; otherwise the answer is never null, a definition iff a row is read and decoded, and every failure is the `MissingFeature` exception; the connection is dropped iff opening it failed |
| DbFeatureService.DbSourceEndsTheSearch | src/Microsoft.FeatureManagement.Plus.Db/DBFeatureService.cs:76-87 | in a composite, the database source settles every non-empty name, and no later child is consulted |
| DbFeatureService.DecodeRows | src/Microsoft.FeatureManagement.Plus.Db/DBFeatureService.cs:109-115 | rows are decoded in order and each success is yielded; the first row that fails to decode ends the listing with its exception; otherwise the reader's own fault ends it |
| DbFeatureService.GetAll | src/Microsoft.FeatureManagement.Plus.Db/DBFeatureService.cs:98-125 | a failure to open faults the listing with the original exception and yields nothing; otherwise the listing is the rows decoded with the lookup's own row decoding |
| DbFeatureService.ListingAgreesWithLookup | src/Microsoft.FeatureManagement.Plus.Db/DBFeatureService.cs:111-113 | each listed definition is what a lookup of its name returns for the same row |
| DbFeatureService.ListingHasNoNulls | src/Microsoft.FeatureManagement.Plus.Db/DBFeatureService.cs:111-113 | the listing never yields null, so the logging decorator drops nothing from it |
| DbFeatureService.ReturnPolicy | src/Microsoft.FeatureManagement.Plus.Db/DBFeatureService.cs:180-188 | a returned connection is either kept or closed, never both |
| DbFeatureService.Acquire | src/Microsoft.FeatureManagement.Plus.Db/DBFeatureService.cs:127-142 | an open connection is used as is; any other is opened, and a failure to open is passed on |
| DbFeatureService.BrokenConnectionsAreNotUsed | src/Microsoft.FeatureManagement.Plus.Db/DBFeatureService.cs:180-188 | the pool keeps a connection iff it is not broken, and an acquired connection is always open |
| TenantFilter.CacheKey | Filters/TenantFilter.cs:18-21 | the key is `TenantFilter:`, the feature name, `:` and the 36-character tenant id |
| TenantFilter.CacheKeyInjective | Filters/TenantFilter.cs:18-21 | two feature and tenant pairs share a key iff they are equal |
| TenantFilter.CacheKeyIsNoFeatureKey | Filters/TenantFilter.cs:18-21 | a verdict key is never a feature-definition key or the legacy aggregate key |
| TenantFilter.Evaluate | Filters/ContextFilterBase.cs:32-41 | a null context raises before the cache is read; the database is queried iff the key misses; the verdict is whether a row pairs the feature and the tenant; it is cached with the filter's token; a query exception is passed on and not cached |
| TenantFilter.HitValue | FeatureManagementExtensions.cs:223 | a cached verdict is returned iff the entry holds a flag; a cached null fails the unboxing with a null reference and any other value fails the cast with a message naming its own type and `System.Boolean` |
| TenantFilter.EnabledColumnIsIgnored | Filters/ContextFilterBase.cs:38 | the verdict is the same with every row's `Enabled` switched off |
| TenantFilter.RepeatIsHit | Filters/ContextFilterBase.cs:34-40 | a repeat evaluation with no expiry in between does not query and returns the first verdict, whatever the table holds now |
| TenantFilter.ExpireAllCacheItems | Filters/ContextFilterBase.cs:46-49 | expiry cancels the filter's current token, leaves every other owner alone and touches no entry |
| TenantFilter.ExpireForcesQuery | Filters/ContextFilterBase.cs:40-49 | after expiry, a pair the filter cached is queried again |
| TenantFilter.EvaluateKeepsDefinitions | Filters/TenantFilter.cs:18-21 | evaluating a filter never changes a cached feature definition |
| TenantFilter.ResetExpiresVerdicts | FeatureManagementExtensions.cs:194-200 | a legacy reset whose filters include the tenant filter succeeds and makes its cached verdicts be queried again |
| Generations.LookupAgreesOverSources | Providers/CompositeFeatureDefinitionProvider.cs:33-45 | over sources both composites give the same lookup for every non-empty name; only the current one rejects the empty name |
| Generations.CachedLookupAgrees | Providers/FeatureDefinitionProviderCacheDecorator.cs:26-33 | on a miss, an attaching cache decorator over such a composite behaves the same in both generations |
| Generations.ListingAgreesOverSources | Providers/CompositeFeatureDefinitionProvider.cs:26-31 | over sources that complete, both composites yield the same elements, except that an empty legacy composite throws where the current one yields nothing |
| Generations.LoggerGenerationsDiffer | Providers/FeatureDefinitionProviderLoggerDecorator.cs:23-28 | over a target that raises on a lookup, the current logging decorator passes the exception on and the legacy one answers null |
| Generations.EagerListingStartsLaterChildren | Providers/CompositeFeatureDefinitionProvider.cs:28-30 | after a faulting child, the legacy composite still fills a later cache decorator's aggregate, while the current one stops |
| Generations.ValueGenerationsDiffer | ResultPattern/Result.cs:117 | `Value` agrees on successes; on a failure the current one throws and the legacy one returns the default |
| Generations.MatchGenerationsDiffer | ResultPattern/ResultExtensions.cs:19-33 | on success both `Match` forms run `success` then `always`; on failure only the legacy one runs `always`, with the default |
| Base.TypeName | src/Microsoft.FeatureManagement.Plus/Patterns/Results.cs:265 | a fault code from an exception is the type's short name, ending in `Exception` for the runtime's own types |
| Results.Success | src/Microsoft.FeatureManagement.Plus/Patterns/Results.cs:30 | a result built from a value is a success |
| Results.Failure | src/Microsoft.FeatureManagement.Plus/Patterns/Results.cs:31-32 | a result built from a fault keeps that fault and no value, and is a success iff the fault is `Fault.None` itself |
| Results.Value | src/Microsoft.FeatureManagement.Plus/Patterns/Results.cs:128-139 | `Value` returns the stored value iff the result is a success, and otherwise raises `InvalidOperationException` |
| Results.ValueOfSuccess | src/Microsoft.FeatureManagement.Plus/Patterns/Results.cs:118-135 | reading back a success gives the value it was built from |
| Results.FailureOfNoneIsSuccess | src/Microsoft.FeatureManagement.Plus/Patterns/Results.cs:123-126 | `Failure(Fault.None)` is a success and its `Value` is the default |
| Results.LookalikeNoneIsFailure | src/Microsoft.FeatureManagement.Plus/Patterns/Results.cs:254 | a fault with empty code and message that is not the shared instance makes a failure |
| Results.FromException | src/Microsoft.FeatureManagement.Plus/Patterns/Results.cs:265 | a fault from an exception is not `None` and carries the type name and the message |
| Results.FromString | src/Microsoft.FeatureManagement.Plus/Patterns/Results.cs:271-272 | a fault from a string is not `None` and carries `Error.FromString` and the string |
| Results.FaultOf | src/Microsoft.FeatureManagement.Plus/Patterns/Results.cs:268-269 | the fault of a result is its own fault, and of null is `Fault.None` |
| Results.ToValue | src/Microsoft.FeatureManagement.Plus/Patterns/Results.cs:143 | null converts to the default; a result converts through `Value`, raising iff it is a failure |
| Results.ConversionRoundTrips | src/Microsoft.FeatureManagement.Plus/Patterns/Results.cs:141-145 | value to result to value, and fault to result to fault, are round trips; a failing result does not convert to a value |
| Results.Try | src/Microsoft.FeatureManagement.Plus/Patterns/Results.cs:51-67 | a null delegate raises `ArgumentNullException` naming `function`; a value gives a success; an exception gives a failure named after its type, passed once to the handler if there is one |
| Results.TryAction | src/Microsoft.FeatureManagement.Plus/Patterns/Results.cs:35-49 | a null action raises `ArgumentNullException` naming `action`; otherwise the result is a success iff the action returns, and a failure carries the exception's type name |
| Results.TryAwait | src/Microsoft.FeatureManagement.Plus/Patterns/Results.cs:69-81 | a null delegate raises `ArgumentNullException` naming `function`; a failure carries the literal code `ex` and the exception's message |
| Results.TryAndTryAwaitAgree | src/Microsoft.FeatureManagement.Plus/Patterns/Results.cs:51-81 | `Try` and `TryAwait` succeed on the same delegates and give the same success |
| Results.MatchWith | src/Microsoft.FeatureManagement.Plus/Patterns/Results.cs:173-180 | the first null among `result`, `success`, `failure` raises `ArgumentNullException` naming it; otherwise the success branch gets the value iff the result is a success, the failure branch gets the fault otherwise |
| Results.MatchDo | src/Microsoft.FeatureManagement.Plus/Patterns/Results.cs:182-200 | the first null among `result`, `success`, `failure`, `always` raises `ArgumentNullException` naming it, with no callback run; on success `success` then `always` run; on failure only `failure`; the same result comes back |
| Results.ExecuteWithLogger | src/Microsoft.FeatureManagement.Plus/Patterns/Results.cs:210-241 | a null delegate raises `ArgumentNullException` naming `function`; otherwise a null logger raises `ArgumentNullException` naming `logger` before the delegate runs; a value is returned; a failure raises a plain `Exception` when `throwError` is set, and the `Value` exception otherwise |
| Results.ExecuteWithLoggerNeverSwallows | src/Microsoft.FeatureManagement.Plus/Patterns/Results.cs:231-240 | a failing delegate never yields a value, whatever the logger and `throwError` |
| Results.TaskValue | src/Microsoft.FeatureManagement.Plus/Patterns/Results.cs:157-165 | a null task raises `ArgumentNullException` for `resultTask` with its own message; otherwise the awaited result is converted to `T`: a success gives its value, a failure raises the `Value` exception, and a null result gives the default |
| Results.TaskValueUnwraps | src/Microsoft.FeatureManagement.Plus/Patterns/Results.cs:143-165 | awaiting the task of a success yields its value and awaiting the task of a failure raises, never handing back the result object |
| Results.AsyncValue | src/Microsoft.FeatureManagement.Plus/Patterns/Results.cs:167-171 | a null result raises `ArgumentNullException` naming `result`; otherwise the sequence is read through `Value`, so a failure raises |
| LegacyResults.FreshEmptyErrorIsNotNone | ResultPattern/Error.cs:13-19 | `new Error("", "")` is not `None` |
| LegacyResults.FromString | ResultPattern/Error.cs:29 | an error from a string has a null code and the string as message |
| LegacyResults.FromException | ResultPattern/Error.cs:25 | an error from an exception has the type name as code and the exception's message |
| LegacyResults.ErrorOf | ResultPattern/Error.cs:27 | the error of a result is its own error; a null result raises `NullReferenceException` |
| LegacyResults.Success | ResultPattern/Result.cs:26 | a result built from a value is a success |
| LegacyResults.Failure | ResultPattern/Result.cs:27-28 | a result built from an error keeps it, has no value, and is a success iff the error is `Error.None` itself |
| LegacyResults.Value | ResultPattern/Result.cs:117 | `Value` is the stored value on success and the default on failure, never an exception |
| LegacyResults.FailureOfNoneIsSuccess | ResultPattern/Result.cs:19-28 | `Failure(Error.None)` is a success whose value is the default |
| LegacyResults.ValueOfSuccess | ResultPattern/Result.cs:117 | reading back a success gives the value it was built from |
| LegacyResults.Try | ResultPattern/Result.cs:45-60 | the result is a success iff the delegate returns; a null delegate fails with `NullReferenceException`; a failure goes to the handler if there is one |
| LegacyResults.TryAwait | ResultPattern/Result.cs:63-74 | the result is a success iff the delegate returns; every failure, a null delegate included, carries the code `ex` |
| LegacyResults.MatchWith | ResultPattern/ResultExtensions.cs:14-17 | a null result, or a null delegate on the branch taken, raises `NullReferenceException`; otherwise a success goes to `success` with its value and a failure to `failure` with its error |
| LegacyResults.MatchDo | ResultPattern/ResultExtensions.cs:19-33 | a null result raises before any callback; a null callback on the branch taken raises before anything runs; otherwise that callback runs first, and a null `always` then raises, else `always` runs with the value (the default on failure) and the same result comes back |
| LegacyResults.ExecuteWithLogger | ResultPattern/ResultExtensions.cs:40-73 | a null delegate raises `NullReferenceException` when its method name is read; otherwise a null logger raises `ArgumentNullException` naming `logger` before the delegate runs; a value is returned; a failure raises a plain `Exception` when `throwError` is set and yields the default otherwise |
| LegacyResults.AsyncValue | ResultPattern/ResultExtensions.cs:13 | a null result raises `NullReferenceException`; otherwise the value on success and the default on failure |
| LegacyResults.TaskValue | ResultPattern/ResultExtensions.cs:11 | a null task or a null awaited result raises `NullReferenceException`; otherwise the result's `Value` |

## Left out

- Databases, Entity Framework and SQL execution are left out. Every source is a value: an answer per name and a consumed enumeration. The EF-backed providers and the second SQL service repeat logic the model already covers.
- Concurrency and async are left out: the atomicity of `Interlocked.Exchange`, cache thread-safety, `await`, and the sync-over-async `IsEnabled`. Invalidation is one atomic step in a sequential model.
- Logging, timing, eviction callbacks, entry disposal and `Dispose` of token sources are left out, because none of them changes an outcome.
- Dependency-injection wiring is left out (`WithMemoryCache`, `WithLogging`, `AddSingletonFeatureManagementPlus`, `InitializeFeatures`, `GlobalServices`, options classes). The legacy reset takes the registered composite's children as an argument.
- Reflection is left out: the read of `FeatureManager._featureDefinitionProvider` and the `As<T>` casts. The current reset takes the manager's root provider as an argument.
- `TryTask`, `TryAsyncEnumerable` and `Map` are left out. They have the body of `Try` without a handler, or are plain application. `Results.Try` with no handler stands for them.
- The legacy `Try(Action)` is left out as a separate member. It is `LegacyResults.Try` over a unit delegate with no handler.
- Disposal of the enumerator in the current logging decorator is left out. Each enumeration is modelled as consumed to its end.
- `DelegatingFeatureDefinitionProvider` is modelled only as a non-decorator that forwards, so the cascade stops at it.
- A null feature name is modelled as the empty name. Every modelled check treats the two alike.
- The `Modified` column and the `Description` fallback are left out. `Modified` does not reach a definition. The fallback never applies, because a NULL column reads as the empty string.
- A missing column is left out. Reading it would raise `IndexOutOfRangeException`.
- A null logger given to the legacy decorator or filter is left out. Its `ExpireAllCacheItems` would throw after the swap.
- The samples and the test-feature JSON are left out.
- DbFeatureService.EqualsIgnoringCase: compares ASCII letters only. Unicode case mappings that `OrdinalIgnoreCase` also applies are left out. The pattern check alone decides every input, so the guard's verdict is unaffected.
- TenantFilter.Evaluate: the query compares the feature id and the tenant id by exact equality. The database compares them under the column's collation, which is case-insensitive by default; collations are left out.
- TenantFilter.CacheKey: the tenant id is any 36-character string. The layout of the "D" format beyond its length is left out.
- Chain.CacheCapable: the current cache decorator implements `ICacheable`, while the cascade and `TriggerTokenCancellation` test for `ICacheObjects`; read literally, a decorator that is only `ICacheable` would fail that test and the cascade would skip it. The model assumes every cache decorator is reached by the cascade, and a source is cache-capable when its flag says so.
- Providers.NewCacheDecorator: the current decorator hands `TrackCacheItemEviction` and its token to a five-argument `ExecuteWithCache` overload that is not part of this model; only the four-argument one exists there, and it attaches a token only when one is passed. The model assumes the flag decides whether the token is attached, and stores it as the decorator's `attach` flag. That assumption also underlies `Providers.TokenFor`, `Providers.CacheMiss`, `Providers.CacheMissAll` and `Providers.CacheUnattachedSurvivesInvalidate`.
- Providers.Get: its own contract states only that reads change no epoch and that the empty-name check comes first. The lookup itself is stated by `Providers.FirstMatchStops`, `Providers.FirstMatchOfSources`, `Providers.CacheRepeatIsHit`, `Providers.CacheGetIsExecuteWithCache` and `Providers.LoggerGetPassesThrough`.
- Providers.GetAll: its own contract states only that enumeration changes no epoch. The elements are stated by `Providers.ConcatAllAppend`, `Providers.ConcatAllOfSources`, `Providers.AggregateReplays` and `Providers.LoggerGetAllDropsNulls`.
- LegacyProviders.Get: its own contract states only the epoch frame and that a logging decorator never raises. The rest is stated by `LegacyProviders.FirstMatchOfSources`, `LegacyProviders.FirstMatchStops` and `LegacyProviders.LoggerGetSwallowsFailures`.
- LegacyProviders.GetAll: its own contract states only the epoch frame and that decorators never throw at call time. The rest is stated by `LegacyProviders.StartAllOfSources`, `LegacyProviders.StartAllStartsEveryChild` and `LegacyProviders.LoggerGetAll`.
- Chain.ChainIds: its own contract states only that a walk visiting nothing started at a node that is not cache-capable. `Cascade.ClearCache` and `Cascade.ChainInvalidatedOnce` state what the walk does.

## Findings

| source | as written | input that shows it | evidently intended | confidence | as-written member | corrected member |
|---|---|---|---|---|---|---|
| Providers/FeatureDefinitionProviderCacheDecorator.cs:37 | the legacy decorator caches the whole listing under `GetCacheKey("all")`, which is `"Features:all"`, the key of a lookup of the feature named `all` | a feature named `all`: enumerate, then look up `all` through the same decorator; the lookup finds a list and fails the cast | an aggregate key outside the per-name key space, as the current decorator has with `nameof(FeatureDefinitionProviderCacheDecorator)` | medium; not executed | LegacyProviders.AggregateThenLookupAllCollides | Providers.AggregateAndLookupsAreIndependent |

=== FILE: base.dfy ===
/** Shared vocabulary: optional values (C# references that may be null)
    and the exceptions the feature-management core raises or lets through. */
module Base {

  /** A C# reference or nullable value: None stands for `null`. */
  datatype Option<+T> = None | Some(value: T) {
    /** The value, or `default` for null (C#'s `??`). */
    function GetOr(default: T): T {
      match this
      case Some(v) => v
      case None => default
    }
  }

  /** The outcome of a call that may throw: its return value or the
      exception it raised. */
  datatype Call<+T> = Returned(value: T) | Raised(error: Exc)

  /** A delegate supplied by the caller, reduced to what it does when
      invoked: return a value or throw. */
  datatype Computation<+T> = Returns(result: T) | Throws(thrown: Exc)

  /** The .NET exception types that the modelled code throws, catches or
      lets through. `Other` stands for anything raised by code outside the
      model (a database driver, a configuration source, user delegates).
      `FeatureManagement` carries its `FeatureManagementError` code. */
  datatype ExcKind =
    | ArgumentNull
    | Argument
    | InvalidOperation
    | InvalidCast
    | NullReference
    | FeatureManagement(error: string)
    | PlainException
    | Other(typeName: string)

  /** A thrown exception: its runtime type and its `Message`. */
  datatype Exc = Exc(kind: ExcKind, message: string)

  /** The runtime's message for dereferencing null. */
  const NullReferenceMessage := "Object reference not set to an instance of an object."

  /** Dereferencing null. */
  const NullReferenceError := Exc(NullReference, NullReferenceMessage)

  /** `new ArgumentNullException(nameof(param))`. */
  function ArgumentNullFor(param: string): Exc {
    Exc(ArgumentNull, "Value cannot be null. (Parameter '" + param + "')")
  }

  /** `ex.GetType().Name`, which the Result pattern uses as a fault code. */
  function TypeName(k: ExcKind): (name: string)
    ensures k.Other? ==> name == k.typeName
    ensures !k.Other? ==> |name| >= 9 && name[|name| - 9..] == "Exception"
  {
    if k.Other? then k.typeName
    else
      var stem := TypeStem(k);
      assert (stem + "Exception")[|stem|..] == "Exception";
      stem + "Exception"
  }

  /** The part of a runtime exception type's name before `Exception`. */
  function TypeStem(k: ExcKind): string
    requires !k.Other?
  {
    match k
    case ArgumentNull => "ArgumentNull"
    case Argument => "Argument"
    case InvalidOperation => "InvalidOperation"
    case InvalidCast => "InvalidCast"
    case NullReference => "NullReference"
    case FeatureManagement(_) => "FeatureManagement"
    case PlainException => ""
  }
}

=== FILE: cascade.dfy ===
/** The cache reset in both generations: `RecursivelyClearCache` walks the
    `Target` chain from one provider and invalidates every cache-capable
    node on it; `ResetCache` does that for each child of the root composite
    and then invalidates every cache-capable feature filter. */
module Cascade {
  import opened Base
  import opened MemoryCache
  import opened Chain

  /** A registered feature filter: its identity and whether it can be
      invalidated (`ICacheObjects`, legacy `ICacheManager`). */
  datatype Filter = Filter(id: NodeId, cacheCapable: bool)

  /** What the reset reads from a `FeatureManager`: its provider and its
      filters. */
  datatype Manager = Manager(root: Node, filters: seq<Filter>)

  /** What a step left behind and the exception that ended it, if any:
      invalidations done before a throw stay done. */
  datatype Effect = Effect(store: Store, thrown: Option<Exc>)

  // ---------------------------------------------------------- the current loop

  /** `RecursivelyClearCache` (current): a loop that invalidates the node if
      it is cache-capable and moves to `Target` while the node is a
      decorator. */
  method ClearCache(n: Node, s: Store) returns (s': Store)
    ensures s' == InvalidateAll(s, ChainIds(n))
    ensures s'.entries == s.entries
    ensures forall o :: Epoch(s', o) == Epoch(s, o) + Count(ChainIds(n), o)
  {
    var p := n;
    s' := s;
    while true
      invariant InvalidateAll(s', ChainIds(p)) == InvalidateAll(s, ChainIds(n))
      decreases p
    {
      var here := if CacheCapable(p) then [p.id] else [];
      InvalidateAllAppend(s', here, if IsDecorator(p) then ChainIds(p.target) else []);
      assert here + [] == here;
      if CacheCapable(p) {
        assert InvalidateAll(s', here) == Invalidate(s', p.id);
        s' := Invalidate(s', p.id);
      }
      if IsDecorator(p) {
        p := p.target;
      } else {
        break;
      }
    }
    forall o
      ensures Epoch(s', o) == Epoch(s, o) + Count(ChainIds(n), o)
    {
      InvalidateAllEpochs(s, ChainIds(n), o);
    }
  }

  /** When the chain holds no object twice, each cache-capable node on it is
      invalidated exactly once and every other owner is left alone. */
  lemma ChainInvalidatedOnce(n: Node, s: Store, o: NodeId)
    requires forall i, j :: 0 <= i < j < |ChainIds(n)| ==> ChainIds(n)[i] != ChainIds(n)[j]
    ensures o in ChainIds(n) ==> Epoch(InvalidateAll(s, ChainIds(n)), o) == Epoch(s, o) + 1
    ensures o !in ChainIds(n) ==> Epoch(InvalidateAll(s, ChainIds(n)), o) == Epoch(s, o)
  {
    InvalidateAllEpochs(s, ChainIds(n), o);
    if o in ChainIds(n) {
      CountUnique(ChainIds(n), o);
    } else {
      CountAbsent(ChainIds(n), o);
    }
  }

  /** The walk does not enter a composite or a delegating provider, even one
      wrapped by a cache decorator: only the decorator itself is reached. */
  lemma CascadeStopsAtNonDecorators(id: NodeId, inner: NodeId, children: seq<Node>, wrapped: Node,
                                    attach: bool)
    ensures ChainIds(Composite(id, children)) == []
    ensures ChainIds(Delegating(id, wrapped)) == []
    ensures ChainIds(LoggerDecorator(id, CacheDecorator(inner, Composite(id, children), attach)))
         == [inner]
  {
  }

  // ------------------------------------------------------- the legacy recursion

  /** The Target chain from `n` ends in a null reference. */
  predicate EndsInNull(n: Node) {
    n.Missing? || (IsDecorator(n) && EndsInNull(n.target))
  }

  /** `RecursivelyClearCache` (legacy): the same walk written recursively.
      `provider.GetType()` on the null at the end of a chain throws, after
      the invalidations above it are done. */
  function LegacyClearCache(n: Node, s: Store): (e: Effect)
    ensures e.store == InvalidateAll(s, ChainIds(n))
    ensures e.thrown.Some? <==> EndsInNull(n)
    ensures e.thrown.Some? ==> e.thrown.value == NullReferenceError
  {
    if n.Missing? then Effect(s, Some(NullReferenceError))
    else
      var s1 := if CacheCapable(n) then Invalidate(s, n.id) else s;
      var here := if CacheCapable(n) then [n.id] else [];
      assert InvalidateAll(s, here) == s1;
      if IsDecorator(n) then
        InvalidateAllAppend(s, here, ChainIds(n.target));
        LegacyClearCache(n.target, s1)
      else
        assert here + [] == here;
        Effect(s1, None)
  }

  /** Both generations reach the same nodes: the legacy recursion leaves the
      cache exactly as the current loop does, and differs only by throwing
      when the chain ends in null. */
  method CascadeGenerationsAgree(n: Node, s: Store) returns (current: Store)
    ensures current == LegacyClearCache(n, s).store
    ensures LegacyClearCache(n, s).thrown.None? <==> !EndsInNull(n)
  {
    current := ClearCache(n, s);
  }

  // ------------------------------------------------------------- ResetCache

  /** The chain ids of each child in turn. */
  function ChildrenIds(children: seq<Node>): seq<NodeId> {
    if |children| == 0 then []
    else ChildrenIds(children[..|children| - 1]) + ChainIds(children[|children| - 1])
  }

  /** The ids of the cache-capable filters, in order. */
  function FilterIds(filters: seq<Filter>): (ids: seq<NodeId>)
    ensures forall o :: o in ids <==> exists i :: 0 <= i < |filters| && filters[i].cacheCapable && filters[i].id == o
  {
    if |filters| == 0 then []
    else
      var last := filters[|filters| - 1];
      var front := filters[..|filters| - 1];
      assert forall i :: 0 <= i < |front| ==> front[i] == filters[i];
      FilterIds(front) + (if last.cacheCapable then [last.id] else [])
  }

  const NullManagerError :=
    Exc(ArgumentNull, "FeatureManager cannot be null. (Parameter 'featureManager')")

  /** `ResetCache` (current): a null manager throws; a root that is not a
      composite ends the reset with nothing invalidated, filters included;
      otherwise each child's chain is cleared in order, then each
      cache-capable filter is invalidated. */
  method ResetCache(manager: Option<Manager>, s: Store) returns (c: Call<Store>)
    ensures manager.None? ==> c == Raised(NullManagerError)
    ensures manager.Some? && !manager.value.root.Composite? ==> c == Returned(s)
    ensures manager.Some? && manager.value.root.Composite? ==>
      c == Returned(InvalidateAll(InvalidateAll(s, ChildrenIds(manager.value.root.children)),
                                  FilterIds(manager.value.filters)))
    ensures c.Returned? ==> c.value.entries == s.entries
  {
    if manager.None? {
      return Raised(NullManagerError);
    }
    var m := manager.value;
    if !m.root.Composite? {
      return Returned(s);
    }
    var children := m.root.children;
    var t := s;
    var i := 0;
    while i < |children|
      invariant 0 <= i <= |children|
      invariant t == InvalidateAll(s, ChildrenIds(children[..i]))
    {
      t := ClearCache(children[i], t);
      assert children[..i + 1][..i] == children[..i];
      InvalidateAllAppend(s, ChildrenIds(children[..i]), ChainIds(children[i]));
      i := i + 1;
    }
    assert children[..|children|] == children;
    var filters := m.filters;
    var u := t;
    var j := 0;
    while j < |filters|
      invariant 0 <= j <= |filters|
      invariant u == InvalidateAll(t, FilterIds(filters[..j]))
    {
      var here := if filters[j].cacheCapable then [filters[j].id] else [];
      assert filters[..j + 1][..j] == filters[..j];
      InvalidateAllAppend(t, FilterIds(filters[..j]), here);
      if filters[j].cacheCapable {
        assert InvalidateAll(u, here) == Invalidate(u, filters[j].id);
        u := Invalidate(u, filters[j].id);
      } else {
        assert FilterIds(filters[..j]) + here == FilterIds(filters[..j]);
      }
      j := j + 1;
    }
    assert filters[..|filters|] == filters;
    return Returned(u);
  }

  /** The reset in numbers: an owner advances once per occurrence among the
      children's chains and the cache-capable filters. */
  lemma ResetCacheEpochs(children: seq<Node>, filters: seq<Filter>, s: Store, o: NodeId)
    ensures Epoch(InvalidateAll(InvalidateAll(s, ChildrenIds(children)), FilterIds(filters)), o)
         == Epoch(s, o) + Count(ChildrenIds(children), o) + Count(FilterIds(filters), o)
  {
    InvalidateAllEpochs(s, ChildrenIds(children), o);
    InvalidateAllEpochs(InvalidateAll(s, ChildrenIds(children)), FilterIds(filters), o);
  }

  /** The legacy cascade over the registered composite's children, in
      order; the first throw ends it. */
  function LegacyClearChildren(children: seq<Node>, s: Store): (e: Effect)
    ensures e.thrown.None? ==> e.store == InvalidateAll(s, ChildrenIds(children))
    ensures e.thrown.None? <==> forall i :: 0 <= i < |children| ==> !EndsInNull(children[i])
  {
    if |children| == 0 then Effect(s, None)
    else
      var front := children[..|children| - 1];
      var last := children[|children| - 1];
      assert forall i :: 0 <= i < |front| ==> front[i] == children[i];
      var e := LegacyClearChildren(front, s);
      if e.thrown.Some? then e
      else
        InvalidateAllAppend(s, ChildrenIds(front), ChainIds(last));
        LegacyClearCache(last, e.store)
  }

  /** `ResetCache` (legacy): no null check and no early exit. It clears the
      chains of the registered composite's children, then reads the
      manager's filters, which throws for a null manager, then expires each
      cache-capable filter. */
  function LegacyResetCache(children: seq<Node>, filters: Option<seq<Filter>>, s: Store): (e: Effect)
    ensures e.thrown.None? <==>
      filters.Some? && forall i :: 0 <= i < |children| ==> !EndsInNull(children[i])
    ensures e.thrown.None? ==>
      e.store == InvalidateAll(InvalidateAll(s, ChildrenIds(children)), FilterIds(filters.value))
  {
    var cleared := LegacyClearChildren(children, s);
    if cleared.thrown.Some? then cleared
    else if filters.None? then Effect(cleared.store, Some(NullReferenceError))
    else Effect(InvalidateAll(cleared.store, FilterIds(filters.value)), None)
  }

  /** The generations reset the same owners: on a manager whose root is a
      composite, a legacy reset over that composite's children that does not
      throw leaves the cache exactly as the current reset does. */
  method ResetGenerationsAgree(id: NodeId, children: seq<Node>, filters: seq<Filter>, s: Store)
    returns (current: Call<Store>)
    requires forall i :: 0 <= i < |children| ==> !EndsInNull(children[i])
    ensures current == Returned(LegacyResetCache(children, Some(filters), s).store)
    ensures LegacyResetCache(children, Some(filters), s).thrown.None?
  {
    current := ResetCache(Some(Manager(Composite(id, children), filters)), s);
  }
}

=== FILE: chain.dfy ===
/** The provider chain shared by both generations: what a read returns, the
    nodes a chain is built from, and the cache keys the decorators use. */
module Chain {
  import opened Base
  import opened Definitions
  import opened MemoryCache

  /** The outcome of `GetFeatureDefinitionAsync`: a definition, null, or an
      exception. */
  datatype Answer = Found(definition: FeatureDefinition) | NotFound | Failed(error: Exc)

  /** A completely consumed enumeration: the elements yielded, in order
      (elements may be null), and the exception that ended it, if any. */
  datatype Stream = Stream(items: seq<Option<FeatureDefinition>>, fault: Option<Exc>)

  const EmptyStream := Stream([], None)

  /** One object of a provider chain; `id` is its reference identity.
      - Source: a backing store outside this model (database,
        configuration), reduced to its answer per name and its full
        enumeration; it may itself be cache-capable.
      - Composite: the ordered children.
      - CacheDecorator: `attach` says whether its reads attach the epoch
        token to the entries they create (the legacy decorator always does).
      - LoggerDecorator and Delegating wrap one provider; only the decorators
        expose it as `Target`.
      - Missing: a null reference where a provider was expected. */
  datatype Node =
    | Source(id: NodeId, answers: map<string, Answer>, all: Stream, cacheCapable: bool)
    | Composite(id: NodeId, children: seq<Node>)
    | CacheDecorator(id: NodeId, target: Node, attach: bool)
    | LoggerDecorator(id: NodeId, target: Node)
    | Delegating(id: NodeId, inner: Node)
    | Missing

  /** `is IGenericDecorator<IFeatureDefinitionProvider>`. */
  predicate IsDecorator(n: Node) {
    n.CacheDecorator? || n.LoggerDecorator?
  }

  /** `is ICacheObjects` / `is ICacheManager`: the objects whose
      invalidation the cascade triggers. */
  predicate CacheCapable(n: Node) {
    n.CacheDecorator? || (n.Source? && n.cacheCapable)
  }

  /** What a source answers for `name`: unknown names are null. */
  function SourceAnswer(n: Node, name: string): (o: Answer)
    requires n.Source?
    ensures name !in n.answers ==> o == NotFound
  {
    if name in n.answers then n.answers[name] else NotFound
  }

  function AsNullable(o: Answer): (d: Option<FeatureDefinition>)
    requires !o.Failed?
    ensures d.Some? <==> o.Found?
  {
    if o.Found? then Some(o.definition) else None
  }

  function FromNullable(d: Option<FeatureDefinition>): (o: Answer)
    ensures !o.Failed? && AsNullable(o) == d
  {
    if d.Some? then Found(d.value) else NotFound
  }

  // ------------------------------------------------------------ cache keys

  const FeatureKeyPrefix := "Features:"

  /** The per-name key of both cache decorators. It depends on the name only,
      not on the decorator instance. */
  function FeatureKey(name: string): (key: string)
    ensures |key| == |FeatureKeyPrefix| + |name|
    ensures key[..|FeatureKeyPrefix|] == FeatureKeyPrefix && key[|FeatureKeyPrefix|..] == name
  {
    FeatureKeyPrefix + name
  }

  /** Distinct names give distinct keys. */
  lemma FeatureKeyInjective(a: string, b: string)
    ensures FeatureKey(a) == FeatureKey(b) <==> a == b
  {
    if FeatureKey(a) == FeatureKey(b) {
      assert a == FeatureKey(a)[|FeatureKeyPrefix|..];
    }
  }

  /** The current decorator's aggregate key, `nameof(FeatureDefinitionProviderCacheDecorator)`. */
  const AggregateKey := "FeatureDefinitionProviderCacheDecorator"

  /** The legacy decorator's aggregate key, `GetCacheKey("all")`. */
  const LegacyAggregateKey := "Features:all"

  /** The current aggregate key is no per-name key: it lacks the prefix. */
  lemma AggregateKeyIsNoFeatureKey(name: string)
    ensures AggregateKey != FeatureKey(name)
  {
    assert AggregateKey[7] == 'D';
    assert FeatureKey(name)[7] == FeatureKeyPrefix[7] == 's';
  }

  /** The legacy aggregate key is the key of the feature named `all`, and of
      no other feature. */
  lemma LegacyAggregateKeyCollides(name: string)
    ensures LegacyAggregateKey == FeatureKey(name) <==> name == "all"
  {
    FeatureKeyInjective(name, "all");
  }

  // ------------------------------------------------------- the Target chain

  /** The ids of the cache-capable nodes met when following `Target` from
      `n`, outermost first; the walk ends at the first node that is not a
      decorator (a composite, a delegating provider, a source or null). */
  function ChainIds(n: Node): (ids: seq<NodeId>)
    ensures |ids| == 0 ==> !CacheCapable(n)
  {
    var here := if CacheCapable(n) then [n.id] else [];
    if IsDecorator(n) then here + ChainIds(n.target) else here
  }

  /** `Invalidate` for each id in turn. */
  function InvalidateAll(s: Store, ids: seq<NodeId>): (s': Store)
    ensures s'.entries == s.entries
    decreases |ids|
  {
    if |ids| == 0 then s else InvalidateAll(Invalidate(s, ids[0]), ids[1..])
  }

  function Count(ids: seq<NodeId>, o: NodeId): nat {
    if |ids| == 0 then 0 else (if ids[0] == o then 1 else 0) + Count(ids[1..], o)
  }

  /** Each owner advances once per occurrence in `ids`, and only then. */
  lemma {:induction false} InvalidateAllEpochs(s: Store, ids: seq<NodeId>, o: NodeId)
    ensures Epoch(InvalidateAll(s, ids), o) == Epoch(s, o) + Count(ids, o)
    decreases |ids|
  {
    if |ids| > 0 {
      InvalidateAllEpochs(Invalidate(s, ids[0]), ids[1..], o);
    }
  }

  lemma {:induction false} InvalidateAllAppend(s: Store, a: seq<NodeId>, b: seq<NodeId>)
    ensures InvalidateAll(s, a + b) == InvalidateAll(InvalidateAll(s, a), b)
    decreases |a|
  {
    if |a| > 0 {
      assert (a + b)[1..] == a[1..] + b;
      InvalidateAllAppend(Invalidate(s, a[0]), a[1..], b);
    } else {
      assert a + b == b;
    }
  }

  lemma {:induction false} CountAbsent(ids: seq<NodeId>, o: NodeId)
    requires o !in ids
    ensures Count(ids, o) == 0
  {
    if |ids| > 0 {
      assert forall x :: x in ids[1..] ==> x in ids;
      CountAbsent(ids[1..], o);
    }
  }

  lemma {:induction false} CountPresent(ids: seq<NodeId>, o: NodeId)
    requires o in ids
    ensures Count(ids, o) >= 1
  {
    if ids[0] != o {
      CountPresent(ids[1..], o);
    }
  }

  lemma {:induction false} CountUnique(ids: seq<NodeId>, o: NodeId)
    requires forall i, j :: 0 <= i < j < |ids| ==> ids[i] != ids[j]
    requires o in ids
    ensures Count(ids, o) == 1
  {
    if ids[0] == o {
      assert o !in ids[1..];
      CountAbsent(ids[1..], o);
    } else {
      CountUnique(ids[1..], o);
    }
  }
}

=== FILE: db_feature_service.dfy ===
/** `DbFeatureService`: the SQL-backed source of feature definitions. The
    database itself is outside the model; each read is reduced to what the
    driver hands back (a failure to open, a failing query, no row, or the
    row's column values), and the service's own logic is modelled over it:
    the table-name guard, the row decoding, the rewrapping of every lookup
    failure, and the use of the connection pool. */
module DbFeatureService {
  import opened Base
  import opened Text
  import opened Definitions
  import opened Mapping
  import opened MemoryCache
  import opened Chain
  import Providers

  // ------------------------------------------------------------ the table name

  const DefaultTableName := "Features"

  /** `string.IsNullOrWhiteSpace`. */
  predicate IsNullOrWhiteSpace(t: Option<string>) {
    t.None? || forall i :: 0 <= i < |t.value| ==> IsWhiteSpace(t.value[i])
  }

  /** The configured table name, or `Features` when none is configured. */
  function TableName(configured: Option<string>): (name: string)
    ensures IsNullOrWhiteSpace(configured) ==> name == DefaultTableName
    ensures !IsNullOrWhiteSpace(configured) ==> name == configured.value
  {
    if IsNullOrWhiteSpace(configured) then DefaultTableName else configured.value
  }

  /** The table name in use always holds a visible character. */
  lemma TableNameIsNeverBlank(configured: Option<string>)
    ensures exists i :: 0 <= i < |TableName(configured)| && !IsWhiteSpace(TableName(configured)[i])
  {
    if IsNullOrWhiteSpace(configured) {
      assert TableName(configured)[0] == 'F' && !IsWhiteSpace('F');
    } else {
      var t := configured.value;
      var i :| 0 <= i < |t| && !IsWhiteSpace(t[i]);
      assert TableName(configured)[i] == t[i];
    }
  }

  /** A member of the character class `[a-zA-Z0-9_]`. */
  predicate IsWordChar(c: char) {
    ('a' <= c <= 'z') || ('A' <= c <= 'Z') || ('0' <= c <= '9') || c == '_'
  }

  /** The first `p` characters of `t` are a non-empty run of word
      characters: what `^[a-zA-Z0-9_]+` consumes when it stops at `p`. */
  predicate WordsUpTo(t: string, p: nat)
    requires p <= |t|
  {
    0 < p && forall i :: 0 <= i < p ==> IsWordChar(t[i])
  }

  /** `Regex.IsMatch(t, "^[a-zA-Z0-9_]+$")`. In .NET `$` matches at the very
      end and also just before a final newline, so the run of word
      characters may stop at `|t|` or, when `t` ends in `\n`, at `|t| - 1`. */
  predicate MatchesPattern(t: string) {
    || WordsUpTo(t, |t|)
    || (|t| > 0 && t[|t| - 1] == '\n' && WordsUpTo(t, |t| - 1))
  }

  /** ASCII upper-casing; other characters are left as they are. */
  function AsciiUpper(c: char): (u: char)
    ensures 'a' <= c <= 'z' ==> u as int == c as int - 32
    ensures !('a' <= c <= 'z') ==> u == c
  {
    if 'a' <= c <= 'z' then (c as int - 32) as char else c
  }

  /** `Equals(b, StringComparison.OrdinalIgnoreCase)` on ASCII letters. */
  predicate EqualsIgnoringCase(a: string, b: string) {
    |a| == |b| && forall i :: 0 <= i < |a| ==> AsciiUpper(a[i]) == AsciiUpper(b[i])
  }

  /** The constructor's guard: `Features` in any casing, or a name matching
      the pattern. */
  predicate AcceptedTableName(t: string) {
    EqualsIgnoringCase(t, DefaultTableName) || MatchesPattern(t)
  }

  /** The case-insensitive exception adds nothing: every casing of
      `Features` already matches the pattern, so the guard accepts exactly
      the names the pattern accepts. */
  lemma AcceptedIffMatchesPattern(t: string)
    ensures AcceptedTableName(t) <==> MatchesPattern(t)
  {
    if EqualsIgnoringCase(t, DefaultTableName) {
      forall i | 0 <= i < |t|
        ensures IsWordChar(t[i])
      {
        assert AsciiUpper(t[i]) == AsciiUpper(DefaultTableName[i]);
        assert IsWordChar(AsciiUpper(DefaultTableName[i]));
      }
      assert WordsUpTo(t, |t|);
    }
  }

  /** The names the guard accepts, character by character: a word
      character first, then word characters, with one newline allowed as
      the very last character. */
  lemma AcceptedIffWordsWithFinalNewline(t: string)
    ensures AcceptedTableName(t) <==>
      && |t| > 0 && IsWordChar(t[0])
      && forall i :: 0 <= i < |t| ==> IsWordChar(t[i]) || (t[i] == '\n' && i == |t| - 1)
  {
    AcceptedIffMatchesPattern(t);
    if |t| > 0 && IsWordChar(t[0])
       && forall i :: 0 <= i < |t| ==> IsWordChar(t[i]) || (t[i] == '\n' && i == |t| - 1) {
      if t[|t| - 1] == '\n' {
        assert |t| > 1;
        assert WordsUpTo(t, |t| - 1);
      } else {
        assert WordsUpTo(t, |t|);
      }
    }
  }

  /** What the guard lets into `SELECT * FROM [<name>]`: word characters,
      at most one newline and only at the end; never a bracket that could
      close the quoted identifier, nor any other punctuation. */
  lemma AcceptedNameIsQuotable(t: string)
    requires AcceptedTableName(t)
    ensures |t| > 0
    ensures ']' !in t && '[' !in t && ';' !in t && '\'' !in t && ' ' !in t
    ensures forall i :: 0 <= i < |t| ==> IsWordChar(t[i]) || (t[i] == '\n' && i == |t| - 1)
  {
    AcceptedIffWordsWithFinalNewline(t);
  }

  /** The single trailing newline the `$` anchor admits gets through; a
      second one does not. */
  lemma TrailingNewlinePasses()
    ensures AcceptedTableName("Flags\n")
    ensures !AcceptedTableName("Flags\n\n")
    ensures !AcceptedTableName("Flags]; DROP TABLE x")
  {
    var ok := "Flags\n";
    forall i | 0 <= i < 5
      ensures IsWordChar(ok[i])
    {
      assert ok[i] in "Flags";
    }
    assert WordsUpTo(ok, 5);
    AcceptedIffMatchesPattern(ok);
    var twice := "Flags\n\n";
    assert !IsWordChar(twice[5]);
    AcceptedIffMatchesPattern(twice);
    var attack := "Flags]; DROP TABLE x";
    assert !IsWordChar(attack[5]);
    AcceptedIffMatchesPattern(attack);
  }

  // ----------------------------------------------------------- construction

  /** `SqlFeatureDefinitionProviderOptions`. */
  datatype SqlOptions = SqlOptions(connectionStringName: string, tableName: Option<string>)

  /** The constructed service: what it keeps from its inputs. A connection
      string missing from the configuration is null. */
  datatype Service = Service(connectionString: Option<string>, tableName: string)

  const InvalidTableNameError :=
    Exc(Argument, "Invalid table name. Only alphanumeric characters and underscores are allowed. (Parameter 'options')")

  /** The constructor. `options` stands for `options?.Value`; `connectionStrings`
      for the configuration's `ConnectionStrings` section, `None` when no
      configuration is given. The checks run in source order: options,
      logger, table name. */
  function NewService(connectionStrings: Option<map<string, string>>, options: Option<SqlOptions>,
                      hasLogger: bool): (c: Call<Service>)
    ensures options.None? ==> c == Raised(ArgumentNullFor("options"))
    ensures options.Some? && !hasLogger ==> c == Raised(ArgumentNullFor("logger"))
    ensures options.Some? && hasLogger ==>
      (c.Returned? <==> MatchesPattern(TableName(options.value.tableName)))
    ensures c.Raised? && options.Some? && hasLogger ==> c.error == InvalidTableNameError
    ensures c.Returned? ==> c.value.tableName == TableName(options.value.tableName)
    ensures c.Returned? && connectionStrings.None? ==> c.value.connectionString == Some("")
    ensures c.Returned? && connectionStrings.Some? ==>
      (c.value.connectionString.Some? <==> options.value.connectionStringName in connectionStrings.value)
  {
    if options.None? then Raised(ArgumentNullFor("options"))
    else if !hasLogger then Raised(ArgumentNullFor("logger"))
    else
      var table := TableName(options.value.tableName);
      AcceptedIffMatchesPattern(table);
      if !AcceptedTableName(table) then Raised(InvalidTableNameError)
      else
        var name := options.value.connectionStringName;
        var connection :=
          match connectionStrings
          case None => Some("")
          case Some(m) => if name in m then Some(m[name]) else None;
        Returned(Service(connection, table))
  }

  /** Every constructed service queries a table whose name can be quoted
      safely, whatever was configured. */
  lemma ConstructedTableIsQuotable(connectionStrings: Option<map<string, string>>,
                                   options: Option<SqlOptions>, hasLogger: bool)
    requires NewService(connectionStrings, options, hasLogger).Returned?
    ensures ']' !in NewService(connectionStrings, options, hasLogger).value.tableName
  {
    var t := NewService(connectionStrings, options, hasLogger).value.tableName;
    AcceptedIffMatchesPattern(t);
    AcceptedNameIsQuotable(t);
  }

  // ---------------------------------------------------------- decoding a row

  /** A column value as the reader returns it: `DBNull`, a value the
      conversion accepts, or one it rejects with `error`. */
  datatype Column<T> = DbNull | Val(value: T) | Unconvertible(error: Exc)

  /** One row of the features table. Text columns are read with
      `?.ToString()`, which never fails; `None` is `DBNull`. */
  datatype Row = Row(
    id: Option<string>,
    description: Option<string>,
    enabled: Column<bool>,
    requirementType: Column<int>,
    filters: Option<string>)

  const Int32Min := -0x8000_0000
  const Int32Max := 0x7FFF_FFFF

  const OverflowError := Exc(Other("OverflowException"), "Value was either too large or too small for an Int32.")

  /** `Convert.ToInt32` of the column: `DBNull` reads as 0, and a value
      outside the 32-bit range overflows. */
  function RequirementCode(c: Column<int>): (r: Computation<int>)
    ensures r.Returns? ==> Int32Min <= r.result <= Int32Max
    ensures c.DbNull? ==> r == Returns(0)
    ensures c.Val? && Int32Min <= c.value <= Int32Max ==> r == Returns(c.value)
  {
    match c
    case DbNull => Returns(0)
    case Val(i) => if Int32Min <= i <= Int32Max then Returns(i) else Throws(OverflowError)
    case Unconvertible(e) => Throws(e)
  }

  /** `ConvertToFeatureDefinition`: read the columns into a `Feature`
      entity and map it. `DBNull` text reads as the empty string, so the
      description fallback to the id never applies. */
  function DecodeRow(row: Row): (r: Computation<FeatureDefinition>)
    ensures r.Throws? <==> row.enabled.Unconvertible? || RequirementCode(row.requirementType).Throws?
    ensures r.Throws? && row.enabled.Unconvertible? ==> r.thrown == row.enabled.error
    ensures r.Returns? ==> r.result.name == row.id.GetOr("")
    ensures r.Returns? ==> (r.result.status == Conditional <==> row.enabled == Val(true))
    ensures r.Returns? ==> (r.result.requirementType == All <==> row.requirementType == Val(1))
    ensures r.Returns? ==> r.result.enabledFor == EnabledFor(Some(row.filters.GetOr("")))
  {
    match row.enabled
    case Unconvertible(e) => Throws(e)
    case _ =>
      match RequirementCode(row.requirementType)
      case Throws(e) => Throws(e)
      case Returns(code) =>
        var id := row.id.GetOr("");
        var entity := FeatureEntity(id, row.description.GetOr(""), row.enabled == Val(true),
                                    Some(row.filters.GetOr("")), code);
        Returns(MapEntity(Some(entity)).definition)
  }

  /** A row of nothing but `DBNull` decodes to a disabled feature with an
      empty name, `Any` requirement and no filters. */
  lemma NullRowDecodesToDisabled()
    ensures DecodeRow(Row(None, None, DbNull, DbNull, None))
         == Returns(FeatureDefinition("", Disabled, Any, []))
  {
  }

  // ------------------------------------------------------------ the lookup

  /** What the database does for one lookup. */
  datatype Query =
    | OpenFailed(error: Exc)
    | QueryFailed(error: Exc)
    | NoRow
    | FirstRow(row: Row)

  /** What became of the pooled connection: never taken, taken and handed
      back, or taken and dropped because opening it failed before it was
      assigned to the variable the `finally` block inspects. */
  datatype ConnectionUse = Untouched | GivenBack | Dropped

  datatype DbRead = DbRead(answer: Answer, connection: ConnectionUse)

  /** Every lookup failure leaves the service as this exception; the
      original one is only logged. */
  function MissingFeatureError(name: string): Exc {
    Exc(FeatureManagement("MissingFeature"), "Failed to retrieve feature definition for " + name)
  }

  /** `GetFeatureDefinitionAsync`. An empty (or null) name is rejected
      before the pool is touched. The "not found" exception is thrown inside
      the `try` and caught by its own handler, so a missing row, a failing
      query, a failing open and an undecodable row all surface as the same
      rewrapped error; the service never answers null. */
  function Get(name: string, q: Query): (r: DbRead)
    ensures name == "" ==> r == DbRead(Failed(ArgumentNullFor("featureName")), Untouched)
    ensures name != "" ==> !r.answer.NotFound? && !r.connection.Untouched?
    ensures name != "" && r.answer.Failed? ==> r.answer.error == MissingFeatureError(name)
    ensures r.answer.Found? <==> name != "" && q.FirstRow? && DecodeRow(q.row).Returns?
    ensures r.answer.Found? ==> r.answer.definition == DecodeRow(q.row).result
    ensures r.connection.Dropped? <==> name != "" && q.OpenFailed?
  {
    if name == "" then DbRead(Failed(ArgumentNullFor("featureName")), Untouched)
    else
      var use := if q.OpenFailed? then Dropped else GivenBack;
      match q
      case FirstRow(row) =>
        (match DecodeRow(row)
         case Returns(d) => DbRead(Found(d), use)
         case Throws(_) => DbRead(Failed(MissingFeatureError(name)), use))
      case _ => DbRead(Failed(MissingFeatureError(name)), use)
  }

  /** A database source in a composite: whatever the database does, a
      non-empty name is settled by it, found or failed, and no later child
      is consulted. */
  lemma DbSourceEndsTheSearch(id: NodeId, answers: map<string, Answer>, all: Stream, cacheCapable: bool,
                              post: seq<Node>, name: string, q: Query, s: Store)
    requires name != ""
    requires name in answers && answers[name] == Get(name, q).answer
    ensures var db := Source(id, answers, all, cacheCapable);
            Providers.FirstMatch([db] + post, name, s) == Providers.FirstMatch([db], name, s)
    ensures var db := Source(id, answers, all, cacheCapable);
            !Providers.FirstMatch([db], name, s).0.NotFound?
  {
    var db := Source(id, answers, all, cacheCapable);
    assert [db][1..] == [];
    Providers.FirstMatchStops([db], post, name, s);
  }

  // ----------------------------------------------------------- the listing

  /** What the database does for the listing: a failure to open, or the
      rows in `ORDER BY Id` order followed by the reader's failure, if any. */
  datatype Listing = ListOpenFailed(error: Exc) | Rows(rows: seq<Row>, fault: Option<Exc>)

  /** The rows decoded in order by `decode`; the first row that cannot be
      decoded ends the enumeration with its exception. The listing passes
      `DecodeRow`. */
  function DecodeRows(decode: Row -> Computation<FeatureDefinition>, rows: seq<Row>, fault: Option<Exc>)
    : (st: Stream)
    ensures |st.items| <= |rows|
    ensures forall i :: 0 <= i < |st.items| ==>
      decode(rows[i]).Returns? && st.items[i] == Some(decode(rows[i]).result)
    ensures |st.items| < |rows| ==>
      decode(rows[|st.items|]).Throws? && st.fault == Some(decode(rows[|st.items|]).thrown)
    ensures |st.items| == |rows| ==> st.fault == fault
  {
    if |rows| == 0 then Stream([], fault)
    else
      match decode(rows[0])
      case Throws(e) => Stream([], Some(e))
      case Returns(d) =>
        var rest := DecodeRows(decode, rows[1..], fault);
        Stream([Some(d)] + rest.items, rest.fault)
  }

  /** `GetAllFeatureDefinitionsAsync`. Nothing is caught here: a failure to
      open or to read faults the enumeration as it is. */
  function GetAll(l: Listing): (r: Stream)
    ensures l.ListOpenFailed? ==> r == Stream([], Some(l.error))
    ensures l.Rows? ==> r == DecodeRows(DecodeRow, l.rows, l.fault)
  {
    match l
    case ListOpenFailed(e) => Stream([], Some(e))
    case Rows(rows, fault) => DecodeRows(DecodeRow, rows, fault)
  }

  /** The listing and the lookup agree: every definition the listing yields
      is what a lookup of its name returns when the database hands back the
      same row. */
  lemma ListingAgreesWithLookup(rows: seq<Row>, fault: Option<Exc>, i: nat)
    requires i < |GetAll(Rows(rows, fault)).items|
    requires rows[i].id.GetOr("") != ""
    ensures GetAll(Rows(rows, fault)).items[i]
         == AsNullable(Get(rows[i].id.GetOr(""), FirstRow(rows[i])).answer)
  {
  }

  /** The listing never yields null, so the logging decorator's filter
      removes nothing from it. */
  lemma ListingHasNoNulls(l: Listing)
    ensures Providers.NonNull(GetAll(l).items) == GetAll(l).items
  {
    NonNullOfNonNull(GetAll(l).items);
  }

  lemma {:induction false} NonNullOfNonNull(items: seq<Option<FeatureDefinition>>)
    requires forall i :: 0 <= i < |items| ==> items[i].Some?
    ensures Providers.NonNull(items) == items
    decreases |items|
  {
    if |items| > 0 {
      NonNullOfNonNull(items[1..]);
      assert items == [items[0]] + items[1..];
    }
  }

  // ------------------------------------------------------------- the pool

  /** `System.Data.ConnectionState`. */
  datatype ConnectionState = Closed | Open | Connecting | Executing | Fetching | Broken

  /** `SqlConnectionPooledObjectPolicy.Return`: a broken connection is
      closed and refused; any other is kept for reuse. */
  datatype PoolVerdict = PoolVerdict(keep: bool, closed: bool)

  function ReturnPolicy(state: ConnectionState): (v: PoolVerdict)
    ensures v.keep != v.closed
  {
    if state == Broken then PoolVerdict(false, true) else PoolVerdict(true, false)
  }

  /** `GetOpenConnectionAsync` on a connection taken from the pool: a broken
      one is closed first, and any connection not open is opened, which
      may fail. */
  function Acquire(state: ConnectionState, open: Computation<()>): (c: Call<ConnectionState>)
    ensures state == Open ==> c == Returned(Open)
    ensures state != Open ==> (c.Returned? <==> open.Returns?)
    ensures c.Raised? ==> c.error == open.thrown
  {
    var state' := if state == Broken then Closed else state;
    if state' == Open then Returned(Open)
    else match open
      case Returns(_) => Returned(Open)
      case Throws(e) => Raised(e)
  }

  /** The pool and the acquire step together keep broken connections away
      from queries: the pool refuses them, and one that broke while idle is
      only used after it has been reopened. */
  lemma BrokenConnectionsAreNotUsed(state: ConnectionState, open: Computation<()>)
    ensures ReturnPolicy(state).keep <==> state != Broken
    ensures Acquire(state, open).Returned? ==> Acquire(state, open).value == Open
    ensures state == Broken ==> (Acquire(state, open).Returned? <==> open.Returns?)
  {
  }
}

=== FILE: definitions.dfy ===
/** The records that flow through the provider chain: the raw feature
    entity a source reads, and the `FeatureDefinition` it is mapped to. */
module Definitions {
  import opened Base

  datatype FeatureStatus = Disabled | Conditional

  /** How several filters combine: any one of them, or all of them. */
  datatype RequirementType = Any | All

  /** One entry of `EnabledFor`; the mapping only ever sets the name. */
  datatype FilterConfiguration = FilterConfiguration(name: string)

  datatype FeatureDefinition = FeatureDefinition(
    name: string,
    status: FeatureStatus,
    requirementType: RequirementType,
    enabledFor: seq<FilterConfiguration>)

  /** The persisted `Feature` entity. `filters` is a comma-separated list of
      filter names and may be null; `requirementType` is an integer code. */
  datatype FeatureEntity = FeatureEntity(
    id: string,
    description: string,
    enabled: bool,
    filters: Option<string>,
    requirementType: int)
}

=== FILE: generations.dfy ===
/** The two generations of the provider chain side by side: where they
    compute the same thing, and the inputs on which they part. */
module Generations {
  import opened Base
  import opened Definitions
  import opened MemoryCache
  import opened Chain
  import Providers
  import LegacyProviders
  import Results
  import LegacyResults

  /** Over a composite of sources the generations look up the same
      definition for every non-empty name; for the empty name only the
      current composite refuses. */
  lemma {:induction false} LookupAgreesOverSources(id: NodeId, children: seq<Node>, name: string, s: Store)
    requires Providers.AllSources(children)
    ensures name != "" ==>
      Providers.Get(Composite(id, children), name, s) == LegacyProviders.Get(Composite(id, children), name, s)
    ensures name == "" ==>
      Providers.Get(Composite(id, children), name, s).0 == Failed(ArgumentNullFor("featureName"))
      && LegacyProviders.Get(Composite(id, children), name, s).0 == Providers.FirstNonNull(Providers.Answers(children, name))
  {
    LegacyProviders.FirstMatchOfSources(id, children, name, s);
    if name != "" {
      Providers.FirstMatchOfSources(children, name, s);
    }
  }

  /** A cache decorator over such a composite, on a miss: both generations
      answer alike and leave the same entry behind when the current one
      attaches its token. */
  lemma {:induction false} CachedLookupAgrees(cid: NodeId, id: NodeId, children: seq<Node>, name: string,
                                              s: Store)
    requires Providers.AllSources(children)
    requires name != ""
    requires Lookup(s, FeatureKey(name)).None?
    ensures Providers.Get(CacheDecorator(cid, Composite(id, children), true), name, s)
         == LegacyProviders.Get(CacheDecorator(cid, Composite(id, children), true), name, s)
  {
    LookupAgreesOverSources(id, children, name, s);
  }

  /** Over sources that do not fail, the listing holds the same elements in
      both generations, except that a legacy composite with no children
      throws where the current one yields nothing. */
  lemma ListingAgreesOverSources(id: NodeId, children: seq<Node>, s: Store)
    requires Providers.AllSources(children)
    requires forall i :: 0 <= i < |children| ==> children[i].all.fault.None?
    ensures |children| > 0 ==>
      LegacyProviders.GetAll(Composite(id, children), s)
        == (LegacyProviders.Yields(Providers.GetAll(Composite(id, children), s).0), s)
    ensures |children| == 0 ==>
      Providers.GetAll(Composite(id, children), s) == (EmptyStream, s)
      && LegacyProviders.GetAll(Composite(id, children), s) == (LegacyProviders.Threw(LegacyProviders.NoElementsError), s)
  {
    Providers.ConcatAllOfSources(children, s);
    LegacyProviders.StartAllOfSources(children, s);
  }

  /** The logging decorators part on failures: the current one passes a
      child's exception on, the legacy one logs it and answers null. */
  lemma LoggerGenerationsDiffer(id: NodeId, name: string, e: Exc, s: Store)
    ensures var target := Source(id + 1, map[name := Failed(e)], EmptyStream, false);
            Providers.Get(LoggerDecorator(id, target), name, s) == (Failed(e), s)
            && LegacyProviders.Get(LoggerDecorator(id, target), name, s) == (NotFound, s)
  {
  }

  /** The legacy listing is eager: a child after a faulting one is still
      started, and here a cache decorator in second place fills its
      aggregate entry, while the current composite never reaches it. */
  lemma EagerListingStartsLaterChildren(e: Exc)
    ensures var children := [Source(1, map[], Stream([], Some(e)), false),
                             CacheDecorator(2, Source(3, map[], EmptyStream, false), true)];
            Providers.GetAll(Composite(0, children), EmptyStore) == (Stream([], Some(e)), EmptyStore)
            && Lookup(LegacyProviders.GetAll(Composite(0, children), EmptyStore).1, LegacyAggregateKey)
                 == Some(Many([]))
  {
    var second := CacheDecorator(2, Source(3, map[], EmptyStream, false), true);
    var children := [Source(1, map[], Stream([], Some(e)), false), second];
    assert children[1..] == [second];
    assert [second][1..] == [];
    assert Providers.ConcatAll(children, EmptyStore) == (Stream([], Some(e)), EmptyStore);
    var token := Some(CurrentToken(EmptyStore, 2));
    var stored := Commit(EmptyStore, LegacyAggregateKey, Many([]), token);
    assert LegacyProviders.GetAll(second, EmptyStore) == (LegacyProviders.Yields(EmptyStream), stored);
    assert LegacyProviders.StartAll([second], EmptyStore).1 == stored;
    assert LegacyProviders.StartAll(children, EmptyStore).1 == stored;
  }

  // ---------------------------------------------------------- the Result pattern

  /** The legacy counterpart of a current result: an error with the same
      identity, code and message, and the same stored value. */
  function AsLegacy<T>(r: Results.Result<T>): (l: LegacyResults.Result<T>)
    ensures Results.IsSuccess(r) <==> LegacyResults.IsSuccess(l)
    ensures l.stored == r.stored
  {
    LegacyResults.Result(LegacyResults.Error(r.fault.ref, Some(r.fault.code), r.fault.message), r.stored)
  }

  /** `Value` agrees on successes; on a failure the current one throws and
      the legacy one returns the default. */
  lemma ValueGenerationsDiffer<T>(r: Results.Result<T>)
    ensures Results.IsSuccess(r) ==> Results.Value(r) == Returned(LegacyResults.Value(AsLegacy(r)))
    ensures Results.IsFailure(r) ==>
      Results.Value(r).Raised? && LegacyResults.Value(AsLegacy(r)) == None
  {
  }

  /** The action form of `Match` with every callback given: on a success
      both run `success` then `always`; on a failure only the legacy one
      runs `always`, with the default value. */
  lemma MatchGenerationsDiffer<T>(r: Results.Result<T>)
    ensures var current := Results.MatchDo(Some(r), Results.Callbacks(true, true, true)).1;
            var legacy := LegacyResults.MatchDo(Some(AsLegacy(r)), Results.Callbacks(true, true, true)).1;
            Results.IsSuccess(r) ==>
              current == [Results.RanSuccess(r.stored), Results.RanAlways(r.stored)]
              && legacy == [LegacyResults.RanSuccess(r.stored), LegacyResults.RanAlways(r.stored)]
    ensures var current := Results.MatchDo(Some(r), Results.Callbacks(true, true, true)).1;
            var legacy := LegacyResults.MatchDo(Some(AsLegacy(r)), Results.Callbacks(true, true, true)).1;
            Results.IsFailure(r) ==>
              current == [Results.RanFailure(r.fault)]
              && legacy == [LegacyResults.RanFailure(AsLegacy(r).error), LegacyResults.RanAlways(None)]
  {
  }
}

=== FILE: legacy_providers.dfy ===
/** The legacy provider chain (`FeatureManagement.Providers`). Against the
    current one: the composite has no name check and builds its enumeration
    eagerly with `Aggregate`, so an empty composite throws and every child is
    started at call time; the cache decorator always attaches its token and
    keeps its aggregate under `"Features:all"`; the logging decorator turns
    failures into null. */
module LegacyProviders {
  import opened Base
  import opened Definitions
  import opened MemoryCache
  import opened Chain
  import Providers

  /** What calling `GetAllFeatureDefinitionsAsync` does: throw at once, or
      hand back a sequence (here consumed to the end). */
  datatype Enumeration = Threw(error: Exc) | Yields(stream: Stream)

  /** `Enumerable.Aggregate` without a seed on an empty sequence. */
  const NoElementsError := Exc(InvalidOperation, "Sequence contains no elements")

  // ------------------------------------------------------------ constructors

  /** The legacy composite constructor: the same filter as the current one. */
  function NewComposite(self: NodeId, input: Option<seq<Node>>): (c: Call<Node>)
    ensures input.None? <==> c.Raised?
    ensures c.Raised? ==> c.error == ArgumentNullFor("providers")
    ensures c.Returned? ==> c.value == Providers.NewComposite(self, input).value
    ensures c.Returned? ==>
      forall p :: p in c.value.children <==> p in input.value && !p.Missing? && p.id != self
    ensures c.Returned? ==> c.value.children == Providers.KeepChildren(input.value, self)
  {
    match input
    case None => Raised(ArgumentNullFor("providers"))
    case Some(providers) => Returned(Composite(self, Providers.KeepChildren(providers, self)))
  }

  /** The legacy cache decorator's constructor checks nothing: even a null
      target is accepted. */
  function NewCacheDecorator(id: NodeId, target: Node): (n: Node)
    ensures IsDecorator(n) && CacheCapable(n) && n.id == id && n.target == target
  {
    CacheDecorator(id, target, true)
  }

  /** The legacy logging decorator rejects a null logger but accepts a null
      target. */
  function NewLoggerDecorator(id: NodeId, target: Node, hasLogger: bool): (c: Call<Node>)
    ensures c.Returned? <==> hasLogger
    ensures !hasLogger ==> c == Raised(ArgumentNullFor("logger"))
    ensures c.Returned? ==> IsDecorator(c.value) && c.value.target == target
  {
    if hasLogger then Returned(LoggerDecorator(id, target)) else Raised(ArgumentNullFor("logger"))
  }

  // -------------------------------------------------------- single lookups

  /** `GetFeatureDefinitionAsync` of `n` in the legacy chain. */
  function Get(n: Node, name: string, s: Store): (r: (Answer, Store))
    ensures r.1.epochs == s.epochs
    ensures n.LoggerDecorator? ==> !r.0.Failed?
    decreases n, 1
  {
    match n
    case Source(_, _, _, _) => (SourceAnswer(n, name), s)
    case Composite(_, children) => FirstMatch(children, name, s)
    case CacheDecorator(id, target, _) =>
      (match Lookup(s, FeatureKey(name))
       case Some(One(d)) => (FromNullable(d), s)
       case Some(v) => (Failed(CastError(TypeOf(v), DefinitionTypeName)), s)
       case None => CacheMiss(id, target, name, s))
    case LoggerDecorator(_, target) =>
      var (o, s1) := Get(target, name, s);
      (if o.Failed? then NotFound else o, s1)
    case Delegating(_, inner) => Get(inner, name, s)
    case Missing => (Failed(NullReferenceError), s)
  }

  /** A per-name miss; the token is always attached. */
  function CacheMiss(id: NodeId, target: Node, name: string, s: Store): (r: (Answer, Store))
    ensures r.1.epochs == s.epochs
    ensures r.0 == Get(target, name, s).0
    decreases target, 2
  {
    var token := Some(CurrentToken(s, id));
    var (o, s1) := Get(target, name, s);
    (o, Providers.CompleteGet(s1, FeatureKey(name), o, token))
  }

  function FirstMatch(children: seq<Node>, name: string, s: Store): (r: (Answer, Store))
    ensures r.1.epochs == s.epochs
    ensures |children| == 0 ==> r == (NotFound, s)
    decreases children, 0
  {
    if |children| == 0 then (NotFound, s)
    else
      var (o, s1) := Get(children[0], name, s);
      if o.NotFound? then FirstMatch(children[1..], name, s1) else (o, s1)
  }

  /** Over sources, the legacy composite's lookup is the first non-null
      answer, for every name: the empty name is not rejected. */
  lemma {:induction false} FirstMatchOfSources(id: NodeId, children: seq<Node>, name: string, s: Store)
    requires Providers.AllSources(children)
    ensures Get(Composite(id, children), name, s)
         == (Providers.FirstNonNull(Providers.Answers(children, name)), s)
  {
    FirstMatchOfSourcesLoop(children, name, s);
  }

  lemma {:induction false} FirstMatchOfSourcesLoop(children: seq<Node>, name: string, s: Store)
    requires Providers.AllSources(children)
    ensures FirstMatch(children, name, s) == (Providers.FirstNonNull(Providers.Answers(children, name)), s)
  {
    if |children| > 0 {
      assert Providers.Answers(children, name)[1..] == Providers.Answers(children[1..], name);
      FirstMatchOfSourcesLoop(children[1..], name, s);
    }
  }

  /** A child's exception still ends the legacy composite's lookup. */
  lemma {:induction false} FirstMatchStops(pre: seq<Node>, post: seq<Node>, name: string, s: Store)
    requires !FirstMatch(pre, name, s).0.NotFound?
    ensures FirstMatch(pre + post, name, s) == FirstMatch(pre, name, s)
  {
    assert (pre + post)[0] == pre[0];
    assert (pre + post)[1..] == pre[1..] + post;
    var (o, s1) := Get(pre[0], name, s);
    if o.NotFound? {
      FirstMatchStops(pre[1..], post, name, s1);
    }
  }

  /** The legacy logging decorator returns Target's answer when it is a
      value or null, and null when Target fails, a null Target included. */
  lemma LoggerGetSwallowsFailures(id: NodeId, target: Node, name: string, s: Store)
    ensures var r := Get(LoggerDecorator(id, target), name, s);
      var t := Get(target, name, s);
      && r.1 == t.1
      && (t.0.Failed? ==> r.0 == NotFound)
      && (!t.0.Failed? ==> r.0 == t.0)
    ensures Get(LoggerDecorator(id, Missing), name, s) == (NotFound, s)
  {
  }

  // ----------------------------------------------------------- enumeration

  /** `current.Concat(next)`: the first sequence, then the second unless the
      first ended with an exception. */
  function Join(a: Stream, b: Stream): (c: Stream)
    ensures a.fault.Some? ==> c == a
    ensures a.fault.None? ==> c.items == a.items + b.items && c.fault == b.fault
  {
    if a.fault.Some? then a else Stream(a.items + b.items, b.fault)
  }

  /** `GetAllFeatureDefinitionsAsync` of `n` in the legacy chain. */
  function GetAll(n: Node, s: Store): (r: (Enumeration, Store))
    ensures r.1.epochs == s.epochs
    ensures n.CacheDecorator? || n.LoggerDecorator? ==> r.0.Yields?
    decreases n, 1
  {
    match n
    case Source(_, _, all, _) => (Yields(all), s)
    case Composite(_, children) =>
      if |children| == 0 then (Threw(NoElementsError), s) else StartAll(children, s)
    case CacheDecorator(id, target, _) =>
      (match Lookup(s, LegacyAggregateKey)
       case Some(Many(l)) => (Yields(Stream(l, None)), s)
       case Some(One(None)) => (Yields(Stream([], Some(ArgumentNullFor("source")))), s)
       case Some(v) => (Yields(Stream([], Some(CastError(TypeOf(v), ListTypeName)))), s)
       case None => CacheMissAll(id, target, s))
    case LoggerDecorator(_, target) =>
      var (e, s1) := GetAll(target, s);
      (if e.Threw? then Yields(Stream([], Some(NullReferenceError))) else e, s1)
    case Delegating(_, inner) => GetAll(inner, s)
    case Missing => (Threw(NullReferenceError), s)
  }

  /** An aggregate miss. The factory is an async lambda, so an exception
      from Target, even one thrown at call time, faults the sequence and is
      not cached. */
  function CacheMissAll(id: NodeId, target: Node, s: Store): (r: (Enumeration, Store))
    ensures r.1.epochs == s.epochs
    ensures r.0.Yields?
    ensures GetAll(target, s).0.Threw? ==>
      r == (Yields(Stream([], Some(GetAll(target, s).0.error))), GetAll(target, s).1)
    ensures GetAll(target, s).0.Yields? && GetAll(target, s).0.stream.fault.Some? ==>
      r == (Yields(Stream([], GetAll(target, s).0.stream.fault)), GetAll(target, s).1)
    ensures GetAll(target, s).0.Yields? && GetAll(target, s).0.stream.fault.None? ==>
      && r.0 == GetAll(target, s).0
      && LegacyAggregateKey in r.1.entries
      && r.1.entries[LegacyAggregateKey] == Entry(Many(r.0.stream.items), Some(CurrentToken(s, id)))
      && Lookup(r.1, LegacyAggregateKey) == Some(Many(r.0.stream.items))
    ensures forall k :: k != LegacyAggregateKey ==> Lookup(r.1, k) == Lookup(GetAll(target, s).1, k)
    decreases target, 2
  {
    var token := Some(CurrentToken(s, id));
    var (e, s1) := GetAll(target, s);
    match e
    case Threw(x) => (Yields(Stream([], Some(x))), s1)
    case Yields(st) =>
      if st.fault.Some? then (Yields(Stream([], st.fault)), s1)
      else (Yields(st), Commit(s1, LegacyAggregateKey, Many(st.items), token))
  }

  /** `Select(...).Aggregate(Concat)`: every child's enumeration is started
      now, in order; a child that throws at call time ends the call. The
      elements are then read lazily through the chained `Concat`s. */
  function StartAll(children: seq<Node>, s: Store): (r: (Enumeration, Store))
    ensures r.1.epochs == s.epochs
    decreases children, 0
  {
    if |children| == 0 then (Yields(EmptyStream), s)
    else
      var (e, s1) := GetAll(children[0], s);
      match e
      case Threw(x) => (Threw(x), s1)
      case Yields(first) =>
        var (rest, s2) := StartAll(children[1..], s1);
        match rest
        case Threw(x) => (Threw(x), s2)
        case Yields(more) => (Yields(Join(first, more)), s2)
  }

  /** Over sources, a non-empty legacy composite yields every child's
      elements in order, like the current one. */
  lemma {:induction false} StartAllOfSources(children: seq<Node>, s: Store)
    requires Providers.AllSources(children)
    requires forall i :: 0 <= i < |children| ==> children[i].all.fault.None?
    ensures StartAll(children, s) == (Yields(Stream(Providers.Flatten(Providers.Streams(children)), None)), s)
  {
    if |children| > 0 {
      assert Providers.Streams(children)[1..] == Providers.Streams(children[1..]);
      StartAllOfSources(children[1..], s);
    }
  }

  /** Eagerness: once the first part has been started without a call-time
      exception, the second part is started too, from the cache the first
      left, even when the first part's sequence ends in an exception. */
  lemma {:induction false} StartAllStartsEveryChild(pre: seq<Node>, post: seq<Node>, s: Store)
    requires StartAll(pre, s).0.Yields?
    ensures StartAll(pre + post, s).1 == StartAll(post, StartAll(pre, s).1).1
  {
    if |pre| == 0 {
      assert pre + post == post;
    } else {
      assert (pre + post)[0] == pre[0];
      assert (pre + post)[1..] == pre[1..] + post;
      var (e, s1) := GetAll(pre[0], s);
      StartAllStartsEveryChild(pre[1..], post, s1);
    }
  }

  /** The legacy logging decorator's enumeration: Target's sequence
      unchanged, nulls included; a call-time exception from Target becomes a
      `NullReferenceException` when the (null) sequence is read. */
  lemma LoggerGetAll(id: NodeId, target: Node, s: Store)
    ensures var (e, s1) := GetAll(target, s);
      && (e.Yields? ==> GetAll(LoggerDecorator(id, target), s) == (e, s1))
      && (e.Threw? ==> GetAll(LoggerDecorator(id, target), s) == (Yields(Stream([], Some(NullReferenceError))), s1))
    ensures GetAll(LoggerDecorator(id, Missing), s) == (Yields(Stream([], Some(NullReferenceError))), s)
  {
  }

  // ------------------------------------------------------- cache decorator

  /** With no invalidation in between, a repeat lookup is a hit. */
  lemma {:induction false} CacheRepeatIsHit(id: NodeId, target: Node, other: Node, name: string, s: Store)
    requires !Get(CacheDecorator(id, target, true), name, s).0.Failed?
    ensures var r := Get(CacheDecorator(id, target, true), name, s);
      Get(CacheDecorator(id, other, true), name, r.1) == r
  {
    var key := FeatureKey(name);
    if Lookup(s, key).None? {
      var (o, s1) := Get(target, name, s);
      assert Epoch(s1, id) == Epoch(s, id);
      CommitThenLookup(s1, key, One(AsNullable(o)), id, true);
    }
  }

  /** `ExpireAllCacheItems` stops the entries the decorator created. */
  lemma {:induction false} ExpireForcesMiss(id: NodeId, target: Node, name: string, s: Store)
    requires Lookup(s, FeatureKey(name)).None?
    requires !Get(CacheDecorator(id, target, true), name, s).0.Failed?
    ensures var r := Get(CacheDecorator(id, target, true), name, s);
      var s2 := Invalidate(r.1, id);
      Get(CacheDecorator(id, target, true), name, s2) == CacheMiss(id, target, name, s2)
  {
    var r := Get(CacheDecorator(id, target, true), name, s);
    InvalidateExpires(r.1, id, FeatureKey(name));
  }

  /** The aggregate lives under the key of the feature named `all`: after a
      successful enumeration, looking up `all` through the same cache finds
      a list where it expects a definition and throws. */
  lemma {:induction false} AggregateThenLookupAllCollides(id: NodeId, target: Node, s: Store)
    requires Lookup(s, LegacyAggregateKey).None?
    requires GetAll(target, s).0.Yields? && GetAll(target, s).0.stream.fault.None?
    ensures var r := GetAll(CacheDecorator(id, target, true), s);
      Get(CacheDecorator(id, target, true), "all", r.1).0
        == Failed(CastError(ListTypeName, DefinitionTypeName))
  {
    var (e, s1) := GetAll(target, s);
    assert Epoch(s1, id) == Epoch(s, id);
    CommitThenLookup(s1, LegacyAggregateKey, Many(e.stream.items), id, true);
    LegacyAggregateKeyCollides("all");
  }

  /** The other order: once a lookup of `all` has been cached, enumeration
      reads that entry and fails, with a cast error for a definition and a
      null-argument error for a cached null. */
  lemma {:induction false} LookupAllThenAggregateCollides(id: NodeId, target: Node, s: Store)
    requires Lookup(s, FeatureKey("all")).None?
    requires !Get(target, "all", s).0.Failed?
    ensures var r := Get(CacheDecorator(id, target, true), "all", s);
      var st := GetAll(CacheDecorator(id, target, true), r.1).0.stream;
      && st.items == []
      && (r.0.Found? ==> st.fault == Some(CastError(DefinitionTypeName, ListTypeName)))
      && (r.0.NotFound? ==> st.fault == Some(ArgumentNullFor("source")))
  {
    var (o, s1) := Get(target, "all", s);
    assert Epoch(s1, id) == Epoch(s, id);
    CommitThenLookup(s1, FeatureKey("all"), One(AsNullable(o)), id, true);
    LegacyAggregateKeyCollides("all");
  }
}

=== FILE: legacy_results.dfy ===
/** The legacy Result pattern (`FeatureManagement.ResultPattern`): the same
    shape as the current one, but `Value` never throws, nothing rejects a
    null delegate, and the action form of `Match` always runs `always`. */
module LegacyResults {
  import opened Base
  import Results

  type ErrorRef = nat

  const NoneRef: ErrorRef := 0
  const NullValueRef: ErrorRef := 1
  const ConditionNotMetRef: ErrorRef := 2

  /** Identity of an `Error` built during a call. */
  type FreshRef = r: ErrorRef | r > ConditionNotMetRef witness 3

  /** An `Error` object; its code may be null. */
  datatype Error = Error(ref: ErrorRef, code: Option<string>, message: string)

  const ErrorNone := Error(NoneRef, Some(""), "")
  const NullValue := Error(NullValueRef, Some("Error.NullValue"), "The specified result value is null.")
  const ConditionNotMet :=
    Error(ConditionNotMetRef, Some("Error.ConditionNotMet"), "The specified condition was not met.")

  /** `Error.IsNone`: true only for the shared instance. */
  predicate IsNone(e: Error) {
    e.ref == NoneRef
  }

  /** `new Error("", "")` has the fields of `Error.None` but is not it. */
  lemma FreshEmptyErrorIsNotNone(newRef: FreshRef)
    ensures !IsNone(Error(newRef, Some(""), ""))
    ensures Error(newRef, Some(""), "") != ErrorNone
  {
  }

  /** `implicit operator Error(string)`: null code, the string as message. */
  function FromString(s: string, newRef: FreshRef): (e: Error)
    ensures e.code == None && e.message == s
    ensures !IsNone(e)
  {
    Error(newRef, None, s)
  }

  /** `implicit operator Error(Exception)`. */
  function FromException(x: Exc, newRef: FreshRef): (e: Error)
    ensures e.code == Some(TypeName(x.kind)) && e.message == x.message
    ensures !IsNone(e)
  {
    Error(newRef, Some(TypeName(x.kind)), x.message)
  }

  datatype Result<T> = Result(error: Error, stored: Option<T>)

  predicate IsSuccess<T>(r: Result<T>) {
    IsNone(r.error)
  }

  predicate IsFailure<T>(r: Result<T>) {
    !IsSuccess(r)
  }

  function Success<T>(v: T): (r: Result<T>)
    ensures IsSuccess(r)
  {
    Result(ErrorNone, Some(v))
  }

  function Failure<T>(e: Error): (r: Result<T>)
    ensures r.error == e && r.stored == None
    ensures IsSuccess(r) <==> IsNone(e)
  {
    Result(e, None)
  }

  /** `implicit operator Error(Result)`: dereferences its argument, so a null
      result throws. */
  function ErrorOf<T>(r: Option<Result<T>>): (c: Call<Error>)
    ensures r.Some? ==> c == Returned(r.value.error)
    ensures r.None? ==> c.Raised? && c.error.kind == NullReference
  {
    match r
    case None => Raised(NullReferenceError)
    case Some(res) => Returned(res.error)
  }

  /** `Value`: the stored value on success and the default on failure; it
      never throws. */
  function Value<T>(r: Result<T>): (v: Option<T>)
    ensures IsSuccess(r) ==> v == r.stored
    ensures IsFailure(r) ==> v == None
  {
    if IsSuccess(r) then r.stored else None
  }

  /** `Failure(Error.None)` is a success whose value is the default. */
  lemma FailureOfNoneIsSuccess<T>()
    ensures IsSuccess(Failure<T>(ErrorNone))
    ensures Value(Failure<T>(ErrorNone)) == None
  {
  }

  /** `Value` of a success is the value it was built from. */
  lemma ValueOfSuccess<T>(v: T)
    ensures Value(Success(v)) == Some(v)
  {
  }

  datatype TryOutcome<T> = TryOutcome(result: Result<T>, handled: seq<Error>)

  /** `Result.Try<TValue>(function, errorHandler)`: every exception becomes a
      failure, including the `NullReferenceException` of invoking a null
      delegate, and is handed to the handler when there is one. */
  function Try<T>(fn: Option<Computation<T>>, hasHandler: bool, newRef: FreshRef)
    : (o: TryOutcome<T>)
    ensures IsSuccess(o.result) <==> fn.Some? && fn.value.Returns?
    ensures IsSuccess(o.result) ==> o.result == Success(fn.value.result) && o.handled == []
    ensures fn.None? ==> o.result.error.code == Some("NullReferenceException")
    ensures fn.Some? && fn.value.Throws? ==> o.result.error.code == Some(TypeName(fn.value.thrown.kind))
    ensures IsFailure(o.result) ==> o.handled == (if hasHandler then [o.result.error] else [])
  {
    var outcome := fn.GetOr(Throws(NullReferenceError));
    assert TypeName(NullReference) == "NullReferenceException";
    match outcome
    case Returns(v) => TryOutcome(Success(v), [])
    case Throws(x) =>
      var failed := Failure<T>(FromException(x, newRef));
      TryOutcome(failed, if hasHandler then [failed.error] else [])
  }

  /** `Result.TryAwait`: failures carry the literal code `"ex"`. */
  function TryAwait<T>(fn: Option<Computation<T>>, newRef: FreshRef): (r: Result<T>)
    ensures IsSuccess(r) <==> fn.Some? && fn.value.Returns?
    ensures IsSuccess(r) ==> r == Success(fn.value.result)
    ensures IsFailure(r) ==> r.error.code == Some("ex")
    ensures fn.None? ==> r.error.message == NullReferenceMessage
  {
    var outcome := fn.GetOr(Throws(NullReferenceError));
    assert TypeName(NullReference) == "NullReferenceException";
    match outcome
    case Returns(v) => Success(v)
    case Throws(x) => Failure(Error(newRef, Some("ex"), x.message))
  }

  /** `Match` with functions. Nothing is checked for null: reading
      `result.IsSuccess` on a null result, or invoking the null delegate of
      the branch taken, raises `NullReferenceException`; the delegate of the
      branch not taken may be null. */
  function MatchWith<T>(r: Option<Result<T>>, success: Option<Option<T> -> Result<T>>,
                        failure: Option<Error -> Result<T>>): (c: Call<Result<T>>)
    ensures c.Raised? <==>
      r.None? || (IsSuccess(r.value) && success.None?) || (IsFailure(r.value) && failure.None?)
    ensures c.Raised? ==> c.error == NullReferenceError
    ensures c.Returned? && IsSuccess(r.value) ==> c.value == success.value(r.value.stored)
    ensures c.Returned? && IsFailure(r.value) ==> c.value == failure.value(r.value.error)
  {
    match r
    case None => Raised(NullReferenceError)
    case Some(res) =>
      if IsSuccess(res) then
        (match success
         case None => Raised(NullReferenceError)
         case Some(f) => Returned(f(Value(res))))
      else
        (match failure
         case None => Raised(NullReferenceError)
         case Some(f) => Returned(f(res.error)))
  }

  datatype Invocation<T> = RanSuccess(Option<T>) | RanFailure(Error) | RanAlways(Option<T>)

  /** `Match` with actions: `success` or `failure`, then `always` in both
      cases, which receives the default on failure. Nothing is checked for
      null: a null result raises before any callback runs, and a null
      callback raises when its turn comes, after the callbacks before it
      have run. */
  function MatchDo<T>(r: Option<Result<T>>, callbacks: Results.Callbacks)
    : (o: (Call<Result<T>>, seq<Invocation<T>>))
    ensures r.None? ==> o == (Raised(NullReferenceError), [])
    ensures o.0.Raised? ==> o.0.error == NullReferenceError
    ensures r.Some? && IsSuccess(r.value) && !callbacks.success ==>
      o == (Raised(NullReferenceError), [])
    ensures r.Some? && IsFailure(r.value) && !callbacks.failure ==>
      o == (Raised(NullReferenceError), [])
    ensures r.Some? && IsSuccess(r.value) && callbacks.success ==>
      |o.1| >= 1 && o.1[0] == RanSuccess(r.value.stored)
    ensures r.Some? && IsFailure(r.value) && callbacks.failure ==>
      |o.1| >= 1 && o.1[0] == RanFailure(r.value.error)
    ensures o.0.Returned? <==>
      r.Some? && callbacks.always
      && (if IsSuccess(r.value) then callbacks.success else callbacks.failure)
    ensures o.0.Returned? ==> o.0 == Returned(r.value) && |o.1| == 2 && o.1[1] == RanAlways(Value(r.value))
    ensures r.Some? && o.0.Raised? && |o.1| == 1 ==> !callbacks.always
  {
    match r
    case None => (Raised(NullReferenceError), [])
    case Some(res) =>
      var ran := if IsSuccess(res) then callbacks.success else callbacks.failure;
      if !ran then (Raised(NullReferenceError), [])
      else
        var first := if IsSuccess(res) then RanSuccess(Value(res)) else RanFailure(res.error);
        if !callbacks.always then (Raised(NullReferenceError), [first])
        else (Returned(res), [first, RanAlways(Value(res))])
  }

  const ErrorTypeName := "FeatureManagement.ResultPattern.Error"

  /** `ExecuteWithLogger`: reading `function.Method.Name` for the first log
      line throws on a null delegate; the logging call then rejects a null
      logger before the delegate runs; a failing delegate throws a plain
      `Exception` when `throwError` is set and yields the default otherwise. */
  function ExecuteWithLogger<T>(fn: Option<Computation<T>>, hasLogger: bool, throwError: bool,
                                newRef: FreshRef)
    : (c: Call<Option<T>>)
    ensures fn.None? ==> c == Raised(NullReferenceError)
    ensures fn.Some? && !hasLogger ==> c == Raised(ArgumentNullFor("logger"))
    ensures fn.Some? && hasLogger && fn.value.Returns? ==> c == Returned(Some(fn.value.result))
    ensures fn.Some? && hasLogger && fn.value.Throws? ==>
      c == (if throwError then Raised(Exc(PlainException, ErrorTypeName)) else Returned(None))
  {
    if fn.None? then Raised(NullReferenceError)
    else if !hasLogger then Raised(ArgumentNullFor("logger"))
    else
      var result := TryAwait(fn, newRef);
      if IsFailure(result) && throwError then Raised(Exc(PlainException, ErrorTypeName))
      else Returned(Value(result))
  }

  /** `AsyncValue`: `result.Value`, which never throws for a result but
      dereferences a null one. */
  function AsyncValue<T>(r: Option<Result<T>>): (c: Call<Option<T>>)
    ensures r.None? <==> c.Raised?
    ensures c.Raised? ==> c.error == NullReferenceError
    ensures r.Some? && IsSuccess(r.value) ==> c == Returned(r.value.stored)
    ensures r.Some? && IsFailure(r.value) ==> c == Returned(None)
  {
    match r
    case None => Raised(NullReferenceError)
    case Some(res) => Returned(Value(res))
  }

  /** `TaskValue`: awaiting a null task dereferences it, and the awaited
      result goes through `implicit operator TValue`, which reads
      `result.Value` and so dereferences a null result too. */
  function TaskValue<T>(task: Option<Option<Result<T>>>): (c: Call<Option<T>>)
    ensures c.Raised? <==> task.None? || task.value.None?
    ensures c.Raised? ==> c.error == NullReferenceError
    ensures c.Returned? ==> c.value == Value(task.value.value)
  {
    match task
    case None => Raised(NullReferenceError)
    case Some(r) => AsyncValue(r)
  }
}

=== FILE: mapping.dfy ===
/** `MapToFeatureDefinition` in both generations: copy the id, derive the
    status and requirement type, and build `EnabledFor` from the
    comma-separated filter list by Split, then Distinct, then Trim. */
module Mapping {
  import opened Base
  import opened Text
  import opened Definitions

  /** Trims every piece, keeping order and multiplicity. */
  function TrimAll(pieces: seq<string>): (names: seq<string>)
    ensures |names| == |pieces|
    ensures forall i :: 0 <= i < |pieces| ==> names[i] == Trim(pieces[i])
  {
    if |pieces| == 0 then [] else [Trim(pieces[0])] + TrimAll(pieces[1..])
  }

  /** The filter names of an entity. Duplicates are removed on the
      UNTRIMMED pieces, so pieces that differ only in surrounding white space
      survive as separate, equal names. */
  function FilterNames(filters: Option<string>): (names: seq<string>)
    ensures filters.None? || filters == Some("") ==> names == []
    ensures filters.Some? ==>
      forall n :: n in names <==>
        exists p :: p in SplitAll(filters.value) && p != "" && n == Trim(p)
    ensures filters.Some? ==> |names| == |Distinct(Split(filters.value))|
    ensures filters.Some? ==>
      forall i :: 0 <= i < |names| ==> names[i] == Trim(Distinct(Split(filters.value))[i])
  {
    match filters
    case None => []
    case Some(s) =>
      if s == "" then []
      else
        var names := TrimAll(Distinct(Split(s)));
        assert forall n :: n in names ==>
          exists p :: p in SplitAll(s) && p != "" && n == Trim(p) by {
          forall n | n in names
            ensures exists p :: p in SplitAll(s) && p != "" && n == Trim(p)
          {
            var i :| 0 <= i < |names| && names[i] == n;
            var p := Distinct(Split(s))[i];
            assert p in Split(s);
          }
        }
        assert forall p :: p in SplitAll(s) && p != "" ==> Trim(p) in names by {
          forall p | p in SplitAll(s) && p != ""
            ensures Trim(p) in names
          {
            assert p in Distinct(Split(s));
            var i :| 0 <= i < |Distinct(Split(s))| && Distinct(Split(s))[i] == p;
            assert names[i] == Trim(p);
          }
        }
        names
  }

  function EnabledFor(filters: Option<string>): (configs: seq<FilterConfiguration>)
    ensures |configs| == |FilterNames(filters)|
    ensures forall i :: 0 <= i < |configs| ==> configs[i].name == FilterNames(filters)[i]
  {
    var names := FilterNames(filters);
    seq(|names|, i requires 0 <= i < |names| => FilterConfiguration(names[i]))
  }

  /** Every mapped filter name is trimmed and comma-free. */
  lemma FilterNamesAreTrimmed(filters: Option<string>, n: string)
    requires n in FilterNames(filters)
    ensures n == [] || (!IsWhiteSpace(n[0]) && !IsWhiteSpace(n[|n| - 1]))
    ensures ',' !in n
  {
    var p :| p in SplitAll(filters.value) && p != "" && n == Trim(p);
    TrimKeepsCommaFree(p);
  }

  /** `"a, a"` maps to two filters both named `a`: Distinct runs before Trim. */
  lemma DuplicateSurvivesTrim()
    ensures FilterNames(Some("a, a")) == ["a", "a"]
  {
    assert "a" + "," + " a" == "a, a";
    SplitPair("a", " a");
    DistinctPair("a", " a");
    TrimSolid("a");
    assert Trim(" a") == "a" by {
      assert SkipStart(" a", 0) == 1;
      assert SkipEnd(" a", 1, 2) == 2;
    }
    assert TrimAll(["a", " a"]) == ["a", "a"];
  }

  /** Exact duplicates collapse, and empty pieces between commas vanish. */
  lemma ExactDuplicatesCollapse()
    ensures FilterNames(Some("a,,a")) == ["a"]
  {
    assert "a" + ",," + "a" == "a,,a";
    SplitSkipsEmpty("a", "a");
    DistinctRepeat("a");
    TrimSolid("a");
    assert TrimAll(["a"]) == ["a"];
  }

  /** A piece of white space only becomes a filter with an empty name. */
  lemma WhiteSpacePieceGivesEmptyName()
    ensures FilterNames(Some("a, ")) == ["a", ""]
  {
    assert "a" + "," + " " == "a, ";
    SplitPair("a", " ");
    DistinctPair("a", " ");
    TrimSolid("a");
    TrimAllWhiteSpace(" ");
    assert TrimAll(["a", " "]) == ["a", ""];
  }

  /** Outcome of the current mapping, which throws instead of returning null. */
  datatype MapOutcome = Mapped(definition: FeatureDefinition) | MapFailed(error: Exc)

  /** The message of the wrapping exception; `feature?.Id` prints as empty
      for a null entity. */
  function MapFailureMessage(id: string): string {
    "Failed to map feature entity '" + id + "' to FeatureDefinition."
  }

  /** Field mapping shared by both generations for a non-null entity. */
  function Definition(e: FeatureEntity): (d: FeatureDefinition)
    ensures d.name == e.id
    ensures d.status == Conditional <==> e.enabled
    ensures d.requirementType == All <==> e.requirementType == 1
    ensures d.enabledFor == EnabledFor(e.filters)
  {
    FeatureDefinition(
      e.id,
      if e.enabled then Conditional else Disabled,
      if e.requirementType == 1 then All else Any,
      EnabledFor(e.filters))
  }

  /** Current `MapToFeatureDefinition`: a null entity raises
      `InvalidOperationException` wrapping the inner `ArgumentNullException`;
      nothing else in the body can throw. */
  function MapEntity(e: Option<FeatureEntity>): (r: MapOutcome)
    ensures r.MapFailed? <==> e.None?
    ensures r.MapFailed? ==> r.error == Exc(InvalidOperation, MapFailureMessage(""))
    ensures e.Some? ==> r.definition.name == e.value.id
    ensures e.Some? ==> (r.definition.status == Conditional <==> e.value.enabled)
    ensures e.Some? ==> (r.definition.requirementType == All <==> e.value.requirementType == 1)
    ensures e.Some? ==> |r.definition.enabledFor| == |Distinct(Split(e.value.filters.GetOr("")))|
    ensures e.Some? ==> r.definition.enabledFor == EnabledFor(e.value.filters)
  {
    match e
    case None => MapFailed(Exc(InvalidOperation, MapFailureMessage("")))
    case Some(entity) => Mapped(Definition(entity))
  }

  /** Legacy `MapToFeatureDefinition`: any failure, a null entity included,
      yields null. */
  function MapEntityLegacy(e: Option<FeatureEntity>): (r: Option<FeatureDefinition>)
    ensures r.None? <==> e.None?
    ensures e.Some? ==> r.value.name == e.value.id
    ensures e.Some? ==> (r.value.status == Conditional <==> e.value.enabled)
    ensures e.Some? ==> (r.value.requirementType == All <==> e.value.requirementType == 1)
    ensures e.Some? ==> r.value.enabledFor == EnabledFor(e.value.filters)
  {
    match e
    case None => None
    case Some(entity) => Some(Definition(entity))
  }

  /** The generations agree on every entity and differ only on null, where
      the current one throws and the legacy one returns null. */
  lemma MappingGenerationsAgree(e: Option<FeatureEntity>)
    ensures e.Some? ==> MapEntity(e) == Mapped(MapEntityLegacy(e).value)
    ensures e.None? ==> MapEntity(e).MapFailed? && MapEntityLegacy(e) == None
  {
  }
}

=== FILE: memory_cache.dfy ===
/** The process-wide `IMemoryCache` as the decorators and filters use it,
    with the cancellation-token mechanics replaced by epochs: every
    cache-capable object owns a counter, an entry may depend on one
    generation of one owner, and the entry is served only while that
    generation is still its owner's current one. */
module MemoryCache {
  import opened Base
  import opened Definitions

  /** Identity of a provider, decorator or filter object. */
  type NodeId = nat

  /** The `CancellationToken` of generation `gen` of `owner`'s token source. */
  datatype Token = Token(owner: NodeId, gen: nat)

  /** What can sit in the shared cache: a single definition (or null), a
      materialised list of definitions, or a filter verdict. */
  datatype CachedValue =
    | One(definition: Option<FeatureDefinition>)
    | Many(definitions: seq<Option<FeatureDefinition>>)
    | Flag(enabled: bool)

  const DefinitionTypeName := "Microsoft.FeatureManagement.FeatureDefinition"
  const ListTypeName := "System.Collections.Generic.List`1[" + DefinitionTypeName + "]"
  const BoolTypeName := "System.Boolean"

  /** The runtime type of a non-null cached object, as the runtime names it
      in a cast failure. */
  function TypeOf(v: CachedValue): string {
    match v
    case One(_) => DefinitionTypeName
    case Many(_) => ListTypeName
    case Flag(_) => BoolTypeName
  }

  /** The `InvalidCastException` of `GetOrCreateAsync<TItem>`'s `(TItem)`
      cast when the cached object has another type. */
  function CastError(from: string, to: string): (e: Exc)
    ensures e.kind == InvalidCast
  {
    Exc(InvalidCast, "Unable to cast object of type '" + from + "' to type '" + to + "'.")
  }

  /** A cache entry and the expiration token attached to it, if any. */
  datatype Entry = Entry(value: CachedValue, token: Option<Token>)

  /** The cache contents and every owner's current generation (an owner that
      never invalidated is at generation 0). */
  datatype Store = Store(entries: map<string, Entry>, epochs: map<NodeId, nat>)

  const EmptyStore := Store(map[], map[])

  function Epoch(s: Store, owner: NodeId): nat {
    if owner in s.epochs then s.epochs[owner] else 0
  }

  /** `_cacheResetTokenSource.Token` as read now. */
  function CurrentToken(s: Store, owner: NodeId): (t: Token)
    ensures t.owner == owner && t.gen == Epoch(s, owner)
  {
    Token(owner, Epoch(s, owner))
  }

  /** A token is cancelled once its source has been replaced. */
  predicate Cancelled(s: Store, t: Token) {
    t.gen != Epoch(s, t.owner)
  }

  /** An entry is served while it has no token or its token is live. */
  predicate Live(s: Store, e: Entry) {
    e.token.None? || !Cancelled(s, e.token.value)
  }

  /** `TryGetValue`: the value under `key` unless absent or expired. */
  function Lookup(s: Store, key: string): (v: Option<CachedValue>)
    ensures v.Some? <==> key in s.entries && Live(s, s.entries[key])
    ensures v.Some? ==> v.value == s.entries[key].value
  {
    if key in s.entries && Live(s, s.entries[key]) then Some(s.entries[key].value) else None
  }

  /** Committing a created entry, with its expiration token if one was
      attached. */
  function Commit(s: Store, key: string, v: CachedValue, token: Option<Token>): (s': Store)
    ensures s'.epochs == s.epochs
    ensures key in s'.entries && s'.entries[key] == Entry(v, token)
    ensures forall k :: k != key ==> Lookup(s', k) == Lookup(s, k)
  {
    Store(s.entries[key := Entry(v, token)], s.epochs)
  }

  /** A value just committed under the current token is served back. */
  lemma CommitThenLookup(s: Store, key: string, v: CachedValue, owner: NodeId, attach: bool)
    ensures Lookup(Commit(s, key, v, if attach then Some(CurrentToken(s, owner)) else None), key)
         == Some(v)
  {
  }

  /** `TriggerTokenCancellation` on `owner`: swap in a fresh source and
      cancel the old one. Nothing but the owner's generation changes. */
  function Invalidate(s: Store, owner: NodeId): (s': Store)
    ensures s'.entries == s.entries
    ensures Epoch(s', owner) > Epoch(s, owner)
    ensures forall o :: o != owner ==> Epoch(s', o) == Epoch(s, o)
  {
    Store(s.entries, s.epochs[owner := Epoch(s, owner) + 1])
  }

  /** After the swap the old token is cancelled and the field holds a token
      that is not. */
  lemma InvalidateCancelsOldToken(s: Store, owner: NodeId)
    ensures Cancelled(Invalidate(s, owner), CurrentToken(s, owner))
    ensures !Cancelled(Invalidate(s, owner), CurrentToken(Invalidate(s, owner), owner))
  {
  }

  /** Invalidation stops exactly the entries tied to the owner's current
      token; entries without a token or tied to another owner keep being
      served. */
  lemma {:induction false} InvalidateExpires(s: Store, owner: NodeId, key: string)
    requires key in s.entries
    ensures s.entries[key].token == Some(CurrentToken(s, owner)) ==>
      Lookup(Invalidate(s, owner), key) == None
    ensures s.entries[key].token.None? ==>
      Lookup(Invalidate(s, owner), key) == Lookup(s, key)
    ensures s.entries[key].token.Some? && s.entries[key].token.value.owner != owner ==>
      Lookup(Invalidate(s, owner), key) == Lookup(s, key)
  {
    var s' := Invalidate(s, owner);
    var e := s.entries[key];
    if e.token.Some? {
      assert Epoch(s', e.token.value.owner) == Epoch(s, e.token.value.owner)
        || e.token.value.owner == owner;
    }
  }

  /** `TriggerTokenCancellation(instance, ref source)`: a null instance is
      rejected before anything is swapped. */
  function TriggerTokenCancellation(instance: Option<NodeId>, s: Store): (c: Call<Store>)
    ensures instance.None? <==> c.Raised?
    ensures c.Raised? ==> c.error.kind == ArgumentNull
    ensures c.Returned? ==> c.value.entries == s.entries
    ensures c.Returned? ==> Cancelled(c.value, CurrentToken(s, instance.value))
    ensures c.Returned? ==> !Cancelled(c.value, CurrentToken(c.value, instance.value))
  {
    match instance
    case None => Raised(ArgumentNullFor("instance"))
    case Some(owner) => Returned(Invalidate(s, owner))
  }

  /** Result of `ExecuteWithCache` with a factory that does not touch the
      cache itself: the value (or the factory's exception), the new store,
      and whether the factory ran. */
  datatype Cached = Cached(call: Call<CachedValue>, store: Store, factoryRan: bool)

  /** `ExecuteWithCache`: a hit returns the stored value; a miss runs the
      factory and, if it returns, stores its value with `token` attached.
      A factory exception is passed on and nothing is stored. */
  function ExecuteWithCache(s: Store, key: string, factory: Computation<CachedValue>, token: Option<Token>)
    : (r: Cached)
    ensures r.factoryRan <==> Lookup(s, key).None?
    ensures !r.factoryRan ==> r.call == Returned(Lookup(s, key).value) && r.store == s
    ensures r.factoryRan && factory.Returns? ==>
      r.call == Returned(factory.result) && r.store == Commit(s, key, factory.result, token)
    ensures r.factoryRan && factory.Throws? ==> r.call == Raised(factory.thrown) && r.store == s
  {
    match Lookup(s, key)
    case Some(v) => Cached(Returned(v), s, false)
    case None =>
      match factory
      case Returns(v) => Cached(Returned(v), Commit(s, key, v, token), true)
      case Throws(e) => Cached(Raised(e), s, true)
  }

  /** Cache-aside: with the current token attached, a repeat call with no
      invalidation in between is a hit that returns the first call's value
      and does not run the (possibly different) second factory. */
  lemma {:induction false} RepeatIsHit(s: Store, key: string, f1: Computation<CachedValue>,
                                       f2: Computation<CachedValue>, owner: NodeId)
    requires ExecuteWithCache(s, key, f1, Some(CurrentToken(s, owner))).call.Returned?
    ensures var r1 := ExecuteWithCache(s, key, f1, Some(CurrentToken(s, owner)));
            var r2 := ExecuteWithCache(r1.store, key, f2, Some(CurrentToken(r1.store, owner)));
            !r2.factoryRan && r2.call == r1.call && r2.store == r1.store
  {
    var r1 := ExecuteWithCache(s, key, f1, Some(CurrentToken(s, owner)));
    if r1.factoryRan {
      CommitThenLookup(s, key, f1.result, owner, true);
    }
  }

  /** After the owner invalidates, the same key misses and the factory runs
      again, even though the cached value is unchanged. */
  lemma {:induction false} InvalidateForcesMiss(s: Store, key: string, f: Computation<CachedValue>,
                                                owner: NodeId)
    requires ExecuteWithCache(s, key, f, Some(CurrentToken(s, owner))).call.Returned?
    ensures var r1 := ExecuteWithCache(s, key, f, Some(CurrentToken(s, owner)));
            r1.factoryRan ==>
              var s2 := Invalidate(r1.store, owner);
              ExecuteWithCache(s2, key, f, Some(CurrentToken(s2, owner))).factoryRan
  {
    var r1 := ExecuteWithCache(s, key, f, Some(CurrentToken(s, owner)));
    if r1.factoryRan {
      InvalidateExpires(r1.store, owner, key);
    }
  }
}

=== FILE: providers.dfy ===
/** The current provider chain (`Microsoft.FeatureManagement.Plus`): the
    composite, the cache decorator and the logging decorator. A read returns
    its outcome together with the shared cache it leaves behind; reads never
    change any epoch, only `InvalidateCache` does. */
module Providers {
  import opened Base
  import opened Definitions
  import opened MemoryCache
  import opened Chain

  // ------------------------------------------------------------ constructors

  /** The children a composite keeps: the input in order, without null
      entries and without the composite itself. */
  function KeepChildren(input: seq<Node>, self: NodeId): (kept: seq<Node>)
    ensures |kept| <= |input|
    ensures forall c :: c in kept <==> c in input && !c.Missing? && c.id != self
  {
    if |input| == 0 then []
    else
      assert input == [input[0]] + input[1..];
      var c := input[0];
      (if !c.Missing? && c.id != self then [c] else []) + KeepChildren(input[1..], self)
  }

  /** Filtering keeps relative order: it distributes over concatenation. */
  lemma {:induction false} KeepChildrenAppend(a: seq<Node>, b: seq<Node>, self: NodeId)
    ensures KeepChildren(a + b, self) == KeepChildren(a, self) + KeepChildren(b, self)
  {
    if |a| == 0 {
      assert a + b == b;
    } else {
      assert (a + b)[0] == a[0];
      assert (a + b)[1..] == a[1..] + b;
      KeepChildrenAppend(a[1..], b, self);
    }
  }

  /** `new CompositeFeatureDefinitionProvider(providers)`: a null collection
      is rejected; otherwise the composite stores exactly the non-null
      entries other than itself. Enumerating the composite yields `children`. */
  function NewComposite(self: NodeId, input: Option<seq<Node>>): (c: Call<Node>)
    ensures input.None? <==> c.Raised?
    ensures c.Raised? ==> c.error == ArgumentNullFor("providers")
    ensures c.Returned? ==> c.value.Composite? && c.value.id == self
    ensures c.Returned? ==>
      forall p :: p in c.value.children <==> p in input.value && !p.Missing? && p.id != self
    ensures c.Returned? ==> c.value.children == KeepChildren(input.value, self)
  {
    match input
    case None => Raised(ArgumentNullFor("providers"))
    case Some(providers) => Returned(Composite(self, KeepChildren(providers, self)))
  }

  /** A null entry and a reference to the composite itself leave no trace:
      `[self, null, x]` builds the same composite as `[x]`. */
  lemma {:induction false} NullAndSelfAreDropped(self: NodeId, me: Node, x: Node)
    requires !me.Missing? && me.id == self
    requires !x.Missing? && x.id != self
    ensures NewComposite(self, Some([me, Missing, x])) == NewComposite(self, Some([x]))
  {
    var input := [me, Missing, x];
    assert input[1..] == [Missing, x];
    assert [Missing, x][1..] == [x];
    assert [x][1..] == [];
    assert KeepChildren([x], self) == [x];
    assert KeepChildren([Missing, x], self) == KeepChildren([x], self);
    assert KeepChildren(input, self) == KeepChildren([Missing, x], self);
    assert KeepChildren([me, Missing, x], self) == [x];
  }

  /** `new FeatureDefinitionProviderCacheDecorator(target, cache, logger,
      options)`: the first null argument, in declaration order, is rejected.
      `trackEviction` is the options object (null or its
      `TrackCacheItemEviction`). Reads hand the flag to an `ExecuteWithCache`
      overload outside this model; the model takes the flag to decide
      whether they attach the epoch token. */
  function NewCacheDecorator(id: NodeId, target: Node, hasCache: bool, hasLogger: bool,
                             trackEviction: Option<bool>): (c: Call<Node>)
    ensures c.Returned? <==> !target.Missing? && hasCache && hasLogger && trackEviction.Some?
    ensures target.Missing? ==> c == Raised(ArgumentNullFor("target"))
    ensures !target.Missing? && !hasCache ==> c == Raised(ArgumentNullFor("cache"))
    ensures !target.Missing? && hasCache && !hasLogger ==> c == Raised(ArgumentNullFor("logger"))
    ensures !target.Missing? && hasCache && hasLogger && trackEviction.None? ==>
      c == Raised(ArgumentNullFor("options"))
    ensures c.Returned? ==>
      && IsDecorator(c.value) && CacheCapable(c.value) && c.value.id == id
      && c.value.target == target && c.value.attach == trackEviction.value
  {
    if target.Missing? then Raised(ArgumentNullFor("target"))
    else if !hasCache then Raised(ArgumentNullFor("cache"))
    else if !hasLogger then Raised(ArgumentNullFor("logger"))
    else if trackEviction.None? then Raised(ArgumentNullFor("options"))
    else Returned(CacheDecorator(id, target, trackEviction.value))
  }

  /** `new FeatureDefinitionProviderLoggerDecorator(target, logger)`. */
  function NewLoggerDecorator(id: NodeId, target: Node, hasLogger: bool): (c: Call<Node>)
    ensures c.Returned? <==> !target.Missing? && hasLogger
    ensures target.Missing? ==> c == Raised(ArgumentNullFor("target"))
    ensures !target.Missing? && !hasLogger ==> c == Raised(ArgumentNullFor("logger"))
    ensures c.Returned? ==>
      IsDecorator(c.value) && !CacheCapable(c.value) && c.value.id == id && c.value.target == target
  {
    if target.Missing? then Raised(ArgumentNullFor("target"))
    else if !hasLogger then Raised(ArgumentNullFor("logger"))
    else Returned(LoggerDecorator(id, target))
  }

  // -------------------------------------------------------- single lookups

  /** The token a decorator's read attaches: read once, when the call starts. */
  function TokenFor(s: Store, id: NodeId, attach: bool): (t: Option<Token>)
    ensures attach <==> t.Some?
    ensures t.Some? ==> t.value == CurrentToken(s, id)
  {
    if attach then Some(CurrentToken(s, id)) else None
  }

  /** The end of a miss: a value (null included) is stored with the token
      read at the start; an exception leaves the cache as it is. */
  function CompleteGet(s: Store, key: string, o: Answer, token: Option<Token>): (s': Store)
    ensures s'.epochs == s.epochs
    ensures o.Failed? ==> s' == s
    ensures !o.Failed? ==> key in s'.entries && s'.entries[key] == Entry(One(AsNullable(o)), token)
    ensures forall k :: k != key ==> Lookup(s', k) == Lookup(s, k)
  {
    if o.Failed? then s else Commit(s, key, One(AsNullable(o)), token)
  }

  /** `GetFeatureDefinitionAsync` of `n`. */
  function Get(n: Node, name: string, s: Store): (r: (Answer, Store))
    ensures r.1.epochs == s.epochs
    ensures n.Composite? && name == "" ==> r == (Failed(ArgumentNullFor("featureName")), s)
    decreases n, 1
  {
    match n
    case Source(_, _, _, _) => (SourceAnswer(n, name), s)
    case Composite(_, children) =>
      if name == "" then (Failed(ArgumentNullFor("featureName")), s)
      else FirstMatch(children, name, s)
    case CacheDecorator(id, target, attach) =>
      (match Lookup(s, FeatureKey(name))
       case Some(One(d)) => (FromNullable(d), s)
       case Some(v) => (Failed(CastError(TypeOf(v), DefinitionTypeName)), s)
       case None => CacheMiss(id, target, attach, name, s))
    case LoggerDecorator(_, target) => Get(target, name, s)
    case Delegating(_, inner) => Get(inner, name, s)
    case Missing => (Failed(NullReferenceError), s)
  }

  /** A per-name miss: the token is read, Target is asked, the answer is
      stored unless it is an exception, and returned either way. */
  function CacheMiss(id: NodeId, target: Node, attach: bool, name: string, s: Store)
    : (r: (Answer, Store))
    ensures r.1.epochs == s.epochs
    ensures r.0 == Get(target, name, s).0
    decreases target, 2
  {
    var token := TokenFor(s, id, attach);
    var (o, s1) := Get(target, name, s);
    (o, CompleteGet(s1, FeatureKey(name), o, token))
  }

  /** The composite's loop: the first child answer that is not null ends
      it, and so does the first exception. */
  function FirstMatch(children: seq<Node>, name: string, s: Store): (r: (Answer, Store))
    ensures r.1.epochs == s.epochs
    ensures |children| == 0 ==> r == (NotFound, s)
    decreases children, 0
  {
    if |children| == 0 then (NotFound, s)
    else
      var (o, s1) := Get(children[0], name, s);
      if o.NotFound? then FirstMatch(children[1..], name, s1) else (o, s1)
  }

  /** Once some child has answered (a definition or an exception), later
      children are not consulted: neither the answer nor the cache depends
      on them. */
  lemma {:induction false} FirstMatchStops(pre: seq<Node>, post: seq<Node>, name: string, s: Store)
    requires !FirstMatch(pre, name, s).0.NotFound?
    ensures FirstMatch(pre + post, name, s) == FirstMatch(pre, name, s)
  {
    assert |pre| > 0;
    assert (pre + post)[0] == pre[0];
    assert (pre + post)[1..] == pre[1..] + post;
    var (o, s1) := Get(pre[0], name, s);
    if o.NotFound? {
      FirstMatchStops(pre[1..], post, name, s1);
    }
  }

  /** While every earlier child answers null, the lookup carries on with the
      later ones from the cache the earlier ones left. */
  lemma {:induction false} FirstMatchContinues(pre: seq<Node>, post: seq<Node>, name: string, s: Store)
    requires FirstMatch(pre, name, s).0.NotFound?
    ensures FirstMatch(pre + post, name, s) == FirstMatch(post, name, FirstMatch(pre, name, s).1)
  {
    if |pre| == 0 {
      assert pre + post == post;
    } else {
      assert (pre + post)[0] == pre[0];
      assert (pre + post)[1..] == pre[1..] + post;
      var (o, s1) := Get(pre[0], name, s);
      FirstMatchContinues(pre[1..], post, name, s1);
    }
  }

  /** Reference definition: the first answer that is not null, or null. */
  function FirstNonNull(answers: seq<Answer>): (o: Answer)
    ensures o.NotFound? <==> forall i :: 0 <= i < |answers| ==> answers[i].NotFound?
    ensures !o.NotFound? ==>
      exists i :: 0 <= i < |answers| && answers[i] == o && forall j :: 0 <= j < i ==> answers[j].NotFound?
  {
    if |answers| == 0 then NotFound
    else if answers[0].NotFound? then
      var o := FirstNonNull(answers[1..]);
      assert !o.NotFound? ==>
        exists i :: 0 <= i < |answers| && answers[i] == o && forall j :: 0 <= j < i ==> answers[j].NotFound?
      by {
        if !o.NotFound? {
          var k :| 0 <= k < |answers[1..]| && answers[1..][k] == o
            && forall j :: 0 <= j < k ==> answers[1..][j].NotFound?;
          assert answers[k + 1] == o;
          assert forall j :: 0 <= j < k + 1 ==> answers[j].NotFound? by {
            forall j | 0 <= j < k + 1 ensures answers[j].NotFound? {
              if j > 0 { assert answers[j] == answers[1..][j - 1]; }
            }
          }
        }
      }
      o
    else answers[0]
  }

  predicate AllSources(children: seq<Node>) {
    forall i :: 0 <= i < |children| ==> children[i].Source?
  }

  function Answers(children: seq<Node>, name: string): (answers: seq<Answer>)
    requires AllSources(children)
    ensures |answers| == |children|
  {
    seq(|children|, i requires 0 <= i < |children| => SourceAnswer(children[i], name))
  }

  /** Over sources that touch no cache, the composite's lookup is the first
      non-null answer in child order, and the cache is left alone. */
  lemma {:induction false} FirstMatchOfSources(children: seq<Node>, name: string, s: Store)
    requires AllSources(children)
    ensures FirstMatch(children, name, s) == (FirstNonNull(Answers(children, name)), s)
  {
    if |children| > 0 {
      assert Answers(children, name)[1..] == Answers(children[1..], name);
      FirstMatchOfSources(children[1..], name, s);
    }
  }

  // ----------------------------------------------------------- enumeration

  /** The elements that are not null, in order. */
  function NonNull(items: seq<Option<FeatureDefinition>>): (out: seq<Option<FeatureDefinition>>)
    ensures |out| <= |items|
    ensures forall d :: d in out <==> d in items && d.Some?
  {
    if |items| == 0 then []
    else
      assert items == [items[0]] + items[1..];
      (if items[0].Some? then [items[0]] else []) + NonNull(items[1..])
  }

  /** Dropping nulls keeps relative order: it distributes over concatenation. */
  lemma {:induction false} NonNullAppend(a: seq<Option<FeatureDefinition>>, b: seq<Option<FeatureDefinition>>)
    ensures NonNull(a + b) == NonNull(a) + NonNull(b)
  {
    if |a| == 0 {
      assert a + b == b;
    } else {
      assert (a + b)[0] == a[0];
      assert (a + b)[1..] == a[1..] + b;
      NonNullAppend(a[1..], b);
    }
  }

  /** What the aggregate cache entry replays: the stored list, elements in
      order. */
  function Replay(l: seq<Option<FeatureDefinition>>): Stream {
    Stream(l, None)
  }

  /** `GetAllFeatureDefinitionsAsync` of `n`, consumed to the end. */
  function GetAll(n: Node, s: Store): (r: (Stream, Store))
    ensures r.1.epochs == s.epochs
    decreases n, 1
  {
    match n
    case Source(_, _, all, _) => (all, s)
    case Composite(_, children) => ConcatAll(children, s)
    case CacheDecorator(id, target, attach) =>
      (match Lookup(s, AggregateKey)
       case Some(Many(l)) => (Replay(l), s)
       case Some(One(None)) => (Stream([], Some(NullReferenceError)), s)
       case Some(v) => (Stream([], Some(CastError(TypeOf(v), ListTypeName))), s)
       case None => CacheMissAll(id, target, attach, s))
    case LoggerDecorator(_, target) =>
      var (st, s1) := GetAll(target, s);
      (Stream(NonNull(st.items), st.fault), s1)
    case Delegating(_, inner) => GetAll(inner, s)
    case Missing => (Stream([], Some(NullReferenceError)), s)
  }

  /** An aggregate miss: Target's whole sequence is materialised first;
      nothing is yielded or stored when that fails. */
  function CacheMissAll(id: NodeId, target: Node, attach: bool, s: Store): (r: (Stream, Store))
    ensures r.1.epochs == s.epochs
    ensures GetAll(target, s).0.fault.Some? ==>
      r == (Stream([], GetAll(target, s).0.fault), GetAll(target, s).1)
    ensures GetAll(target, s).0.fault.None? ==>
      && r.0 == GetAll(target, s).0
      && AggregateKey in r.1.entries
      && r.1.entries[AggregateKey] == Entry(Many(r.0.items), TokenFor(s, id, attach))
      && Lookup(r.1, AggregateKey) == Some(Many(r.0.items))
    ensures forall k :: k != AggregateKey ==> Lookup(r.1, k) == Lookup(GetAll(target, s).1, k)
    decreases target, 2
  {
    var token := TokenFor(s, id, attach);
    var (st, s1) := GetAll(target, s);
    if st.fault.Some? then (Stream([], st.fault), s1)
    else (st, Commit(s1, AggregateKey, Many(st.items), token))
  }

  /** The composite's loop over children: each child's elements in turn;
      a child's exception ends the enumeration, and later children are not
      started. */
  function ConcatAll(children: seq<Node>, s: Store): (r: (Stream, Store))
    ensures r.1.epochs == s.epochs
    ensures |children| == 0 ==> r == (EmptyStream, s)
    decreases children, 0
  {
    if |children| == 0 then (EmptyStream, s)
    else
      var (first, s1) := GetAll(children[0], s);
      if first.fault.Some? then (first, s1)
      else
        var (rest, s2) := ConcatAll(children[1..], s1);
        (Stream(first.items + rest.items, rest.fault), s2)
  }

  /** Enumeration composes over a split of the children: without an
      exception in the first part, the elements are the two parts' elements
      concatenated; after one, the second part is never started. */
  lemma {:induction false} ConcatAllAppend(pre: seq<Node>, post: seq<Node>, s: Store)
    ensures var (a, s1) := ConcatAll(pre, s);
      ConcatAll(pre + post, s) ==
        if a.fault.Some? then (a, s1)
        else
          var (b, s2) := ConcatAll(post, s1);
          (Stream(a.items + b.items, b.fault), s2)
  {
    if |pre| == 0 {
      assert pre + post == post;
      var (b, s2) := ConcatAll(post, s);
      assert [] + b.items == b.items;
    } else {
      assert (pre + post)[0] == pre[0];
      assert (pre + post)[1..] == pre[1..] + post;
      var (first, s1) := GetAll(pre[0], s);
      if first.fault.None? {
        ConcatAllAppend(pre[1..], post, s1);
        var (a, t1) := ConcatAll(pre[1..], s1);
        if a.fault.None? {
          var (b, t2) := ConcatAll(post, t1);
          assert first.items + (a.items + b.items) == (first.items + a.items) + b.items;
        }
      }
    }
  }

  /** All elements of the given streams, in order. */
  function Flatten(streams: seq<Stream>): seq<Option<FeatureDefinition>> {
    if |streams| == 0 then [] else streams[0].items + Flatten(streams[1..])
  }

  function Streams(children: seq<Node>): (streams: seq<Stream>)
    requires AllSources(children)
    ensures |streams| == |children|
  {
    seq(|children|, i requires 0 <= i < |children| => children[i].all)
  }

  /** Over sources whose enumerations all complete, the composite yields
      every element of every child, in child order then element order, with
      no deduplication. */
  lemma {:induction false} ConcatAllOfSources(children: seq<Node>, s: Store)
    requires AllSources(children)
    requires forall i :: 0 <= i < |children| ==> children[i].all.fault.None?
    ensures ConcatAll(children, s) == (Stream(Flatten(Streams(children)), None), s)
  {
    if |children| > 0 {
      assert Streams(children)[1..] == Streams(children[1..]);
      ConcatAllOfSources(children[1..], s);
    }
  }

  // ------------------------------------------------------- cache decorator

  /** With no invalidation in between, a repeat lookup of the same name is a
      hit: it returns the first answer and leaves the cache alone, whatever
      Target would say now. */
  lemma {:induction false} CacheRepeatIsHit(id: NodeId, target: Node, other: Node, attach: bool,
                                            name: string, s: Store)
    requires !Get(CacheDecorator(id, target, attach), name, s).0.Failed?
    ensures var r := Get(CacheDecorator(id, target, attach), name, s);
      Get(CacheDecorator(id, other, attach), name, r.1) == r
  {
    var key := FeatureKey(name);
    if Lookup(s, key).None? {
      var r := CacheMiss(id, target, attach, name, s);
      var (o, s1) := Get(target, name, s);
      assert Epoch(s1, id) == Epoch(s, id);
      CommitThenLookup(s1, key, One(AsNullable(o)), id, attach);
      assert Lookup(r.1, key) == Some(One(AsNullable(o)));
    }
  }

  /** After the decorator's `InvalidateCache`, an entry it created with its
      token attached is no longer served: the next lookup asks Target again. */
  lemma {:induction false} CacheInvalidateForcesMiss(id: NodeId, target: Node, name: string, s: Store)
    requires Lookup(s, FeatureKey(name)).None?
    requires !Get(CacheDecorator(id, target, true), name, s).0.Failed?
    ensures var r := Get(CacheDecorator(id, target, true), name, s);
      var s2 := Invalidate(r.1, id);
      Get(CacheDecorator(id, target, true), name, s2) == CacheMiss(id, target, true, name, s2)
  {
    var key := FeatureKey(name);
    var r := Get(CacheDecorator(id, target, true), name, s);
    assert r.1.entries[key].token == Some(CurrentToken(r.1, id));
    InvalidateExpires(r.1, id, key);
  }

  /** Without the token attached, invalidation does not reach the entry:
      the stored answer keeps being served. */
  lemma {:induction false} CacheUnattachedSurvivesInvalidate(id: NodeId, target: Node, other: Node,
                                                             name: string, s: Store)
    requires Lookup(s, FeatureKey(name)).None?
    requires !Get(CacheDecorator(id, target, false), name, s).0.Failed?
    ensures var r := Get(CacheDecorator(id, target, false), name, s);
      var s2 := Invalidate(r.1, id);
      Get(CacheDecorator(id, other, false), name, s2) == (r.0, s2)
  {
    var key := FeatureKey(name);
    var r := Get(CacheDecorator(id, target, false), name, s);
    InvalidateExpires(r.1, id, key);
  }

  /** An exception from Target is passed on and not cached: the next lookup
      asks Target again. */
  lemma {:induction false} CacheDoesNotStoreExceptions(id: NodeId, target: Node, attach: bool,
                                                       name: string, s: Store)
    requires Lookup(s, FeatureKey(name)).None?
    requires Get(target, name, s).0.Failed?
    ensures Get(CacheDecorator(id, target, attach), name, s) == Get(target, name, s)
  {
  }

  /** The token is the one read when the call began: if the decorator is
      invalidated while Target is still running, the answer is stored
      already expired and is not served. Had the token been read when the
      answer was stored, the stale answer would be served. */
  lemma ResetDuringMissIsNotLost(s: Store, mid: Store, id: NodeId, name: string, o: Answer)
    requires Epoch(mid, id) == Epoch(s, id)
    requires !o.Failed?
    ensures var after := Invalidate(mid, id);
      Lookup(CompleteGet(after, FeatureKey(name), o, TokenFor(s, id, true)), FeatureKey(name)).None?
    ensures var after := Invalidate(mid, id);
      Lookup(CompleteGet(after, FeatureKey(name), o, TokenFor(after, id, true)), FeatureKey(name))
        == Some(One(AsNullable(o)))
  {
  }

  /** The factory a decorator lookup hands to `ExecuteWithCache`. */
  function LookupFactory(o: Answer): (f: Computation<CachedValue>)
    ensures o.Failed? <==> f.Throws?
    ensures f.Returns? ==> f.result == One(AsNullable(o))
  {
    if o.Failed? then Throws(o.error) else Returns(One(AsNullable(o)))
  }

  /** Over a Target that does not touch the cache, the decorator's lookup is
      `ExecuteWithCache` under the per-name key with Target's answer as the
      factory. */
  lemma CacheGetIsExecuteWithCache(id: NodeId, target: Node, attach: bool, name: string, s: Store)
    requires Get(target, name, s).1 == s
    requires Lookup(s, FeatureKey(name)).None? || Lookup(s, FeatureKey(name)).value.One?
    ensures var c := ExecuteWithCache(s, FeatureKey(name), LookupFactory(Get(target, name, s).0),
                                      TokenFor(s, id, attach));
      var r := Get(CacheDecorator(id, target, attach), name, s);
      && r.1 == c.store
      && (c.call.Returned? ==> r.0 == FromNullable(c.call.value.definition))
      && (c.call.Raised? ==> r.0 == Failed(c.call.error))
      && (c.factoryRan <==> Lookup(s, FeatureKey(name)).None?)
  {
  }

  /** The aggregate: with no invalidation in between, the list materialised
      on a miss is replayed, in order, on the next enumeration, whatever
      Target would yield now. */
  lemma {:induction false} AggregateReplays(id: NodeId, target: Node, other: Node, attach: bool, s: Store)
    requires GetAll(CacheDecorator(id, target, attach), s).0.fault.None?
    ensures var r := GetAll(CacheDecorator(id, target, attach), s);
      GetAll(CacheDecorator(id, other, attach), r.1) == r
  {
    if Lookup(s, AggregateKey).None? {
      var (st, s1) := GetAll(target, s);
      assert Epoch(s1, id) == Epoch(s, id);
      CommitThenLookup(s1, AggregateKey, Many(st.items), id, attach);
    }
  }

  /** After `InvalidateCache`, the aggregate is materialised again. */
  lemma {:induction false} AggregateInvalidateForcesMiss(id: NodeId, target: Node, s: Store)
    requires Lookup(s, AggregateKey).None?
    requires GetAll(CacheDecorator(id, target, true), s).0.fault.None?
    ensures var r := GetAll(CacheDecorator(id, target, true), s);
      var s2 := Invalidate(r.1, id);
      GetAll(CacheDecorator(id, target, true), s2) == CacheMissAll(id, target, true, s2)
  {
    var r := GetAll(CacheDecorator(id, target, true), s);
    InvalidateExpires(r.1, id, AggregateKey);
  }

  /** An exception while materialising yields nothing, is passed on, and
      the decorator stores nothing. */
  lemma AggregateFailureYieldsNothing(id: NodeId, target: Node, attach: bool, s: Store)
    requires Lookup(s, AggregateKey).None?
    requires GetAll(target, s).0.fault.Some?
    ensures var r := GetAll(CacheDecorator(id, target, attach), s);
      r == (Stream([], GetAll(target, s).0.fault), GetAll(target, s).1)
  {
  }

  /** A decorator's lookup never disturbs the aggregate entry, and its
      enumeration never disturbs a per-name entry: the keys are disjoint. */
  lemma AggregateAndLookupsAreIndependent(s: Store, name: string, o: Answer, token: Option<Token>,
                                          items: seq<Option<FeatureDefinition>>)
    ensures Lookup(CompleteGet(s, FeatureKey(name), o, token), AggregateKey) == Lookup(s, AggregateKey)
    ensures Lookup(Commit(s, AggregateKey, Many(items), token), FeatureKey(name))
         == Lookup(s, FeatureKey(name))
  {
    AggregateKeyIsNoFeatureKey(name);
  }

  /** The per-name key does not depend on the decorator, so decorators over
      different providers share entries: behind two cached children, a
      feature only the second child knows is hidden once the first child's
      null answer is cached, while the uncached composite finds it. */
  lemma SharedKeyHidesLaterChild(d: FeatureDefinition)
    requires d.name != ""
    ensures var a := Source(1, map[], EmptyStream, false);
      var b := Source(2, map[d.name := Found(d)], EmptyStream, false);
      && Get(Composite(0, [CacheDecorator(3, a, true), CacheDecorator(4, b, true)]), d.name, EmptyStore).0
           == NotFound
      && Get(Composite(0, [a, b]), d.name, EmptyStore).0 == Found(d)
  {
    var a := Source(1, map[], EmptyStream, false);
    var b := Source(2, map[d.name := Found(d)], EmptyStream, false);
    var key := FeatureKey(d.name);
    var r1 := Get(CacheDecorator(3, a, true), d.name, EmptyStore);
    assert r1.0 == NotFound;
    assert Lookup(r1.1, key) == Some(One(None));
    assert FirstMatch([CacheDecorator(4, b, true)], d.name, r1.1).0 == NotFound;
    assert FirstMatch([b], d.name, EmptyStore).0 == Found(d);
  }

  // ------------------------------------------------------ logging decorator

  /** The logging decorator returns exactly Target's answer: null stays
      null and an exception is rethrown unchanged, never turned into null. */
  lemma LoggerGetPassesThrough(id: NodeId, target: Node, name: string, s: Store)
    ensures Get(LoggerDecorator(id, target), name, s) == Get(target, name, s)
    ensures Get(target, name, s).0.Failed? ==> Get(LoggerDecorator(id, target), name, s).0.Failed?
  {
  }

  /** The logging decorator's enumeration: Target's non-null elements in
      Target's order, ended by Target's exception if there was one. */
  lemma LoggerGetAllDropsNulls(id: NodeId, target: Node, s: Store)
    ensures var (st, s1) := GetAll(target, s);
      var (out, s2) := GetAll(LoggerDecorator(id, target), s);
      && s2 == s1 && out.fault == st.fault
      && (forall d :: d in out.items <==> d in st.items && d.Some?)
      && out.items == NonNull(st.items)
  {
  }
}

=== FILE: results.dfy ===
/** The current Result pattern (`Result`, `Result<TValue>`, `Fault`,
    `ResultExtensions`). Faults are compared by reference, so a fault carries
    an explicit identity and success means "the fault IS the shared `None`
    instance", not "the fault looks empty". */
module Results {
  import opened Base

  /** Reference identity of a `Fault` object. */
  type FaultRef = nat

  const NoneRef: FaultRef := 0
  const NullValueRef: FaultRef := 1
  const ConditionNotMetRef: FaultRef := 2

  /** Identity of an object built by `new Fault(...)` during a call: distinct
      from the three shared instances. */
  type FreshRef = r: FaultRef | r > ConditionNotMetRef witness 3

  datatype Fault = Fault(ref: FaultRef, code: string, message: string)

  const FaultNone := Fault(NoneRef, "", "")
  const NullValue := Fault(NullValueRef, "Error.NullValue", "The specified result value is null.")
  const ConditionNotMet :=
    Fault(ConditionNotMetRef, "Error.ConditionNotMet", "The specified condition was not met.")

  /** `Fault.IsNone`: reference equality with the shared instance. */
  predicate IsNone(f: Fault) {
    f.ref == NoneRef
  }

  /** A `Result<TValue>` object: its fault and its stored `_value`
      (None for C#'s `default`). The value-less `Result` is `Result<()>`. */
  datatype Result<T> = Result(fault: Fault, stored: Option<T>)

  predicate IsSuccess<T>(r: Result<T>) {
    IsNone(r.fault)
  }

  predicate IsFailure<T>(r: Result<T>) {
    !IsSuccess(r)
  }

  function Success<T>(v: T): (r: Result<T>)
    ensures IsSuccess(r)
  {
    Result(FaultNone, Some(v))
  }

  function Failure<T>(f: Fault): (r: Result<T>)
    ensures r.fault == f && r.stored == None
    ensures IsSuccess(r) <==> IsNone(f)
  {
    Result(f, None)
  }

  const ValueOnFailureMessage := "Cannot access Value when the result is a failure."

  /** `Result<TValue>.Value`: the stored value on success, an
      `InvalidOperationException` on failure. */
  function Value<T>(r: Result<T>): (c: Call<Option<T>>)
    ensures c.Returned? <==> IsSuccess(r)
    ensures c.Returned? ==> c.value == r.stored
    ensures c.Raised? ==> c.error == Exc(InvalidOperation, ValueOnFailureMessage)
  {
    if IsSuccess(r) then Returned(r.stored)
    else Raised(Exc(InvalidOperation, ValueOnFailureMessage))
  }

  /** Reading back a success gives the value it was built from. */
  lemma ValueOfSuccess<T>(v: T)
    ensures Value(Success(v)) == Returned(Some(v))
  {
  }

  /** `Failure(Fault.None)` counts as a success, and its `Value` is the
      default rather than an exception. */
  lemma FailureOfNoneIsSuccess<T>()
    ensures IsSuccess(Failure<T>(FaultNone))
    ensures Value(Failure<T>(FaultNone)) == Returned(None)
  {
  }

  /** A fault with the same fields as `Fault.None` but a different identity
      is a failure. */
  lemma LookalikeNoneIsFailure<T>(newRef: FreshRef)
    ensures Fault(newRef, "", "") != FaultNone
    ensures IsFailure(Failure<T>(Fault(newRef, "", "")))
  {
  }

  // ------------------------------------------------------ Fault conversions

  const DefaultCodeForStringError := "Error.FromString"

  /** `implicit operator Fault(Exception)`: a new fault named after the
      exception's type, carrying its message. */
  function FromException(e: Exc, newRef: FreshRef): (f: Fault)
    ensures !IsNone(f)
    ensures f.code == TypeName(e.kind) && f.message == e.message
  {
    Fault(newRef, TypeName(e.kind), e.message)
  }

  /** `implicit operator Fault(string)`. */
  function FromString(s: string, newRef: FreshRef): (f: Fault)
    ensures !IsNone(f)
    ensures f.code == DefaultCodeForStringError && f.message == s
  {
    Fault(newRef, DefaultCodeForStringError, s)
  }

  /** `Fault.FromResult` and both `implicit operator Fault(...)` on results:
      a null result converts to `Fault.None`. */
  function FaultOf<T>(r: Option<Result<T>>): (f: Fault)
    ensures r.Some? ==> f == r.value.fault
    ensures r.None? ==> IsNone(f)
  {
    match r
    case None => FaultNone
    case Some(res) => res.fault
  }

  /** `implicit operator TValue(Result<TValue>)`: null converts to the
      default; anything else goes through `Value`, failures included. */
  function ToValue<T>(r: Option<Result<T>>): (c: Call<Option<T>>)
    ensures r.None? ==> c == Returned(None)
    ensures r.Some? ==> (c.Raised? <==> IsFailure(r.value))
  {
    match r
    case None => Returned(None)
    case Some(res) => Value(res)
  }

  /** Round trips through the implicit conversions. */
  lemma ConversionRoundTrips<T>(v: T, f: Fault)
    ensures ToValue(Some(Success(v))) == Returned(Some(v))
    ensures FaultOf(Some(Failure<T>(f))) == f
    ensures IsFailure(Failure<T>(f)) ==> ToValue(Some(Failure<T>(f))).Raised?
  {
  }

  // --------------------------------------------------------------- Try*

  /** What `Try` produced, plus the faults handed to `errorHandler`, in call
      order. */
  datatype TryOutcome<T> = TryOutcome(call: Call<Result<T>>, handled: seq<Fault>)

  /** `Result.Try<TValue>(function, errorHandler)`. A null `errorHandler`
      (the one-argument overload, and `TryTask` / `TryAsyncEnumerable`,
      which have the same body without a handler) is `hasHandler == false`. */
  function Try<T>(fn: Option<Computation<T>>, hasHandler: bool, newRef: FreshRef)
    : (o: TryOutcome<T>)
    ensures fn.None? ==> o == TryOutcome(Raised(ArgumentNullFor("function")), [])
    ensures fn.Some? && fn.value.Returns? ==>
      o == TryOutcome(Returned(Success(fn.value.result)), [])
    ensures fn.Some? && fn.value.Throws? ==>
      && o.call.Returned? && IsFailure(o.call.value)
      && o.call.value.fault.code == TypeName(fn.value.thrown.kind)
      && o.call.value.fault.message == fn.value.thrown.message
      && o.handled == (if hasHandler then [o.call.value.fault] else [])
  {
    match fn
    case None => TryOutcome(Raised(ArgumentNullFor("function")), [])
    case Some(Returns(v)) => TryOutcome(Returned(Success(v)), [])
    case Some(Throws(e)) =>
      var failed := Failure<T>(FromException(e, newRef));
      TryOutcome(Returned(failed), if hasHandler then [failed.fault] else [])
  }

  /** `Result.Try(Action)`. */
  function TryAction(action: Option<Computation<()>>, newRef: FreshRef): (c: Call<Result<()>>)
    ensures action.None? <==> c.Raised?
    ensures c.Raised? ==> c.error == ArgumentNullFor("action")
    ensures action.Some? ==> (IsSuccess(c.value) <==> action.value.Returns?)
    ensures action.Some? && action.value.Throws? ==>
      c.value.fault.code == TypeName(action.value.thrown.kind)
  {
    match action
    case None => Raised(ArgumentNullFor("action"))
    case Some(Returns(_)) => Returned(Result(FaultNone, None))
    case Some(Throws(e)) => Returned(Failure(FromException(e, newRef)))
  }

  /** The fault code `TryAwait` uses: `nameof(ex)`. */
  const AwaitFaultCode := "ex"

  /** `Result.TryAwait`: like `Try`, but every failure carries the literal
      code `"ex"` instead of the exception's type name. */
  function TryAwait<T>(fn: Option<Computation<T>>, newRef: FreshRef): (c: Call<Result<T>>)
    ensures fn.None? <==> c.Raised?
    ensures c.Raised? ==> c.error == ArgumentNullFor("function")
    ensures fn.Some? && fn.value.Returns? ==>
      c.value == Success(fn.value.result)
    ensures fn.Some? && fn.value.Throws? ==>
      && IsFailure(c.value)
      && c.value.fault.code == AwaitFaultCode
      && c.value.fault.message == fn.value.thrown.message
  {
    match fn
    case None => Raised(ArgumentNullFor("function"))
    case Some(Returns(v)) => Returned(Success(v))
    case Some(Throws(e)) => Returned(Failure(Fault(newRef, AwaitFaultCode, e.message)))
  }

  /** `Try` and `TryAwait` fail on the same inputs and differ only in the
      code they record. */
  lemma TryAndTryAwaitAgree<T>(fn: Computation<T>, newRef: FreshRef)
    ensures Try(Some(fn), false, newRef).call.Returned?
    ensures TryAwait(Some(fn), newRef).Returned?
    ensures IsSuccess(Try(Some(fn), false, newRef).call.value)
        <==> IsSuccess(TryAwait(Some(fn), newRef).value)
    ensures fn.Returns? ==>
      Try(Some(fn), false, newRef).call.value == TryAwait(Some(fn), newRef).value
  {
  }

  // -------------------------------------------------------------- Match

  /** `Match` with functions: the success branch sees the value, the failure
      branch the fault; null arguments are rejected first. */
  function MatchWith<T>(
    r: Option<Result<T>>,
    success: Option<Option<T> -> Result<T>>,
    failure: Option<Fault -> Result<T>>): (c: Call<Result<T>>)
    ensures c.Raised? <==> r.None? || success.None? || failure.None?
    ensures r.None? ==> c == Raised(ArgumentNullFor("result"))
    ensures r.Some? && success.None? ==> c == Raised(ArgumentNullFor("success"))
    ensures r.Some? && success.Some? && failure.None? ==> c == Raised(ArgumentNullFor("failure"))
    ensures c.Returned? && IsSuccess(r.value) ==> c.value == success.value(r.value.stored)
    ensures c.Returned? && IsFailure(r.value) ==> c.value == failure.value(r.value.fault)
  {
    if r.None? then Raised(ArgumentNullFor("result"))
    else if success.None? then Raised(ArgumentNullFor("success"))
    else if failure.None? then Raised(ArgumentNullFor("failure"))
    else if IsSuccess(r.value) then Returned(success.value(r.value.stored))
    else Returned(failure.value(r.value.fault))
  }

  /** One invocation of a `Match` callback, with its argument. */
  datatype Invocation<T> = RanSuccess(Option<T>) | RanFailure(Fault) | RanAlways(Option<T>)

  /** Which of the three callbacks of the action form are non-null. */
  datatype Callbacks = Callbacks(success: bool, failure: bool, always: bool)

  /** `Match` with actions: on success it runs `success` then `always`; on
      failure only `failure`. The result object comes back unchanged. */
  function MatchDo<T>(r: Option<Result<T>>, callbacks: Callbacks)
    : (o: (Call<Result<T>>, seq<Invocation<T>>))
    ensures o.0.Raised? <==>
      r.None? || !callbacks.success || !callbacks.failure || !callbacks.always
    ensures o.0.Raised? ==> o.1 == []
    ensures r.None? ==> o.0 == Raised(ArgumentNullFor("result"))
    ensures r.Some? && !callbacks.success ==> o.0 == Raised(ArgumentNullFor("success"))
    ensures r.Some? && callbacks.success && !callbacks.failure ==>
      o.0 == Raised(ArgumentNullFor("failure"))
    ensures r.Some? && callbacks.success && callbacks.failure && !callbacks.always ==>
      o.0 == Raised(ArgumentNullFor("always"))
    ensures o.0.Returned? ==> o.0.value == r.value
    ensures o.0.Returned? && IsSuccess(r.value) ==>
      o.1 == [RanSuccess(r.value.stored), RanAlways(r.value.stored)]
    ensures o.0.Returned? && IsFailure(r.value) ==> o.1 == [RanFailure(r.value.fault)]
  {
    if r.None? then (Raised(ArgumentNullFor("result")), [])
    else if !callbacks.success then (Raised(ArgumentNullFor("success")), [])
    else if !callbacks.failure then (Raised(ArgumentNullFor("failure")), [])
    else if !callbacks.always then (Raised(ArgumentNullFor("always")), [])
    else if IsSuccess(r.value) then
      (Returned(r.value), [RanSuccess(r.value.stored), RanAlways(r.value.stored)])
    else
      (Returned(r.value), [RanFailure(r.value.fault)])
  }

  // ---------------------------------------------------- ExecuteWithLogger

  /** `Fault` does not override `ToString`, so the thrown message is the
      type's full name. */
  const FaultTypeName := "Microsoft.FeatureManagement.Plus.Patterns.Fault"

  /** `ExecuteWithLogger`: check the delegate, then log its start, which
      rejects a null logger before the delegate runs; run the delegate through
      `TryAwait`, log, and on failure throw — a plain `Exception` when
      `throwError` is set, otherwise the `InvalidOperationException` from
      reading `Value`. */
  function ExecuteWithLogger<T>(fn: Option<Computation<T>>, hasLogger: bool, throwError: bool,
                                newRef: FreshRef)
    : (c: Call<Option<T>>)
    ensures fn.None? ==> c == Raised(ArgumentNullFor("function"))
    ensures fn.Some? && !hasLogger ==> c == Raised(ArgumentNullFor("logger"))
    ensures fn.Some? && hasLogger && fn.value.Returns? ==> c == Returned(Some(fn.value.result))
    ensures fn.Some? && hasLogger && fn.value.Throws? && throwError ==>
      c == Raised(Exc(PlainException, FaultTypeName))
    ensures fn.Some? && hasLogger && fn.value.Throws? && !throwError ==>
      c == Raised(Exc(InvalidOperation, ValueOnFailureMessage))
  {
    if fn.None? then Raised(ArgumentNullFor("function"))
    else if !hasLogger then Raised(ArgumentNullFor("logger"))
    else
      var result := TryAwait(fn, newRef).value;
      if IsFailure(result) && throwError then Raised(Exc(PlainException, FaultTypeName))
      else Value(result)
  }

  /** Whatever the logger and `throwError`, a failing delegate never yields
      a value. */
  lemma ExecuteWithLoggerNeverSwallows<T>(e: Exc, hasLogger: bool, throwError: bool, newRef: FreshRef)
    ensures ExecuteWithLogger<T>(Some(Throws(e)), hasLogger, throwError, newRef).Raised?
  {
  }

  /** `TaskValue`: a null task is rejected; otherwise the awaited result
      (itself possibly null) is returned as a `T`, which goes through the
      implicit conversion `ToValue`. */
  function TaskValue<T>(task: Option<Option<Result<T>>>): (c: Call<Option<T>>)
    ensures task.None? ==> c == Raised(NullTaskError)
    ensures task.Some? && task.value.None? ==> c == Returned(None)
    ensures task.Some? && task.value.Some? && IsSuccess(task.value.value) ==>
      c == Returned(task.value.value.stored)
    ensures task.Some? && task.value.Some? && IsFailure(task.value.value) ==>
      c == Raised(Exc(InvalidOperation, ValueOnFailureMessage))
  {
    match task
    case None => Raised(NullTaskError)
    case Some(r) => ToValue(r)
  }

  const NullTaskError :=
    Exc(ArgumentNull, "The result task cannot be null. (Parameter 'resultTask')")

  /** Awaiting the task of a success yields its value, and awaiting the
      task of a failure raises the `Value` exception, never the result
      object itself. */
  lemma TaskValueUnwraps<T>(v: T, f: Fault)
    ensures TaskValue(Some(Some(Success(v)))) == Returned(Some(v))
    ensures IsFailure(Failure<T>(f)) ==>
      TaskValue(Some(Some(Failure<T>(f)))) == Raised(Exc(InvalidOperation, ValueOnFailureMessage))
    ensures TaskValue<T>(Some(None)) == Returned(None)
  {
  }

  /** `AsyncValue`: the wrapped sequence via `Value`, so a failure throws. */
  function AsyncValue<T>(r: Option<Result<T>>): (c: Call<Option<T>>)
    ensures r.None? ==> c == Raised(ArgumentNullFor("result"))
    ensures r.Some? ==> c == Value(r.value)
    ensures r.Some? && IsSuccess(r.value) ==> c == Returned(r.value.stored)
  {
    match r
    case None => Raised(ArgumentNullFor("result"))
    case Some(res) => Value(res)
  }
}

=== FILE: tenant_filter.dfy ===
/** The legacy `TenantFilter` (`ContextFilterBase`): a contextual feature
    filter that grants a feature to a tenant when the feature-tenant table
    holds a row pairing them, with each verdict cached under a key built
    from the feature name and the tenant id, and all verdicts expired
    together through the filter's own cancellation token. */
module TenantFilter {
  import opened Base
  import opened MemoryCache
  import opened Chain
  import Cascade

  /** A `Guid` as `ToString()` prints it in an interpolated string: the
      36-character "D" format. */
  type Guid = g: string | |g| == 36 witness "00000000-0000-0000-0000-000000000000"

  /** The filter's application context, `TenantFilterContext`. */
  datatype Context = Context(tenantId: Guid)

  /** One row of the feature-tenant table. */
  datatype TenantRow = TenantRow(featureId: string, tenantId: Guid, enabled: bool)

  const KeyPrefix := "TenantFilter:"

  /** `GetCacheKey`: `TenantFilter:{featureName}:{TenantId}`. */
  function CacheKey(featureName: string, tenant: Guid): (key: string)
    ensures |key| == |KeyPrefix| + |featureName| + 1 + 36
    ensures key[..|KeyPrefix|] == KeyPrefix
    ensures key[|KeyPrefix|..|key| - 37] == featureName
    ensures key[|key| - 37] == ':' && key[|key| - 36..] == tenant
  {
    KeyPrefix + featureName + ":" + tenant
  }

  /** Each feature and tenant pair has a key of its own: the tenant id has
      a fixed width, so a colon inside the feature name cannot make two
      pairs meet. */
  lemma CacheKeyInjective(a: string, s: Guid, b: string, t: Guid)
    ensures CacheKey(a, s) == CacheKey(b, t) <==> a == b && s == t
  {
    if CacheKey(a, s) == CacheKey(b, t) {
      var k := CacheKey(a, s);
      assert a == k[|KeyPrefix|..|k| - 37];
      assert s == k[|k| - 36..];
    }
  }

  /** Verdicts and feature definitions never share a cache entry. */
  lemma CacheKeyIsNoFeatureKey(featureName: string, tenant: Guid, name: string)
    ensures CacheKey(featureName, tenant) != FeatureKey(name)
    ensures CacheKey(featureName, tenant) != LegacyAggregateKey
  {
    assert CacheKey(featureName, tenant)[0] == 'T';
    assert FeatureKey(name)[0] == 'F';
    assert LegacyAggregateKey[0] == 'F';
  }

  /** The query `Where(FeatureId == name && TenantId == tenant).AnyAsync()`:
      the `Enabled` column plays no part. */
  predicate Granted(rows: seq<TenantRow>, featureName: string, tenant: Guid) {
    exists i :: 0 <= i < |rows| && rows[i].featureId == featureName && rows[i].tenantId == tenant
  }

  /** What an evaluation returns, the cache it leaves, and whether it went
      to the database. */
  datatype Verdict = Verdict(call: Call<bool>, store: Store, queried: bool)

  /** `EvaluateAsync` of the filter object `filter`. The key is built
      first, so a null context fails before the cache is consulted. The
      legacy `ExecuteWithCache` always attaches the filter's current token.
      The database is reduced to the rows it holds or the exception the
      query raises. */
  function Evaluate(filter: NodeId, featureName: string, context: Option<Context>,
                    rows: Computation<seq<TenantRow>>, s: Store): (v: Verdict)
    ensures context.None? ==> v == Verdict(Raised(NullReferenceError), s, false)
    ensures context.Some? ==>
      (v.queried <==> Lookup(s, CacheKey(featureName, context.value.tenantId)).None?)
    ensures v.queried && rows.Returns? ==>
      v.call == Returned(Granted(rows.result, featureName, context.value.tenantId))
    ensures v.queried && rows.Returns? ==>
      Lookup(v.store, CacheKey(featureName, context.value.tenantId))
        == Some(Flag(Granted(rows.result, featureName, context.value.tenantId)))
    ensures v.queried && rows.Throws? ==> v == Verdict(Raised(rows.thrown), s, true)
    ensures !v.queried ==> v.store == s
    ensures v.store.epochs == s.epochs
  {
    match context
    case None => Verdict(Raised(NullReferenceError), s, false)
    case Some(c) =>
      var key := CacheKey(featureName, c.tenantId);
      var factory :=
        match rows
        case Returns(table) => Returns(Flag(Granted(table, featureName, c.tenantId)))
        case Throws(e) => Throws(e);
      var r := ExecuteWithCache(s, key, factory, Some(CurrentToken(s, filter)));
      if r.factoryRan then
        CommitThenLookup(s, key, if factory.Returns? then factory.result else Flag(false), filter, true);
        Verdict(if r.call.Returned? then Returned(r.call.value.enabled) else Raised(r.call.error),
                r.store, true)
      else
        Verdict(HitValue(r.call.value), s, false)
  }

  /** A cached verdict as `GetOrCreateAsync<bool>` reads it: a null under
      the key fails the unboxing to `bool` with a null reference, and a
      value of another type fails the cast. Neither happens while verdict
      keys stay apart from definition keys (`CacheKeyIsNoFeatureKey`). */
  function HitValue(v: CachedValue): (c: Call<bool>)
    ensures v.Flag? <==> c.Returned?
    ensures c.Returned? ==> c.value == v.enabled
    ensures v == One(None) ==> c == Raised(NullReferenceError)
    ensures !v.Flag? && v != One(None) ==> c == Raised(CastError(TypeOf(v), BoolTypeName))
  {
    if v.Flag? then Returned(v.enabled)
    else if v == One(None) then Raised(NullReferenceError)
    else Raised(CastError(TypeOf(v), BoolTypeName))
  }

  /** Every row with its `Enabled` column switched off. */
  function Disabled(rows: seq<TenantRow>): (off: seq<TenantRow>)
    ensures |off| == |rows|
    ensures forall i :: 0 <= i < |rows| ==>
      off[i] == TenantRow(rows[i].featureId, rows[i].tenantId, false)
  {
    seq(|rows|, i requires 0 <= i < |rows| => TenantRow(rows[i].featureId, rows[i].tenantId, false))
  }

  /** A tenant keeps a feature whose row is marked disabled: the verdict is
      the same with every row disabled. */
  lemma EnabledColumnIsIgnored(filter: NodeId, featureName: string, context: Context,
                               rows: seq<TenantRow>, s: Store)
    ensures Evaluate(filter, featureName, Some(context), Returns(Disabled(rows)), s)
         == Evaluate(filter, featureName, Some(context), Returns(rows), s)
  {
    var t := context.tenantId;
    if Granted(rows, featureName, t) {
      var i :| 0 <= i < |rows| && rows[i].featureId == featureName && rows[i].tenantId == t;
      assert Disabled(rows)[i].featureId == featureName && Disabled(rows)[i].tenantId == t;
    }
    if Granted(Disabled(rows), featureName, t) {
      var i :| 0 <= i < |Disabled(rows)| && Disabled(rows)[i].featureId == featureName
                && Disabled(rows)[i].tenantId == t;
      assert rows[i].featureId == featureName && rows[i].tenantId == t;
    }
  }

  /** A verdict once computed is served from the cache, whatever the
      table holds by the time of the second evaluation. */
  lemma {:induction false} RepeatIsHit(filter: NodeId, featureName: string, context: Context,
                                       rows: Computation<seq<TenantRow>>, later: Computation<seq<TenantRow>>,
                                       s: Store)
    requires Evaluate(filter, featureName, Some(context), rows, s).call.Returned?
    ensures var v := Evaluate(filter, featureName, Some(context), rows, s);
            var w := Evaluate(filter, featureName, Some(context), later, v.store);
            !w.queried && w.call == v.call && w.store == v.store
  {
    var key := CacheKey(featureName, context.tenantId);
    var v := Evaluate(filter, featureName, Some(context), rows, s);
    if !v.queried {
      var hit := Lookup(s, key).value;
      assert v.call == HitValue(hit);
    }
  }

  /** `ExpireAllCacheItems`: replace the filter's token source and cancel
      the old one. */
  function ExpireAllCacheItems(filter: NodeId, s: Store): (s': Store)
    ensures s'.entries == s.entries
    ensures Cancelled(s', CurrentToken(s, filter))
    ensures forall o :: o != filter ==> Epoch(s', o) == Epoch(s, o)
  {
    Invalidate(s, filter)
  }

  /** After expiry the next evaluation of a pair this filter cached goes
      back to the database. */
  lemma {:induction false} ExpireForcesQuery(filter: NodeId, featureName: string, context: Context,
                                             rows: Computation<seq<TenantRow>>, s: Store)
    requires Lookup(s, CacheKey(featureName, context.tenantId)).None?
    requires rows.Returns?
    ensures var v := Evaluate(filter, featureName, Some(context), rows, s);
            Evaluate(filter, featureName, Some(context), rows, ExpireAllCacheItems(filter, v.store)).queried
  {
    var key := CacheKey(featureName, context.tenantId);
    var v := Evaluate(filter, featureName, Some(context), rows, s);
    assert v.store.entries[key].token == Some(CurrentToken(s, filter));
    assert CurrentToken(s, filter) == CurrentToken(v.store, filter);
    InvalidateExpires(v.store, filter, key);
  }

  /** Evaluating a filter leaves the feature definitions cached by the
      provider decorators as they were. */
  lemma EvaluateKeepsDefinitions(filter: NodeId, featureName: string, context: Option<Context>,
                                 rows: Computation<seq<TenantRow>>, s: Store, name: string)
    ensures Lookup(Evaluate(filter, featureName, context, rows, s).store, FeatureKey(name))
         == Lookup(s, FeatureKey(name))
  {
    if context.Some? {
      CacheKeyIsNoFeatureKey(featureName, context.value.tenantId, name);
    }
  }

  /** The legacy reset reaches the tenant filter: once a reset over a
      filter list that holds it completes, every verdict it had cached is
      gone. */
  lemma {:induction false} ResetExpiresVerdicts(children: seq<Node>, filters: seq<Cascade.Filter>,
                                                filter: NodeId, featureName: string, context: Context,
                                                rows: Computation<seq<TenantRow>>, s: Store)
    requires Cascade.Filter(filter, true) in filters
    requires forall i :: 0 <= i < |children| ==> !Cascade.EndsInNull(children[i])
    requires Lookup(s, CacheKey(featureName, context.tenantId)).None?
    requires rows.Returns?
    ensures var v := Evaluate(filter, featureName, Some(context), rows, s);
            var reset := Cascade.LegacyResetCache(children, Some(filters), v.store);
            reset.thrown.None? && Evaluate(filter, featureName, Some(context), rows, reset.store).queried
  {
    var key := CacheKey(featureName, context.tenantId);
    var v := Evaluate(filter, featureName, Some(context), rows, s);
    var mid := InvalidateAll(v.store, Cascade.ChildrenIds(children));
    var reset := Cascade.LegacyResetCache(children, Some(filters), v.store);
    assert reset.store == InvalidateAll(mid, Cascade.FilterIds(filters));
    var k :| 0 <= k < |filters| && filters[k] == Cascade.Filter(filter, true);
    assert filter in Cascade.FilterIds(filters);
    CountPresent(Cascade.FilterIds(filters), filter);
    InvalidateAllEpochs(v.store, Cascade.ChildrenIds(children), filter);
    InvalidateAllEpochs(mid, Cascade.FilterIds(filters), filter);
    assert v.store.entries[key].token == Some(CurrentToken(s, filter));
    assert Epoch(reset.store, filter) > Epoch(s, filter);
  }
}

=== FILE: text.dfy ===
/** The three .NET string/LINQ operations that the entity mapping chains
    together: `String.Split(',', RemoveEmptyEntries)`, `Enumerable.Distinct`
    (ordinal equality, first occurrence wins) and `String.Trim()`. */
module Text {

  /** `char.IsWhiteSpace`: the Unicode space, line and paragraph separators
      plus U+0009..U+000D and U+0085. `String.Trim()` strips exactly these. */
  predicate IsWhiteSpace(c: char) {
    || ('\U{0009}' <= c <= '\U{000D}')
    || c == ' ' || c == '\U{0085}' || c == '\U{00A0}' || c == '\U{1680}'
    || ('\U{2000}' <= c <= '\U{200A}')
    || c == '\U{2028}' || c == '\U{2029}' || c == '\U{202F}' || c == '\U{205F}'
    || c == '\U{3000}'
  }

  // ---------------------------------------------------------------- Split

  /** Splitting on `,` keeping empty pieces: n separators give n + 1 pieces. */
  function SplitAll(s: string): (pieces: seq<string>)
    ensures |pieces| >= 1
    ensures forall i :: 0 <= i < |pieces| ==> ',' !in pieces[i]
  {
    if |s| == 0 then [""]
    else
      var rest := SplitAll(s[1..]);
      if s[0] == ',' then [""] + rest
      else [[s[0]] + rest[0]] + rest[1..]
  }

  /** `String.Join(",", pieces)`. */
  function Join(pieces: seq<string>): string
    requires |pieces| >= 1
  {
    if |pieces| == 1 then pieces[0] else pieces[0] + "," + Join(pieces[1..])
  }

  /** Joining the pieces back with `,` recovers the input exactly. */
  lemma {:induction false} JoinSplitAll(s: string)
    ensures Join(SplitAll(s)) == s
  {
    if |s| > 0 {
      var rest := SplitAll(s[1..]);
      JoinSplitAll(s[1..]);
      if s[0] != ',' {
        if |rest| == 1 {
          assert Join(SplitAll(s)) == [s[0]] + rest[0];
        } else {
          assert Join(SplitAll(s)) == ([s[0]] + rest[0]) + "," + Join(rest[1..]);
          assert Join(rest) == rest[0] + "," + Join(rest[1..]);
        }
        assert [s[0]] + s[1..] == s;
      } else {
        assert Join(SplitAll(s)) == "" + "," + Join(rest);
        assert "," + s[1..] == s;
      }
    }
  }

  /** Conversely, splitting a join of comma-free pieces gives those pieces. */
  lemma {:induction false} SplitAllJoin(pieces: seq<string>)
    requires |pieces| >= 1
    requires forall i :: 0 <= i < |pieces| ==> ',' !in pieces[i]
    ensures SplitAll(Join(pieces)) == pieces
  {
    if |pieces| == 1 {
      SplitAllCommaFree(pieces[0]);
    } else {
      SplitAllJoin(pieces[1..]);
      SplitAllPrefix(pieces[0], Join(pieces[1..]));
      assert [pieces[0]] + pieces[1..] == pieces;
    }
  }

  /** A comma-free string is a single piece. */
  lemma {:induction false} SplitAllCommaFree(s: string)
    requires ',' !in s
    ensures SplitAll(s) == [s]
  {
    if |s| > 0 {
      assert s[0] in s;
      assert forall c :: c in s[1..] ==> c in s;
      SplitAllCommaFree(s[1..]);
      assert [s[0]] + s[1..] == s;
    }
  }

  /** A comma-free prefix followed by `,` is the first piece. */
  lemma {:induction false} SplitAllPrefix(p: string, t: string)
    requires ',' !in p
    ensures SplitAll(p + "," + t) == [p] + SplitAll(t)
  {
    if |p| == 0 {
      assert p + "," + t == "," + t;
      assert ("," + t)[1..] == t;
    } else {
      assert (p + "," + t)[1..] == p[1..] + "," + t;
      assert forall c :: c in p[1..] ==> c in p;
      assert p[0] in p;
      SplitAllPrefix(p[1..], t);
      assert [p[0]] + p[1..] == p;
    }
  }

  /** Keeps the non-empty strings, in order. */
  function NonEmpty(xs: seq<string>): (ys: seq<string>)
    ensures forall y :: y in ys <==> y in xs && y != ""
    ensures |ys| <= |xs|
  {
    if |xs| == 0 then []
    else if xs[0] == "" then NonEmpty(xs[1..])
    else [xs[0]] + NonEmpty(xs[1..])
  }

  /** Dropping empty strings works piecewise, so the kept strings stay in
      their original order with their multiplicity. */
  lemma {:induction false} NonEmptyAppend(xs: seq<string>, ys: seq<string>)
    ensures NonEmpty(xs + ys) == NonEmpty(xs) + NonEmpty(ys)
  {
    if |xs| == 0 {
      assert xs + ys == ys;
    } else {
      assert (xs + ys)[0] == xs[0];
      assert (xs + ys)[1..] == xs[1..] + ys;
      NonEmptyAppend(xs[1..], ys);
    }
  }

  /** A comma splits the raw pieces of its two sides apart: the pieces of
      `a + "," + b` are those of `a` followed by those of `b`. */
  lemma {:induction false} SplitAllAppend(a: string, b: string)
    ensures SplitAll(a + "," + b) == SplitAll(a) + SplitAll(b)
  {
    var t := a + "," + b;
    if |a| == 0 {
      assert t[0] == ',' && t[1..] == b;
    } else {
      assert t[0] == a[0];
      assert t[1..] == a[1..] + "," + b;
      SplitAllAppend(a[1..], b);
      var front := SplitAll(a[1..]);
      var rest := SplitAll(t[1..]);
      assert rest == front + SplitAll(b);
      if a[0] == ',' {
        assert SplitAll(t) == [""] + rest;
        assert SplitAll(a) == [""] + front;
      } else {
        assert rest[0] == front[0];
        assert rest[1..] == front[1..] + SplitAll(b);
        assert SplitAll(t) == [[a[0]] + rest[0]] + rest[1..];
        assert SplitAll(a) == [[a[0]] + front[0]] + front[1..];
      }
    }
  }

  /** `s.Split(new[] { ',' }, StringSplitOptions.RemoveEmptyEntries)`:
      whitespace-only pieces are kept (there is no TrimEntries option). */
  function Split(s: string): (pieces: seq<string>)
    ensures forall p :: p in pieces ==> p != "" && ',' !in p
    ensures forall p :: p in SplitAll(s) && p != "" ==> p in pieces
  {
    NonEmpty(SplitAll(s))
  }

  /** Splitting keeps source order: the pieces of `a + "," + b` are the
      pieces of `a` followed by the pieces of `b`. */
  lemma SplitAppend(a: string, b: string)
    ensures Split(a + "," + b) == Split(a) + Split(b)
  {
    SplitAllAppend(a, b);
    NonEmptyAppend(SplitAll(a), SplitAll(b));
  }

  /** Two non-empty comma-free pieces joined by one comma split back apart. */
  lemma SplitPair(a: string, b: string)
    requires a != "" && b != "" && ',' !in a && ',' !in b
    ensures Split(a + "," + b) == [a, b]
  {
    SplitAllCommaFree(b);
    SplitAllPrefix(a, b);
    assert NonEmpty([b]) == [b] by {
      assert [b][1..] == [];
    }
    assert [a, b][1..] == [b];
  }

  /** An empty piece between two commas is dropped. */
  lemma SplitSkipsEmpty(a: string, b: string)
    requires a != "" && b != "" && ',' !in a && ',' !in b
    ensures Split(a + ",," + b) == [a, b]
  {
    SplitAllCommaFree(b);
    SplitAllPrefix("", b);
    SplitAllPrefix(a, "," + b);
    assert a + "," + ("," + b) == a + ",," + b;
    assert "" + "," + b == "," + b;
    assert NonEmpty(["", b]) == [b] by {
      assert ["", b][1..] == [b];
      assert NonEmpty([b]) == [b] by {
        assert [b][1..] == [];
      }
    }
    assert SplitAll(a + ",," + b) == [a, "", b];
    assert [a, "", b][1..] == ["", b];
    assert NonEmpty([a, "", b]) == [a] + NonEmpty(["", b]);
  }

  // ------------------------------------------------------------- Distinct

  predicate NoDuplicates<T(==)>(xs: seq<T>) {
    forall i, j :: 0 <= i < j < |xs| ==> xs[i] != xs[j]
  }

  /** `Enumerable.Distinct` after having already seen `seen`. */
  function DistinctFrom(xs: seq<string>, seen: set<string>): (ys: seq<string>)
    ensures forall y :: y in ys <==> y in xs && y !in seen
    ensures NoDuplicates(ys)
  {
    if |xs| == 0 then []
    else if xs[0] in seen then DistinctFrom(xs[1..], seen)
    else [xs[0]] + DistinctFrom(xs[1..], seen + {xs[0]})
  }

  /** `Enumerable.Distinct`: each value once, at its first occurrence. */
  function Distinct(xs: seq<string>): (ys: seq<string>)
    ensures forall y :: y in ys <==> y in xs
    ensures NoDuplicates(ys)
    ensures |ys| <= |xs|
  {
    DistinctLength(xs, {});
    DistinctFrom(xs, {})
  }

  lemma {:induction false} DistinctLength(xs: seq<string>, seen: set<string>)
    ensures |DistinctFrom(xs, seen)| <= |xs|
  {
    if |xs| > 0 {
      DistinctLength(xs[1..], if xs[0] in seen then seen else seen + {xs[0]});
    }
  }

  lemma {:induction false} DistinctFromSnoc(xs: seq<string>, x: string, seen: set<string>)
    ensures DistinctFrom(xs + [x], seen)
         == DistinctFrom(xs, seen) + (if x in xs || x in seen then [] else [x])
  {
    if |xs| == 0 {
      assert xs + [x] == [x];
    } else {
      var ys := xs + [x];
      assert ys[1..] == xs[1..] + [x];
      assert ys[0] == xs[0];
      var seen' := if xs[0] in seen then seen else seen + {xs[0]};
      var tail := if x in xs[1..] || x in seen' then [] else [x];
      assert (x in xs[1..] || x in seen') <==> (x in xs || x in seen) by {
        assert x in xs <==> x == xs[0] || x in xs[1..];
      }
      DistinctFromSnoc(xs[1..], x, seen');
      if xs[0] in seen {
        assert DistinctFrom(ys, seen) == DistinctFrom(xs[1..] + [x], seen);
      } else {
        assert DistinctFrom(ys, seen) == [xs[0]] + DistinctFrom(xs[1..] + [x], seen');
        assert DistinctFrom(xs, seen) == [xs[0]] + DistinctFrom(xs[1..], seen');
        assert [xs[0]] + (DistinctFrom(xs[1..], seen') + tail)
            == ([xs[0]] + DistinctFrom(xs[1..], seen')) + tail;
      }
    }
  }

  /** First-occurrence order: appending a value appends it to the distinct
      view exactly when it is new. Together with `Distinct([]) == []` this
      determines `Distinct` completely. */
  lemma DistinctSnoc(xs: seq<string>, x: string)
    ensures Distinct(xs + [x]) == Distinct(xs) + (if x in xs then [] else [x])
  {
    DistinctFromSnoc(xs, x, {});
  }

  /** Two different values are both kept, in order. */
  lemma DistinctPair(a: string, b: string)
    requires a != b
    ensures Distinct([a, b]) == [a, b]
  {
    assert [a, b][1..] == [b];
    assert [b][1..] == [];
    assert DistinctFrom([b], {a}) == [b] + DistinctFrom([], {a, b});
    assert DistinctFrom([a, b], {}) == [a] + DistinctFrom([b], {} + {a});
  }

  /** A repeated value is kept once. */
  lemma DistinctRepeat(a: string)
    ensures Distinct([a, a]) == [a]
  {
    assert [a, a][1..] == [a];
    assert [a][1..] == [];
    assert DistinctFrom([a], {a}) == DistinctFrom([], {a});
    assert DistinctFrom([a, a], {}) == [a] + DistinctFrom([a], {} + {a});
  }

  // ----------------------------------------------------------------- Trim

  /** The first position at or after `i` that holds no white space, or
      `|s|` when there is none. */
  function SkipStart(s: string, i: nat): (k: nat)
    requires i <= |s|
    ensures i <= k <= |s|
    ensures forall m :: i <= m < k ==> IsWhiteSpace(s[m])
    ensures k == |s| || !IsWhiteSpace(s[k])
    decreases |s| - i
  {
    if i < |s| && IsWhiteSpace(s[i]) then SkipStart(s, i + 1) else i
  }

  /** The end of `s[lo..j]` once its trailing white space is dropped. */
  function SkipEnd(s: string, lo: nat, j: nat): (k: nat)
    requires lo <= j <= |s|
    ensures lo <= k <= j
    ensures forall m :: k <= m < j ==> IsWhiteSpace(s[m])
    ensures k == lo || !IsWhiteSpace(s[k - 1])
    decreases j
  {
    if lo < j && IsWhiteSpace(s[j - 1]) then SkipEnd(s, lo, j - 1) else j
  }

  /** `String.Trim()`: the longest slice of `s` that neither starts nor ends
      with white space, obtained by dropping only white space. */
  function Trim(s: string): (r: string)
    ensures exists i, j ::
      && 0 <= i <= j <= |s| && r == s[i..j]
      && (forall k :: 0 <= k < i ==> IsWhiteSpace(s[k]))
      && (forall k :: j <= k < |s| ==> IsWhiteSpace(s[k]))
    ensures r == [] || (!IsWhiteSpace(r[0]) && !IsWhiteSpace(r[|r| - 1]))
  {
    var i := SkipStart(s, 0);
    var j := SkipEnd(s, i, |s|);
    s[i..j]
  }

  /** Trimming removes characters and adds none, so no comma appears. */
  lemma TrimKeepsCommaFree(p: string)
    requires ',' !in p
    ensures ',' !in Trim(p)
  {
    var i := SkipStart(p, 0);
    var j := SkipEnd(p, i, |p|);
    forall k | 0 <= k < j - i
      ensures p[i..j][k] != ','
    {
      assert p[i..j][k] == p[i + k];
    }
  }

  /** Trimming twice is trimming once. */
  lemma TrimIdempotent(s: string)
    ensures Trim(Trim(s)) == Trim(s)
  {
    TrimSolid(Trim(s));
  }

  /** A string that neither starts nor ends with white space is already
      trimmed. */
  lemma TrimSolid(s: string)
    requires s == [] || (!IsWhiteSpace(s[0]) && !IsWhiteSpace(s[|s| - 1]))
    ensures Trim(s) == s
  {
    assert SkipStart(s, 0) == 0;
    assert SkipEnd(s, 0, |s|) == |s|;
    assert s[0..|s|] == s;
  }

  /** A string of white space only trims to the empty string. */
  lemma {:induction false} TrimAllWhiteSpace(s: string)
    requires forall k :: 0 <= k < |s| ==> IsWhiteSpace(s[k])
    ensures Trim(s) == ""
  {
    assert SkipStart(s, 0) == |s|;
  }
}
